=== FILE: README.md ===
# vast-cli core, modelled in Dafny

This is a model of the pure core of `vast_cli`, the vast.ai command-line client. The model covers:

- **The offer-search query compiler.** `parse_query` turns a filter such as `reliability>0.98 gpu_name=RTX_3090 geolocation in [TW,SE]` into a map `field -> {operator -> value}`. The model also covers its regex tokenizer and `parse_vast_url`.
- **The command registry (`apwrap`).** This covers:
  - deriving command names from handler names;
  - the verb and object sets and hidden aliases;
  - token merging in `parse_args`;
  - the required flag of mutually exclusive groups;
  - mirroring global options onto every sub-parser.
- **The argument validators.** These are:
  - cron-style day and hour parsing and frequency consistency;
  - quote-aware splitting and the docker-option parser `parse_env`;
  - volume and portal-config validation;
  - `strip_strings`.
- **Small helpers.** These are:
  - driver-version encoding;
  - list chunking;
  - regions;
  - schedule labels;
  - the 2FA payload;
  - runtype selection;
  - `select`.
- **Pure steps inside command handlers:**
  - in `search offers`: the default filter, the sort-order spec, the type rewrite and the `rented` post-filter;
  - in `show invoices-v1`: the request parameters;
  - `apiurl` and `apiheaders`.
- **Version checking:** `parse_version`, the git tag prefix, and the update decision.
- **Display helpers:** `deindent`, null-string translation, and print gating.
- **SSH keys:** public-key validation.

### Representation

- **Python dicts** are association lists `seq<(K, V)>` (module `PyDict`), because insertion order is observable. `apiurl` serialises parameters in dict order, and the `rented` filter reads the first operator key. `Get` finds a key and `Set` overwrites in place or appends, as assignment to a Python dict does.
- **Loosely typed values** use one `Json` datatype: query values, offer rows, request parameters and volume info.
- **Exceptions** are a `Result` whose error is a `PyExc.Exc` naming the Python exception class.
- **The world** is passed in as function parameters: the clock, `os.path.exists` plus reading a file, the `strptime` branch of date parsing, `quote_plus` and `json.dumps`.

The modules follow the source files:

| module | source |
|---|---|
| `QueryLexer` and `QueryCompiler` | `query/parser.py` |
| `VastUrl` and `PathRegex` | `parse_vast_url` |
| `Registry` | `parser.py` |
| `Validators` | `validation/validators.py` |
| `Helpers`, `Chunking`, `Regions`, `Schedule` | `helpers.py` |
| `Search` | `commands/search.py` |
| `Billing` | `commands/billing.py` |
| `ApiHelpers` | `api/helpers.py` |
| `VersionCheck` | `version/checker.py` |
| `Formatting` | `display/formatting.py` |
| `SshKeys` | `auth/keys.py` |

`PyStr`, `PyDict`, `Json`, `PyExc` and `Wrappers` model the Python built-ins the code relies on:

- `str.split`, `join`, `strip`, `partition`, `lower` and `zfill`;
- `int()` on text;
- dict access;
- truthiness.

## Model

| member | source | states |
|---|---|---|
| QueryLexer.MatchAt | vast_cli/query/parser.py:44 | one regex match at a word character: a non-empty field, and the captured groups are a prefix of the text |
| QueryLexer.JoinedNoLonger | vast_cli/query/parser.py:45 | the concatenated groups of `re.findall` are never longer than the query |
| QueryLexer.ReconstructsIffCovers | vast_cli/query/parser.py:76-79 | the reconstruction check passes exactly when the matches, separated by skipped non-word characters, cover the whole text |
| QueryLexer.LeadingNonWordUnconsumed | vast_cli/query/parser.py:76-79 | a query that starts with a non-word character is always refused as unconsumed text |
| QueryLexer.FindallWellFormed | vast_cli/query/parser.py:44-45 | every match has a non-empty field of word characters, gaps of spaces only, and a value that does not start with a space |
| QueryCompiler.OpNameRoundTrip | vast_cli/query/parser.py:52-72 | every operator's wire name is in the operator table and maps back to that operator |
| QueryCompiler.WordOpsKnown | vast_cli/query/parser.py:44-72 | every spelled-out operator the regex accepts is a key of the operator table |
| QueryCompiler.ParseQuery | vast_cli/query/parser.py:33-79 | no query returns the base filter untouched; text the matches do not cover is a ValueError; otherwise the clauses are folded into the base in order |
| QueryCompiler.Step | vast_cli/query/parser.py:81-137 | an unknown or missing operator is a ValueError; then, in the source's order, a blank value is the "Value cannot be blank" ValueError, a blank field the "Field cannot be blank" one, and a wildcard with an operator other than `eq` the "Wildcard only makes sense with equals" one; an accepted clause changes only the written and the canonical field; an aliased field's own key is removed; a wildcard removes the field |
| QueryCompiler.StepLookup | vast_cli/query/parser.py:113-137 | after a clause, its operator holds the normalised value, the field's other operators are kept, and an alias's operators are merged under the canonical name |
| QueryCompiler.StepGood | vast_cli/query/parser.py:81-137 | one clause keeps a filter well formed: distinct fields, and for each field distinct operators named by the operator table |
| QueryCompiler.FoldGood | vast_cli/query/parser.py:81-139 | the whole clause loop keeps a filter well formed |
| QueryCompiler.ParseQueryGood | vast_cli/query/parser.py:24-139 | compiling into a well-formed base gives a well-formed filter |
| QueryCompiler.FoldOtherFields | vast_cli/query/parser.py:81-137 | fields that no clause names, directly or through an alias, keep their base entry |
| QueryCompiler.InListRoundTrip | vast_cli/query/parser.py:82-99 | an `in` value written as `[a,b,c]` compiles to the list of its items, in order |
| QueryCompiler.ItemsOfJoin | vast_cli/query/parser.py:99 | splitting a comma-joined list of trimmed items and dropping blanks gives the items back |
| QueryCompiler.CleanText | vast_cli/query/parser.py:113-119 | the cleaned text holds no `_` (each became a space), neither end is `"`, and it is no longer than the input |
| QueryCompiler.Literal | vast_cli/query/parser.py:125-132 | `true`/`True` become True, `false`/`False` become False, `None`/`null` become None; every other value is kept unchanged |
| QueryCompiler.LiteralsCoerced | vast_cli/query/parser.py:113-132 | outside the multiplier fields, the six literal spellings are stored as the constants True, False or None, not as text |
| QueryCompiler.UnderscoresBecomeSpaces | vast_cli/query/parser.py:113-132 | outside the multiplier fields, unquoted text is stored with every `_` replaced by a space, unless the result is a literal spelling |
| QueryCompiler.DigitsStayText | vast_cli/query/parser.py:123-132 | outside the multiplier fields, numeric-looking text is stored as text |
| QueryCompiler.MultiplierScales | vast_cli/query/parser.py:120-122 | a multiplier field stores the parsed number times the field's unit factor, or fails as `float()` does |
| VastUrl.ParseVastUrl | vast_cli/query/parser.py:145-177 | more than one `:` is a VRLException; after the split, the URL is accepted exactly when its path is `/` or a Unix path, and otherwise it is a VRLException; `id:path` splits back into its parts; a bare integer is an instance with path `/` |
| VastUrl.SplitVrl | vast_cli/query/parser.py:154-168 | the split fails exactly when there are two or more colons |
| VastUrl.ParseVastUrlSplit | vast_cli/query/parser.py:157-172 | `id:path`, with a valid path and no other colon, parses to exactly that id and path |
| VastUrl.ParseVastUrlInstance | vast_cli/query/parser.py:163-168 | an integer written in decimal parses to that instance with path `/` |
| PathRegex.MatchesUnixPathIff | vast_cli/query/parser.py:170-172 | the path regex accepts exactly the non-empty texts without NUL and without two slashes in a row |
| PathRegex.SegmentsIff | vast_cli/query/parser.py:170 | the repeated `[^/\0]+(/)?` group matches exactly the texts that do not start with `/` and have no NUL or double slash |
| Helpers.NumericVersionOfTriple | vast_cli/helpers.py:281-302 | `a.b.c` with parts of at most three digits encodes as `a*1000000 + b*1000 + c` |
| Helpers.NumericVersionExample | vast_cli/helpers.py:281-302 | `535.86.05` encodes as 535086005 |
| Helpers.NumericVersionNeedsTwoDots | vast_cli/helpers.py:281-302 | an encodable version has exactly two dots |
| Helpers.GetRuntype | vast_cli/helpers.py:33-52 | jupyter is wanted for `jupyter`, `jupyter_dir` or `jupyter_lab`; jupyter together with arguments is refused; empty arguments become none; when jupyter or ssh is chosen, the direct variants appear exactly when `direct` is set; otherwise the runtype stays `ssh` or `args` |
| Helpers.RuntypeTextModes | vast_cli/helpers.py:33-52 | the runtype text splits back into the chosen modes |
| Helpers.FilterTruthy | vast_cli/helpers.py:521 | exactly the entries with truthy values survive |
| Helpers.FilterTruthyGet | vast_cli/helpers.py:521 | a key keeps its value when that value is truthy, and is gone otherwise |
| Helpers.TfaPayload | vast_cli/helpers.py:509-522 | every payload value is truthy and comes from the base fields or the keyword arguments |
| Helpers.TfaPayloadGet | vast_cli/helpers.py:509-522 | a keyword argument overrides the base field of the same name, and a falsy result is dropped |
| Helpers.TfaPayloadMethod | vast_cli/helpers.py:509-522 | `tfa_method` is `sms` exactly when `sms` is set, and `totp` otherwise |
| Helpers.Select | vast_cli/helpers.py:311-317 | the set of non-None values of the key across the rows; an unhashable value is a TypeError. `commands/billing.py:42-48` is the same code |
| Chunking.Chunks | vast_cli/helpers.py:218-222 | non-empty chunks of at most k items concatenate back to the list; all but the last have exactly k |
| Chunking.SplitList | vast_cli/helpers.py:218-222 | `split_list` concatenates back to the list in full chunks of k; a zero step raises |
| Chunking.FloorDiv | vast_cli/helpers.py:210 | Python's `//` rounds toward negative infinity |
| Chunking.SplitIntoSublistsBound | vast_cli/helpers.py:208-216 | a non-empty list splits into at most k chunks of at most ceil(len/k) items that concatenate back to it |
| Chunking.SplitIntoSublistsEmpty | vast_cli/helpers.py:208-216 | an empty list makes the step zero and raises |
| Regions.IsValidRegion | vast_cli/helpers.py:163-170 | a region is valid exactly when it is a region name or a bracketed list of two-character codes |
| Regions.EmptyCodeListInvalid | vast_cli/helpers.py:163-170 | `[]` is not a valid region |
| Regions.CodeListValidIff | vast_cli/helpers.py:163-170 | a bracketed, comma-joined list is valid exactly when every entry is two characters once trimmed |
| Regions.ParseRegion | vast_cli/helpers.py:172-176 | a region name maps to its code list; anything else is left unchanged |
| Regions.ParseRegionIdempotent | vast_cli/helpers.py:154-176 | parsing a parsed region changes nothing |
| Schedule.PyIndex | vast_cli/helpers.py:1318 | Python list indexing: negative indices count from the end, and out of range is an IndexError |
| Schedule.DayLabel | vast_cli/helpers.py:1315-1320 | an unset day is `Everyday`; otherwise the day is read as an int first |
| Schedule.DayLabelIndex | vast_cli/helpers.py:1315-1320 | day d is the weekday name with 0 = Sunday, negative days count from Saturday, and days outside -7..6 raise |
| Schedule.HourLabel | vast_cli/helpers.py:1322-1328 | an unset hour is `Every hour`; otherwise it is the 12-hour text of the int |
| Schedule.HourTextRoundTrip | vast_cli/helpers.py:1322-1328 | the `<h12>_AM` / `<h12>_PM` text of an hour 0..23 reads back as that hour, so 0 is `12_AM` and 12 is `12_PM` |
| Schedule.MinuteLabel | vast_cli/helpers.py:1330-1333 | an unset minute is `Every minute`; otherwise it is the zero-padded minute |
| Schedule.MinuteTextRoundTrip | vast_cli/helpers.py:1330-1333 | a minute 0..59 is written as two digits that read back as the minute |
| Schedule.NormalizeSchedule | vast_cli/helpers.py:1311-1335 | the three schedule fields are replaced by their labels, every other key is kept, and the first label that fails is the error |
| Schedule.NormalizedReadsBack | vast_cli/helpers.py:1311-1335 | the normalised hour and minute of a job read back as the job's hour and minute |
| Validators.StripStrings | vast_cli/validation/validators.py:30-37 | strings, lists and dicts keep their kind, list lengths and dict keys are kept, and other values are unchanged |
| Validators.StripStringsStripped | vast_cli/validation/validators.py:30-37 | no string inside the result has whitespace at either end |
| Validators.StripStringsIdempotent | vast_cli/validation/validators.py:30-37 | stripping twice is stripping once |
| Validators.ParseCron | vast_cli/validation/validators.py:77-107 | `*` after stripping is none; an integer in range is that integer; anything else is an ArgumentTypeError |
| Validators.ParseDayCron | vast_cli/validation/validators.py:77-91 | an accepted day is 0..6 |
| Validators.ParseHourCron | vast_cli/validation/validators.py:93-107 | an accepted hour is 0..23 |
| Validators.CronRoundTrip | vast_cli/validation/validators.py:77-107 | an in-range number written in decimal parses to itself |
| Validators.CronOutOfRange | vast_cli/validation/validators.py:77-107 | an out-of-range number is refused |
| Validators.ValidateFrequency | vast_cli/validation/validators.py:109-130 | the check passes exactly when day and hour fit the frequency; a violation exits with that frequency's message |
| Validators.FrequencyCases | vast_cli/validation/validators.py:122-130 | HOURLY needs neither day nor hour, DAILY an hour only, WEEKLY both |
| Validators.CronFrequencies | vast_cli/validation/validators.py:77-130 | the same rules stated on the `*` arguments as typed |
| Validators.SmartSplit | vast_cli/validation/validators.py:199-218 | there is one more part than separators seen outside quotes |
| Validators.SmartSplitJoin | vast_cli/validation/validators.py:199-218 | joining the parts with the separator gives the input back |
| Validators.SmartSplitUnquoted | vast_cli/validation/validators.py:199-218 | without quote characters it is `str.split` |
| Validators.QuotedKeepsSeparator | vast_cli/validation/validators.py:205-211 | a single-quoted piece stays one part, quotes included, even when it holds separators |
| Validators.EnvOption | vast_cli/validation/validators.py:233-254 | `-p`, `-v` and `-n` values are kept only when every character is allowed; `-e K=V` maps K to everything after the first `=` with quotes stripped; `-h` is stored under `-h` |
| Validators.EnvPair | vast_cli/validation/validators.py:226-255 | an option consumes exactly the next token, even when it rejects it |
| Validators.EnvSingleAssignment | vast_cli/validation/validators.py:220-257 | `-e K=V` with a plain name and value gives exactly that variable |
| Validators.AssignmentOption | vast_cli/validation/validators.py:238-244 | `-e K=V` maps K to V when V has no quotes to strip |
| Validators.ValidateVolumeParams | vast_cli/validation/validators.py:132-155 | accepted exactly when the size comes with a create, a create or link comes with a mount path, and the mount path matches the path regex; `create_new` mirrors `--create-volume`; `volume_id` is the created id, or else `--link-volume` as given (null when absent); the size defaults to 15 only when creating |
| Validators.WithoutJupyterIdempotent | vast_cli/validation/validators.py:164 | filtering out jupyter entries twice is filtering once |
| Validators.FilterPortalConfigIdempotent | vast_cli/validation/validators.py:163-169 | filtering a filtered `PORTAL_CONFIG` changes nothing |
| Validators.ValidatePortalConfig | vast_cli/validation/validators.py:157-169 | a jupyter runtype leaves `env` alone; otherwise jupyter entries are removed from `PORTAL_CONFIG`, at least one must remain, and no other variable changes |
| Validators.PortalConfigIdempotent | vast_cli/validation/validators.py:157-169 | validating an already validated request changes nothing |
| Registry.CommandParts | vast_cli/parser.py:103-104 | the dashed handler name is the verb, then `--`, then the object |
| Registry.CommandNameOfHandler | vast_cli/parser.py:103-105 | `verb__obj` registers as verb `verb` and object `obj` with dashes |
| Registry.GetName | vast_cli/parser.py:83-91 | with an object, the verb joins `verbs` and the object joins `objs`; without one, only the name joins `objs` |
| Registry.AliasNames | vast_cli/parser.py:106-109 | every alias gets a name, and the verb and object sets only grow |
| Registry.AliasVerbsSpaceless | vast_cli/parser.py:108 | a verb an alias adds never holds a space |
| Registry.CompleterFor | vast_cli/parser.py:180-192 | the machine completer is chosen exactly for first flags starting with `machine` in any case |
| Registry.Groups | vast_cli/parser.py:150-163 | each group is named once, and exactly the groups some argument names |
| Registry.GroupRequired | vast_cli/parser.py:153-163 | a group is required exactly when one of its members says `required=True` |
| Registry.ProcessArguments | vast_cli/parser.py:148-178 | every argument is placed once, in order, into one of the groups or onto the sub-parser, with `required` popped from grouped ones |
| Registry.PlacedInOwnGroup | vast_cli/parser.py:165-176 | with distinct first flags, every argument lands in its own group |
| Registry.Register | vast_cli/parser.py:102-126 | exactly one sub-parser is appended under the derived name, with its aliases, hidden when there are none |
| Registry.Command | vast_cli/parser.py:93-132 | `help` is added before the first command only, and the new command is last |
| Registry.HelpRegisteredOnce | vast_cli/parser.py:95-100 | over any sequence of declarations, `help` is registered once and first, and the handlers follow in order |
| Registry.FirstCommand | vast_cli/parser.py:95-126 | the first command on an empty registry comes right after `help` |
| Registry.VerbsStaySpaceless | vast_cli/parser.py:83-113 | registering keeps every verb free of spaces |
| Registry.AddArgument | vast_cli/parser.py:58-74 | a clash of option strings (names starting with `-`) with `-h`/`--help` or an earlier global option on the top-level parser raises argparse's ArgumentError; otherwise the top-level parser keeps the real default, and every existing sub-parser gets the option with a suppressed default unless one of its option strings is already taken there, help flags included, in which case it is skipped |
| Registry.GlobalOptionEverywhere | vast_cli/parser.py:58-74 | after mirroring, every sub-parser has a global group and offers the option: it already held one of the flags, or it gained the option with a suppressed default |
| Registry.AddArgumentOnlySuppressed | vast_cli/parser.py:65-70 | sub-parsers never hold a global option's real default |
| Registry.RegisterOnlySuppressed | vast_cli/parser.py:113-121 | a new sub-parser starts without global options, so the same holds after registering |
| Registry.FailWithHelp | vast_cli/parser.py:54-56 | the help action raises SystemExit with no code |
| Registry.MergeTokens | vast_cli/parser.py:137-142 | merging never adds tokens, keeps an empty line empty, and leaves no verb before the last output token |
| Registry.MergeTokensJoin | vast_cli/parser.py:137-142 | space-joining the merged tokens gives the space-joined input |
| Registry.MergeTokensShape | vast_cli/parser.py:137-142 | every merged token is an input token, or a verb glued to the token after it |
| Search.BaseFilter | vast_cli/commands/search.py:281-284 | without `--no-default`, the filter starts with verified = True, external = False, rentable = True and rented = False; with it, empty |
| Search.OrderEntry | vast_cli/commands/search.py:294-305 | a `-` at either end means descending; a `+` at either end means ascending and wins; the field then goes through the alias table |
| Search.ParseOrderJoin | vast_cli/commands/search.py:290-305 | trimmed names joined by commas give one order entry each, in input order |
| Search.OfferType | vast_cli/commands/search.py:312-314 | `interruptible` becomes `bid`, and every other type is kept |
| Search.Body | vast_cli/commands/search.py:307-316 | the body holds the type, the order and the storage; every other key is the compiled filter's |
| Search.BodyLimit | vast_cli/commands/search.py:309-310 | a truthy limit is sent |
| Search.BodyBundling | vast_cli/commands/search.py:315-316 | `disable_bundling` is sent exactly when set |
| Search.SearchRequest | vast_cli/commands/search.py:279-319 | a ValueError from compiling the query gives exit code 1 and no request; other errors propagate; otherwise the body is built from the compiled filter |
| Search.DefaultSearch | vast_cli/commands/search.py:281-288 | with no query and the defaults, the request filters on rented = False |
| Search.FilterOk | vast_cli/commands/search.py:364-376 | the kept rows are at most the input rows, and the filter fails exactly when some comparison fails |
| Search.FilterOkMembers | vast_cli/commands/search.py:364-376 | a row is kept exactly when it is an input row whose test holds |
| Search.FilterOkConcat | vast_cli/commands/search.py:364-376 | the filter distributes over concatenation, so it keeps the input order |
| Search.OtherOperatorKeepsNothing | vast_cli/commands/search.py:368-375 | an operator other than eq, neq, in and notin keeps no rows |
| Search.RentedFilter | vast_cli/commands/search.py:359-376 | without `rented` in the query, every row is kept |
| Search.DefaultKeepsUnrented | vast_cli/commands/search.py:359-376 | the default query keeps exactly the rows whose rented value equals False in Python's sense, a missing or None value counting as False |
| Search.RentedEntryUsable | vast_cli/commands/search.py:359-362 | a well-formed filter's `rented` entry is an object with at least one operator, so the first-key lookup succeeds |
| Billing.ToTimestamp | vast_cli/commands/billing.py:52-59 | ints pass through and bools read as 0 or 1; all-digit strings are read as ints; any other string is the date parser's timestamp, or a ValueError when it does not parse; other types are a ValueError |
| Billing.ToTimestampShown | vast_cli/commands/billing.py:55-57 | a timestamp written in decimal reads back as itself |
| Billing.PyAddInt | vast_cli/commands/billing.py:281-283 | adding an int to an int adds; adding an int to a string is a TypeError |
| Billing.OneSidedDateRaises | vast_cli/commands/billing.py:278-283 | as written, giving exactly one date raises TypeError |
| Billing.DefaultDates | vast_cli/commands/billing.py:278-283 | a given date is kept; a missing one is a week away from the other; with neither, the window is the week ending now |
| Billing.ResolveDates | vast_cli/commands/billing.py:278-292 | the window exists exactly when each given date converts, and it is the defaults applied to the converted dates |
| Billing.ResolveDatesAgrees | vast_cli/commands/billing.py:278-288 | where the code as written does not raise, it agrees with the corrected window |
| Billing.ClampLimit | vast_cli/commands/billing.py:307 | the page size is always 1..100; 1..100 is kept, more becomes 100, and zero or less becomes 20 |
| Billing.ChargeType | vast_cli/commands/billing.py:313-315 | a charge type is known exactly when it is one of the six spellings, and it maps to the long name it abbreviates |
| Billing.Services | vast_cli/commands/billing.py:318-320 | invoice types map through the table in order; an unknown one is a KeyError naming it |
| Billing.SelectFilters | vast_cli/commands/billing.py:303-320 | the filters exist for charges, and for invoices exactly when every invoice type is known |
| Billing.ChargeFilters | vast_cli/commands/billing.py:303-315 | charges filter `day` on the window, and `type` exactly when charge types were given |
| Billing.InvoiceFilters | vast_cli/commands/billing.py:303-320 | invoices filter `when` on the window, and `service` exactly when invoice types were given |
| Billing.InvoiceParams | vast_cli/commands/billing.py:304-323 | the parameters hold the filters, `latest_first`, the clamped limit, `format` for charges only, and the next token as `after_token` |
| Billing.EndpointVersioned | vast_cli/commands/billing.py:325 | both endpoints are already versioned, so `apiurl` sends them unchanged |
| Billing.InvoicesRequest | vast_cli/commands/billing.py:277-326 | the window comes from the corrected `ResolveDates`, not the code as written; a date that cannot be read ends the command with "Error parsing dates" and no request; a timestamp outside the years 1 to 9999 then raises ValueError when it is rendered as a date; after that an unknown invoice type's KeyError escapes; otherwise both timestamps are in range and the URL is the endpoint, `?` and the query string of the invoice parameters, with the API key added |
| Billing.DateBeyondYear9999Raises | vast_cli/commands/billing.py:285-298 | an all-digit date past the end of year 9999 is accepted by the date conversion, but rendering it as a date raises ValueError, so no request is sent |
| Billing.InvoicesChargesRequired | vast_cli/commands/billing.py:232-234 | `--invoices` and `--charges` form the only group, `grp`, and it is required |
| ApiHelpers.FullPath | vast_cli/api/helpers.py:25-26 | a path already under `/api/v<digits>/` is kept; any other gets `/api/v0` prepended |
| ApiHelpers.FullPathVersioned | vast_cli/api/helpers.py:25-26 | the prefixed path is versioned, so prefixing is idempotent |
| ApiHelpers.QueryArgs | vast_cli/api/helpers.py:21-24 | no arguments read as `{}`; an API key is set as `api_key`; every other key is kept |
| ApiHelpers.ApiUrl | vast_cli/api/helpers.py:11-55 | the URL is base plus path, with `?` and the query string only when there are arguments; an API key always makes a query string |
| ApiHelpers.QueryStringSplits | vast_cli/api/helpers.py:40-42 | the query string splits on `&` into one `k=v` pair per argument, in dict order, each with its key before the `=` |
| ApiHelpers.ApiKeySent | vast_cli/api/helpers.py:21-46 | an API key is sent as the last query pair when the caller's arguments do not already hold one |
| ApiHelpers.ApiHeaders | vast_cli/api/helpers.py:57-66 | there is an `Authorization` header exactly when there is a key, and no other header |
| ApiHelpers.BearerRoundTrip | vast_cli/api/helpers.py:65 | the key can be read back from the header after `Bearer ` |
| VersionCheck.ParseVersion | vast_cli/version/checker.py:12-18 | parsing succeeds exactly when every `.`-part is an integer, and gives one int per part; otherwise it is a ValueError |
| VersionCheck.VersionWarning | vast_cli/version/checker.py:15-16 | the warning is printed exactly when there are fewer than two dots |
| VersionCheck.ParseShowVersion | vast_cli/version/checker.py:12-18 | a version written with dots parses back to its numbers |
| VersionCheck.GitVersion | vast_cli/version/checker.py:21-33 | without git output the version is `0.0.0` |
| VersionCheck.GitTagVersion | vast_cli/version/checker.py:29-31 | `v<version>` with a newline reads back as `<version>` |
| VersionCheck.GitTagRoundTrip | vast_cli/version/checker.py:21-33 | a tag `v1.2.3` gives a version that parses to 1, 2, 3 |
| VersionCheck.UnknownLocalIsZero | vast_cli/version/checker.py:59-62 | an undetectable local version parses as 0.0.0 |
| VersionCheck.PypiVersion | vast_cli/version/checker.py:82-90 | a missing, falsy or non-object `info` raises; a missing version reads `None`; a string version is returned as is |
| VersionCheck.TupleLtIsLexLess | vast_cli/version/checker.py:98-102 | tuple comparison is lexicographic order on ints: the first difference decides, and a proper prefix is smaller |
| VersionCheck.TupleLtTransitive | vast_cli/version/checker.py:98-102 | the order is transitive |
| VersionCheck.TupleLtTotal | vast_cli/version/checker.py:98-102 | any two versions are equal or ordered one way |
| VersionCheck.NumericOrder | vast_cli/version/checker.py:98-102 | 1.9.0 is older than 1.10.0, and 1.2 is older than 1.2.0 |
| VersionCheck.WantsUpdateIff | vast_cli/version/checker.py:104-110 | the update is accepted for exactly `y`, `Y` or an empty answer |
| VersionCheck.CheckForUpdate | vast_cli/version/checker.py:92-112 | a result exists exactly when both versions parse; when the local version is not up to date, the update to the published version happens exactly when the answer accepts it |
| VersionCheck.UpdateOfferedIff | vast_cli/version/checker.py:98-102 | the question is asked exactly when the local version is older than the published one |
| VersionCheck.UnknownLocalOffered | vast_cli/version/checker.py:59-112 | with an unknown local version, any release newer than 0.0.0 is offered |
| Formatting.TranslateNulls | vast_cli/display/formatting.py:7-23 | keys and order are kept; an empty string becomes a single space; every other value is unchanged |
| Formatting.TranslateGet | vast_cli/display/formatting.py:7-23 | a lookup after translating is the translated lookup |
| Formatting.TranslateIdempotent | vast_cli/display/formatting.py:7-23 | translating twice is translating once, and no empty string remains |
| Formatting.TranslateUnchangedIff | vast_cli/display/formatting.py:7-23 | a row is unchanged exactly when it holds no empty string |
| Formatting.Deindent | vast_cli/display/formatting.py:26-42 | it raises ValueError exactly when no line with content is indented; otherwise the result has no whitespace at either end |
| Formatting.DeindentShift | vast_cli/display/formatting.py:33-42 | text indented uniformly by n spaces, with some line at the margin before shifting, deindents to the stripped original |
| Formatting.ProgressOutput | vast_cli/display/formatting.py:54-71 | progress is printed exactly when not raw |
| Formatting.DebugOutput | vast_cli/display/formatting.py:73-91 | debug output is printed exactly when debugging and not raw |
| SshKeys.GetSshKey | vast_cli/auth/keys.py:18-49 | the key is accepted exactly when it has no `PRIVATE KEY` and starts with `ssh` in any case; a private key is refused first; an accepted key is returned unchanged |
| SshKeys.LooksPublicIff | vast_cli/auth/keys.py:36 | the prefix test accepts exactly the letters s, s, h in either case |
| SshKeys.PrivateKeyRefused | vast_cli/auth/keys.py:25-34 | text holding `PRIVATE KEY` anywhere is refused as a private key |
| SshKeys.PublicKeyAccepted | vast_cli/auth/keys.py:36-49 | an `ssh-` key without a private-key marker is accepted as given |

## Left out

- Billing.InvoicesRequest: every timestamp outside the years 1 to 9999 is reported as ValueError. For a timestamp beyond what the platform's `time_t` or `gmtime` can hold, CPython raises OverflowError or OSError instead, and the model does not tell these apart.
- **I/O.** The following are not modelled:
  - HTTP requests and their retries;
  - response printing, pagers and tables;
  - the rich-text output;
  - `pretty_print_POST`;
  - `generate_ssh_key`;
  - `load_permissions_from_file`;
  - reading the API-key file;
  - `subprocess` and network calls in the version checker;
  - `get_update_command`;
  - the pip and git detection.
- **External values become parameters.** `os.path.exists` plus reading a file, the git and pip outputs, and the PyPI response are parameters.
- **Interactive answers become parameters.** The clock is the parameter `now`, and the answer to the update question is a parameter.
- **The `strptime` branch of `to_timestamp_`** is the function parameter `parseDate`.
- **Library functions.** `quote_plus` and `json.dumps` in `apiurl` are uninterpreted function parameters.
- **argparse itself.** The following are out of scope:
  - flag parsing, help text and `choices` checking;
  - `parent_only` being passed on to argparse;
  - the argparse objects.

  The registry records what is added and where, not how argparse would parse with it. `HasFlags`, which says every argument has at least one flag, is a precondition: argparse would raise on an argument without one.
- **Print side effects** are not modelled:
  - the unknown-field warning of `parse_query`;
  - the version warning;
  - `print_help` before SystemExit;
  - the `Error parsing dates` message;
  - the `--explain` dump of `apiurl`.
- **The pagination loop of `show invoices-v1`** is not modelled: later pages, `Confirm.ask`, and the result tables. Only the first request is modelled.
- **Error messages.** Long messages are abbreviated, for example the SSH key messages, which in the source go through `deindent`. The text of `int()` and `float()` errors is simplified. The exception class is always kept.
- **Case and digits are ASCII.** `lower()` and `\d` are modelled on ASCII; Python's Unicode case mapping and Unicode digits are not. Whitespace, for `strip()`, `lstrip()` and `rstrip()` without arguments, follows Python's `str.isspace`, Unicode spaces included.
- **Numbers.** `float()` is read as a decimal without exponent, `inf` or `nan`, and the multiplier product is exact over `real`. `int()` on text accepts a sign, ASCII digits and single underscores.
- Helpers.Select: Python's hashing of `True` as `1` in a set is not modelled. The set holds `JBool(true)` and `JInt(1)` as two values, where Python keeps one.
- **`deindent` with `add_separator=True`** draws a line as wide as the terminal and is not modelled.
- **`version_string_sort`** only returns 0 and is not modelled.
- VersionCheck.GitVersion: states only the no-output case in its contract. The tag-prefix strip is stated by `GitTagVersion` and `GitTagRoundTrip`.
- Registry.CompleterFor: states the `machine` case exactly and the `ssh` case in one direction only. A first flag such as `ssh_id` ends in `id` and gets the instance completer, because that test runs first.
- **Duplicates** are modelled once: `validate_volume_params` and `validate_portal_config` in `vast_cli/helpers.py` repeat the ones in `validation/validators.py`, and `commands/billing.py` repeats `select`.
- **`exec_with_threads`, the 2FA flows, `main.py` and the global state** are not part of this model.

## Findings

| source | as written | input that shows it | evidently intended | confidence | as-written member | corrected member |
|---|---|---|---|---|---|---|
| vast_cli/commands/billing.py:278-283 | a missing date is computed as the other date ± 604800, but argparse hands the dates over as strings, so `str + int` raises TypeError | `show invoices-v1 --charges -s 2025-11-30` (start `"2025-11-30"`, no end date) | convert the given date to a timestamp first, then place the missing one a week away, as the comments on those lines and the command's examples describe | not executed | Billing.DefaultDatesAsWritten, shown by Billing.OneSidedDateRaises | Billing.DefaultDates, used through Billing.ResolveDates |

=== FILE: api_helpers.dfy ===
/**
 * URL and header construction for API requests (`apiurl`, `apiheaders`).
 * `quote_plus` and `json.dumps` are not interpreted: they are passed in as
 * functions, and only the properties a lemma names are assumed of them.
 */
module ApiHelpers {
  import opened Wrappers
  import opened PyStr
  import opened PyDict
  import opened Json

  /** `re.match(r"^/api/v(\d)+/", subpath)`: `/api/v`, one or more ASCII digits, then `/`. */
  predicate Versioned(subpath: string) {
    StartsWith(subpath, "/api/v")
    && exists k :: 6 < k < |subpath| && IsDigitString(subpath[6..k]) && subpath[k] == '/'
  }

  /** The path part of the URL: an unversioned subpath gets `/api/v0` in front. */
  function FullPath(subpath: string): (p: string)
    ensures Versioned(subpath) ==> p == subpath
    ensures !Versioned(subpath) ==> p == "/api/v0" + subpath
  {
    if Versioned(subpath) then subpath else "/api/v0" + subpath
  }

  /** A subpath that starts with `/` is versioned once prefixed, so prefixing never happens twice. */
  lemma FullPathVersioned(subpath: string)
    requires StartsWith(subpath, "/")
    ensures Versioned(FullPath(subpath))
    ensures FullPath(FullPath(subpath)) == FullPath(subpath)
  {
    if !Versioned(subpath) {
      var p := "/api/v0" + subpath;
      assert p[6..7] == "0" && p[7] == '/';
      assert StartsWith(p, "/api/v") by { assert p[..6] == "/api/v"; }
    }
  }

  /** A query value as text: strings as they are, anything else JSON-encoded. */
  function ValueText(v: Json, dumps: Json -> string): string {
    if v.JStr? then v.s else dumps(v)
  }

  /** One `key=value` pair of the query string. */
  function Pair(item: (string, Json), quote: string -> string, dumps: Json -> string): string {
    item.0 + "=" + quote(ValueText(item.1, dumps))
  }

  function Pairs(q: Dict<string, Json>, quote: string -> string, dumps: Json -> string): (ps: seq<string>)
    ensures |ps| == |q|
    ensures forall i :: 0 <= i < |q| ==> ps[i] == Pair(q[i], quote, dumps)
  {
    seq(|q|, i requires 0 <= i < |q| => Pair(q[i], quote, dumps))
  }

  /** The query string: the pairs in dict order joined with `&`. */
  function QueryString(q: Dict<string, Json>, quote: string -> string, dumps: Json -> string): string {
    Join(Pairs(q, quote, dumps), "&")
  }

  /** The query arguments after `apiurl`: `None` read as empty, and the API key written in when there is one. */
  function QueryArgs(apiKey: Option<string>, queryArgs: Option<Dict<string, Json>>): (q: Dict<string, Json>)
    ensures apiKey.Some? ==> Get(q, "api_key") == Some(JStr(apiKey.value))
    ensures forall k :: k != "api_key" ==> Get(q, k) == (if queryArgs.Some? then Get(queryArgs.value, k) else None)
    ensures apiKey.None? ==> q == (if queryArgs.Some? then queryArgs.value else [])
  {
    var q0 := if queryArgs.Some? then queryArgs.value else [];
    if apiKey.Some? then Set(q0, "api_key", JStr(apiKey.value)) else q0
  }

  /**
   * `apiurl`: the base URL, the full path, and `?` with the query string
   * only when there are query arguments. The query arguments as updated are
   * returned too, since the caller's dict is written to.
   */
  function ApiUrl(url: string, apiKey: Option<string>, subpath: string, queryArgs: Option<Dict<string, Json>>,
                  quote: string -> string, dumps: Json -> string): (r: (string, Dict<string, Json>))
    ensures r.1 == QueryArgs(apiKey, queryArgs)
    ensures |r.1| == 0 ==> r.0 == url + FullPath(subpath)
    ensures |r.1| > 0 ==> r.0 == url + FullPath(subpath) + "?" + QueryString(r.1, quote, dumps)
    ensures apiKey.Some? ==> |r.1| > 0
  {
    var q := QueryArgs(apiKey, queryArgs);
    if |q| > 0 then (url + FullPath(subpath) + "?" + QueryString(q, quote, dumps), q)
    else (url + FullPath(subpath), q)
  }

  /** What a URL-quoting function is relied on for: its output never holds `&`. */
  ghost predicate QuotesAmpersand(quote: string -> string) {
    forall x :: '&' !in quote(x)
  }

  /**
   * With keys free of `&` and `=` and a quoting function that escapes `&`,
   * the query string splits back into its pairs and each pair's key is read
   * back in dict order.
   */
  lemma {:induction false} QueryStringSplits(q: Dict<string, Json>, quote: string -> string, dumps: Json -> string)
    requires |q| > 0 && QuotesAmpersand(quote)
    requires forall i :: 0 <= i < |q| ==> '&' !in q[i].0 && '=' !in q[i].0
    ensures Split(QueryString(q, quote, dumps), '&') == Pairs(q, quote, dumps)
    ensures forall i :: 0 <= i < |q| ==> Partition(Pairs(q, quote, dumps)[i], "=").0 == q[i].0
  {
    var ps := Pairs(q, quote, dumps);
    forall i | 0 <= i < |ps| ensures '&' !in ps[i] {
      var v := quote(ValueText(q[i].1, dumps));
      assert '&' !in v;
      assert ps[i] == q[i].0 + "=" + v;
    }
    SplitJoin(ps, '&');
    forall i | 0 <= i < |q| ensures Partition(ps[i], "=").0 == q[i].0 {
      KeyBeforeEquals(q[i].0, quote(ValueText(q[i].1, dumps)));
    }
  }

  /** `k=v` with no `=` in `k` partitions at that `=`. */
  lemma KeyBeforeEquals(k: string, v: string)
    requires '=' !in k
    ensures Partition(k + "=" + v, "=").0 == k
  {
    var s := k + "=" + v;
    assert s[|k|..|k| + 1] == "=";
    PartitionFound(s, "=", |k|);
    var p := Partition(s, "=");
    assert forall j :: 0 <= j < |k| ==> s[j] == k[j];
    assert s[|p.0|] == (p.0 + p.1 + p.2)[|p.0|] == '=';
    assert p.0 == s[..|k|];
  }

  /** An API key is always sent: as the last query pair when the caller's arguments did not already name it. */
  lemma ApiKeySent(url: string, key: string, subpath: string, queryArgs: Option<Dict<string, Json>>,
                   quote: string -> string, dumps: Json -> string)
    requires queryArgs.Some? ==> !HasKey(queryArgs.value, "api_key")
    ensures var r := ApiUrl(url, Some(key), subpath, queryArgs, quote, dumps);
            var ps := Pairs(r.1, quote, dumps);
            |ps| > 0 && ps[|ps| - 1] == "api_key=" + quote(key)
  {
    var q0 := if queryArgs.Some? then queryArgs.value else [];
    SetAppends(q0, "api_key", JStr(key));
    var q := QueryArgs(Some(key), queryArgs);
    assert q == q0 + [("api_key", JStr(key))];
    var ps := Pairs(q, quote, dumps);
    assert ps[|ps| - 1] == Pair(("api_key", JStr(key)), quote, dumps);
    assert ValueText(JStr(key), dumps) == key;
    assert "api_key" + "=" == "api_key=";
  }

  /** `apiheaders`: a bearer token exactly when there is an API key. */
  function ApiHeaders(apiKey: Option<string>): (r: Dict<string, string>)
    ensures |r| > 0 <==> apiKey.Some?
    ensures apiKey.Some? ==> Get(r, "Authorization") == Some("Bearer " + apiKey.value)
    ensures forall k :: k != "Authorization" ==> Get(r, k) == None
  {
    if apiKey.Some? then [("Authorization", "Bearer " + apiKey.value)] else []
  }

  /** The key is read back from the header by dropping the `Bearer ` prefix. */
  lemma BearerRoundTrip(key: string)
    ensures var h := Get(ApiHeaders(Some(key)), "Authorization").value;
            StartsWith(h, "Bearer ") && h[7..] == key
  {
  }
}

=== FILE: billing.dfy ===
/**
 * The request that `show invoices-v1` sends (vast_cli/commands/billing.py):
 * date conversion and defaults, the page-size clamp, the charge- and
 * invoice-type filters, the pagination token and the endpoint. The clock
 * is the parameter `now`; the `YYYY-MM-DD` branch of date parsing is the
 * parameter `parseDate`.
 */
module Billing {
  import opened Wrappers
  import opened PyStr
  import opened PyDict
  import opened PyExc
  import opened Json
  import ApiHelpers
  import Registry

  /** Seven days in seconds. */
  const Week := 7 * 24 * 60 * 60

  /**
   * `to_timestamp_`: an int passes through (a bool is an int in Python),
   * an all-digit string is read as an int, any other string goes to the
   * date parser, and anything else is a ValueError.
   */
  function ToTimestamp(val: Json, parseDate: string -> Option<int>): (r: Result<int, Exc>)
    ensures val.JInt? ==> r == Ok(val.i)
    ensures val.JStr? && IsDigitString(val.s) ==> r == Ok(DigitsValue(val.s))
    ensures val.JBool? ==> r == Ok(if val.b then 1 else 0)
    ensures val.JStr? && !IsDigitString(val.s) ==> (r.Ok? <==> parseDate(val.s).Some?)
    ensures val.JStr? && !IsDigitString(val.s) && parseDate(val.s).Some? ==> r.Ok? && r.value == parseDate(val.s).value
    ensures val.JStr? && !IsDigitString(val.s) && parseDate(val.s).None? ==> r.Err? && r.error.ValueError?
    ensures (val.JNull? || val.JReal? || val.JList? || val.JObj?) ==> r == Err(ValueError("Invalid date format"))
  {
    match val
    case JInt(i) => Ok(i)
    case JBool(b) => Ok(if b then 1 else 0)
    case JStr(s) =>
      if IsDigitString(s) then Ok(DigitsValue(s))
      else
        (match parseDate(s)
         case Some(t) => Ok(t)
         case None => Err(ValueError("time data does not match format '%Y-%m-%d%z'")))
    case _ => Err(ValueError("Invalid date format"))
  }

  /** A timestamp written out in decimal is read back as itself. */
  lemma ToTimestampShown(n: nat, parseDate: string -> Option<int>)
    ensures ToTimestamp(JStr(ShowNat(n)), parseDate) == Ok(n)
  {
    ShowNatValue(n);
  }

  // ----- date defaults -----

  /** Python's `x + n` for an int `n`: numbers add, a string raises TypeError. */
  function PyAddInt(x: Json, n: int): (r: Result<Json, Exc>)
    ensures x.JInt? ==> r == Ok(JInt(x.i + n))
    ensures x.JStr? ==> r.Err? && r.error.TypeError?
  {
    match x
    case JInt(i) => Ok(JInt(i + n))
    case JBool(b) => Ok(JInt((if b then 1 else 0) + n))
    case _ => Err(TypeError("unsupported operand type(s) for int arithmetic"))
  }

  /**
   * Lines 278-283 as written: with neither date the end becomes `now`; a
   * missing start is the end minus a week and a missing end the start plus
   * a week, computed on the arguments as argparse left them.
   */
  function DefaultDatesAsWritten(start: Json, end: Json, now: int): (r: Result<(Json, Json), Exc>)
  {
    var end1 := if !Truthy(start) && !Truthy(end) then JInt(now) else end;
    if !Truthy(start) then
      match PyAddInt(end1, -Week)
      case Err(e) => Err(e)
      case Ok(s) => Ok((s, end1))
    else if !Truthy(end1) then
      match PyAddInt(start, Week)
      case Err(e) => Err(e)
      case Ok(e) => Ok((start, e))
    else Ok((start, end1))
  }

  /**
   * argparse hands dates over as strings, so giving exactly one of
   * `--start-date` and `--end-date` raises TypeError before any date is
   * parsed.
   */
  lemma OneSidedDateRaises(given: string, now: int)
    requires |given| > 0
    ensures DefaultDatesAsWritten(JStr(given), JNull, now).Err?
    ensures DefaultDatesAsWritten(JStr(given), JNull, now).error.TypeError?
    ensures DefaultDatesAsWritten(JNull, JStr(given), now).Err?
    ensures DefaultDatesAsWritten(JNull, JStr(given), now).error.TypeError?
  {
  }

  /**
   * The defaults on timestamps: a given date is kept, a missing one is a
   * week away from the other, and with neither the window is the week
   * ending `now`.
   */
  function DefaultDates(start: Option<int>, end: Option<int>, now: int): (r: (int, int))
    ensures start.Some? ==> r.0 == start.value
    ensures end.Some? ==> r.1 == end.value
    ensures start.None? || end.None? ==> r.1 - r.0 == Week
    ensures start.None? && end.None? ==> r.1 == now
  {
    match (start, end)
    case (Some(s), Some(e)) => (s, e)
    case (None, Some(e)) => (e - Week, e)
    case (Some(s), None) => (s, s + Week)
    case (None, None) => (now - Week, now)
  }

  /** A date argument as a timestamp, if it was given. */
  function GivenTimestamp(arg: Json, parseDate: string -> Option<int>): (r: Result<Option<int>, Exc>)
    ensures !Truthy(arg) ==> r == Ok(None)
    ensures Truthy(arg) ==> (r.Ok? <==> ToTimestamp(arg, parseDate).Ok?)
    ensures Truthy(arg) && r.Ok? ==> r.value == Some(ToTimestamp(arg, parseDate).value)
  {
    if !Truthy(arg) then Ok(None)
    else
      match ToTimestamp(arg, parseDate)
      case Err(e) => Err(e)
      case Ok(t) => Ok(Some(t))
  }

  /** The date window, each given date converted first and the defaults applied to timestamps. */
  function ResolveDates(start: Json, end: Json, now: int, parseDate: string -> Option<int>): (r: Result<(int, int), Exc>)
    ensures r.Ok? <==> GivenTimestamp(start, parseDate).Ok? && GivenTimestamp(end, parseDate).Ok?
    ensures r.Ok? ==> r.value == DefaultDates(GivenTimestamp(start, parseDate).value, GivenTimestamp(end, parseDate).value, now)
  {
    match GivenTimestamp(start, parseDate)
    case Err(e) => Err(e)
    case Ok(s) =>
      match GivenTimestamp(end, parseDate)
      case Err(e) => Err(e)
      case Ok(e) => Ok(DefaultDates(s, e, now))
  }

  /**
   * Where the code as written does not raise (both dates given as strings,
   * or neither), converting its result agrees with `ResolveDates`.
   */
  lemma ResolveDatesAgrees(start: Json, end: Json, now: int, parseDate: string -> Option<int>)
    requires (Truthy(start) && Truthy(end)) || (!Truthy(start) && !Truthy(end))
    requires DefaultDatesAsWritten(start, end, now).Ok?
    ensures var w := DefaultDatesAsWritten(start, end, now).value;
            ToTimestamp(w.0, parseDate).Ok? && ToTimestamp(w.1, parseDate).Ok? <==> ResolveDates(start, end, now, parseDate).Ok?
    ensures var w := DefaultDatesAsWritten(start, end, now).value;
            ResolveDates(start, end, now, parseDate).Ok? ==>
              ResolveDates(start, end, now, parseDate).value == (ToTimestamp(w.0, parseDate).value, ToTimestamp(w.1, parseDate).value)
  {
  }

  // ----- request parameters -----

  /** `min(limit, 100) if limit > 0 else 20`: always a page size from 1 to 100. */
  function ClampLimit(limit: int): (r: int)
    ensures 1 <= r <= 100
    ensures 1 <= limit <= 100 ==> r == limit
    ensures limit > 100 ==> r == 100
    ensures limit <= 0 ==> r == 20
  {
    if limit > 0 then (if limit < 100 then limit else 100) else 20
  }

  const ChargeTypes: seq<string> := ["instance", "volume", "serverless", "i", "v", "s"]

  /** A charge type in its long form: the long name itself or its first letter. */
  function ChargeType(ct: string): (r: Option<string>)
    ensures r.Some? <==> ct in ChargeTypes
    ensures r.Some? ==> r.value in ["instance", "volume", "serverless"] && (ct == r.value || ct == r.value[..1])
  {
    if ct == "i" || ct == "instance" then Some("instance")
    else if ct == "v" || ct == "volume" then Some("volume")
    else if ct == "s" || ct == "serverless" then Some("serverless")
    else None
  }

  /** The `type.in` list: the charge types in argument order, long form, anything unrecognised skipped. */
  function ChargeFilter(cts: seq<string>): (r: seq<string>)
    ensures |r| <= |cts|
    ensures forall i :: 0 <= i < |r| ==> r[i] in ["instance", "volume", "serverless"]
    ensures (forall i :: 0 <= i < |cts| ==> cts[i] in ChargeTypes) ==>
              |r| == |cts| && forall i :: 0 <= i < |cts| ==> Some(r[i]) == ChargeType(cts[i])
  {
    if |cts| == 0 then []
    else
      var rest := ChargeFilter(cts[1..]);
      assert forall i :: 0 <= i < |cts| - 1 ==> cts[1..][i] == cts[i + 1];
      match ChargeType(cts[0])
      case Some(t) => [t] + rest
      case None => rest
  }

  /** `invoice_types`: the names accepted by `--invoice-type` and the service each stands for. */
  const InvoiceTypes: Dict<string, string> := [
    ("transfers", "transfer"), ("stripe", "stripe_payments"), ("bitpay", "bitpay"), ("coinbase", "coinbase"),
    ("crypto.com", "crypto.com"), ("reserved", "instance_prepay"), ("payout_paypal", "paypal_manual"),
    ("payout_wise", "wise_manual")]

  /** The `service.in` list: each invoice type looked up in `table` in order; an unknown one is a KeyError. */
  function Services(table: Dict<string, string>, its: seq<string>): (r: Result<seq<string>, Exc>)
    ensures r.Ok? <==> forall i :: 0 <= i < |its| ==> HasKey(table, its[i])
    ensures r.Ok? ==> |r.value| == |its| && forall i :: 0 <= i < |its| ==> Some(r.value[i]) == Get(table, its[i])
    ensures r.Err? ==> r.error.KeyError? && exists i :: 0 <= i < |its| && r.error == KeyError(its[i]) && !HasKey(table, its[i])
  {
    if |its| == 0 then Ok([])
    else
      match Get(table, its[0])
      case None => Err(KeyError(its[0]))
      case Some(s) =>
        assert forall i :: 0 <= i < |its| - 1 ==> its[1..][i] == its[i + 1];
        match Services(table, its[1..])
        case Err(e) => Err(e)
        case Ok(rest) => Ok([s] + rest)
  }

  /** `--charges` or `--invoices`: the required mutually exclusive group makes it exactly one of them. */
  datatype Kind = Charges | Invoices

  /** The options of `show invoices-v1` that reach the request; an absent type list reads as empty. */
  datatype InvoiceArgs = InvoiceArgs(
    kind: Kind, invoiceTypes: seq<string>, chargeTypes: seq<string>, limit: int,
    nextToken: Option<string>, format: string, latestFirst: bool)

  /** The column the date window applies to. */
  function DateColumn(kind: Kind): string {
    if kind.Charges? then "day" else "when"
  }

  /** `{"in": [...]}` */
  function InList(xs: seq<string>): Json {
    JObj([("in", JList(StrList(xs)))])
  }

  /** The filter keys differ from each other and from either date column. */
  lemma FilterKeysDistinct(kind: Kind)
    ensures "type" != DateColumn(kind) && "service" != DateColumn(kind) && "type" != "service"
  {
    assert |"service"| == 7 && |"type"| == 4;
    assert "type"[0] == 't' && DateColumn(kind)[0] != 't';
  }

  /**
   * `select_filters`: the date window on the kind's date column, then,
   * created on the first given type, `type` (charges) or `service`
   * (invoices) holding the filter list.
   */
  function SelectFilters(a: InvoiceArgs, start: int, end: int): (r: Result<Dict<string, Json>, Exc>)
    ensures r.Ok? <==> a.kind.Charges? || Services(InvoiceTypes, a.invoiceTypes).Ok?
  {
    var window := JObj([("gte", JInt(start)), ("lte", JInt(end))]);
    FilterKeysDistinct(a.kind);
    match a.kind
    case Charges =>
      Ok(WindowAndFilter(DateColumn(a.kind), window, "type", if |a.chargeTypes| > 0 then Some(ChargeFilter(a.chargeTypes)) else None))
    case Invoices =>
      match Services(InvoiceTypes, a.invoiceTypes)
      case Err(e) => Err(e)
      case Ok(services) =>
        Ok(WindowAndFilter(DateColumn(a.kind), window, "service", if |a.invoiceTypes| > 0 then Some(services) else None))
  }

  /** Charges are filtered on `day`, and by `type` exactly when charge types were given. */
  lemma ChargeFilters(a: InvoiceArgs, start: int, end: int)
    requires a.kind.Charges?
    ensures var r := SelectFilters(a, start, end);
            r.Ok? && Get(r.value, "day") == Some(JObj([("gte", JInt(start)), ("lte", JInt(end))]))
            && Get(r.value, "type") == (if |a.chargeTypes| > 0 then Some(InList(ChargeFilter(a.chargeTypes))) else None)
            && Get(r.value, "service") == None
  {
    FilterKeysDistinct(a.kind);
  }

  /** Invoices are filtered on `when`, and by `service` exactly when invoice types were given. */
  lemma InvoiceFilters(a: InvoiceArgs, start: int, end: int)
    requires a.kind.Invoices? && Services(InvoiceTypes, a.invoiceTypes).Ok?
    ensures var r := SelectFilters(a, start, end);
            r.Ok? && Get(r.value, "when") == Some(JObj([("gte", JInt(start)), ("lte", JInt(end))]))
            && Get(r.value, "service") == (if |a.invoiceTypes| > 0 then Some(InList(Services(InvoiceTypes, a.invoiceTypes).value)) else None)
            && Get(r.value, "type") == None
  {
    FilterKeysDistinct(a.kind);
  }

  /** `{col: window}`, then `key: {"in": values}` when there are values. */
  function WindowAndFilter(col: string, window: Json, key: string, values: Option<seq<string>>): (r: Dict<string, Json>)
    requires key != col
    ensures Get(r, col) == Some(window)
    ensures Get(r, key) == if values.Some? then Some(InList(values.value)) else None
    ensures forall k :: k != col && k != key ==> Get(r, k) == None
  {
    var base := [(col, window)];
    assert forall k :: k != col ==> Get(base, k) == None;
    SetIf(base, key, if values.Some? then Some(InList(values.value)) else None)
  }

  /**
   * The request parameters: the filters, `latest_first`, the clamped
   * limit, the output format for charges, and the pagination token as
   * `after_token` when one was given.
   */
  function InvoiceParams(a: InvoiceArgs, start: int, end: int): (r: Result<Dict<string, Json>, Exc>)
    ensures r.Ok? <==> SelectFilters(a, start, end).Ok?
    ensures r.Ok? ==> Get(r.value, "select_filters") == Some(JObj(SelectFilters(a, start, end).value))
    ensures r.Ok? ==> Get(r.value, "limit") == Some(JInt(ClampLimit(a.limit)))
    ensures r.Ok? ==> Get(r.value, "latest_first") == Some(JBool(a.latestFirst))
    ensures r.Ok? ==> Get(r.value, "format") == (if a.kind.Charges? then Some(JStr(a.format)) else None)
    ensures r.Ok? ==> Get(r.value, "after_token") ==
                        (if a.nextToken.Some? && |a.nextToken.value| > 0 then Some(JStr(a.nextToken.value)) else None)
  {
    match SelectFilters(a, start, end)
    case Err(e) => Err(e)
    case Ok(filters) =>
      Ok(RequestParams(JObj(filters), JBool(a.latestFirst), JInt(ClampLimit(a.limit)),
                       if a.kind.Charges? then Some(JStr(a.format)) else None,
                       if a.nextToken.Some? && |a.nextToken.value| > 0 then Some(JStr(a.nextToken.value)) else None))
  }

  /** The parameter dict: the three fixed entries, then `format` and `after_token` when present. */
  function RequestParams(filters: Json, latestFirst: Json, limit: Json, format: Option<Json>, token: Option<Json>): (r: Dict<string, Json>)
    ensures Get(r, "select_filters") == Some(filters)
    ensures Get(r, "latest_first") == Some(latestFirst)
    ensures Get(r, "limit") == Some(limit)
    ensures Get(r, "format") == format
    ensures Get(r, "after_token") == token
  {
    ParamKeysDistinct();
    var p1 := SetIf([], "select_filters", Some(filters));
    var p2 := SetIf(p1, "latest_first", Some(latestFirst));
    var p3 := SetIf(p2, "limit", Some(limit));
    var p4 := SetIf(p3, "format", format);
    var p5 := SetIf(p4, "after_token", token);
    assert Get(p5, "select_filters") == Get(p1, "select_filters") by {
      assert Get(p5, "select_filters") == Get(p4, "select_filters") == Get(p3, "select_filters") == Get(p2, "select_filters");
    }
    assert Get(p5, "latest_first") == Get(p2, "latest_first") by {
      assert Get(p5, "latest_first") == Get(p4, "latest_first") == Get(p3, "latest_first");
    }
    assert Get(p5, "limit") == Get(p3, "limit") by {
      assert Get(p5, "limit") == Get(p4, "limit");
    }
    assert Get(p5, "format") == Get(p4, "format");
    assert Get(p4, "format") == format by {
      assert Get(p3, "format") == Get(p2, "format") == Get(p1, "format") == None;
    }
    assert Get(p5, "after_token") == token by {
      assert Get(p4, "after_token") == Get(p3, "after_token") == Get(p2, "after_token") == Get(p1, "after_token") == None;
    }
    p5
  }

  /** The parameter names differ pairwise (they differ in length). */
  lemma ParamKeysDistinct()
    ensures "select_filters" != "latest_first" && "select_filters" != "limit" && "select_filters" != "format" && "select_filters" != "after_token"
    ensures "latest_first" != "limit" && "latest_first" != "format" && "latest_first" != "after_token"
    ensures "limit" != "format" && "limit" != "after_token" && "format" != "after_token"
  {
    assert |"select_filters"| == 14 && |"latest_first"| == 12 && |"limit"| == 5;
    assert |"format"| == 6 && |"after_token"| == 11;
  }

  /** `if v: params[k] = v`, with the condition folded into `v`. */
  function SetIf(d: Dict<string, Json>, k: string, v: Option<Json>): (r: Dict<string, Json>)
    ensures Get(r, k) == if v.Some? then v else Get(d, k)
    ensures forall k' :: k' != k ==> Get(r, k') == Get(d, k')
  {
    if v.Some? then Set(d, k, v.value) else d
  }

  /** The endpoint: the v0 charges list or the v1 invoices list. */
  function Endpoint(kind: Kind): string {
    if kind.Charges? then "/api/v0/charges/" else "/api/v1/invoices/"
  }

  /** Both endpoints are already versioned, so `apiurl` sends them unchanged. */
  lemma EndpointVersioned(kind: Kind)
    ensures ApiHelpers.FullPath(Endpoint(kind)) == Endpoint(kind)
  {
    var e := Endpoint(kind);
    assert e[6..7] == (if kind.Charges? then "0" else "1") && e[7] == '/';
    assert e[..6] == "/api/v";
    assert ApiHelpers.Versioned(e);
  }

  /** The first second of 0001-01-01 and the last second of 9999-12-31, UTC: the range of Python's `datetime`. */
  const MinTimestamp: int := -62135596800
  const MaxTimestamp: int := 253402300799

  /** Whether `convert_timestamp_to_date` (`datetime.fromtimestamp(t, tz=timezone.utc)`) can render `t`. */
  predicate InDateRange(t: int) {
    MinTimestamp <= t <= MaxTimestamp
  }

  /**
   * How `show invoices-v1` ends before paging: with the URL it fetches, by
   * printing "Error parsing dates" and returning None when a date cannot be
   * read, or with an exception that escapes (a timestamp outside the years
   * 1 to 9999, an unknown invoice type).
   */
  datatype Outcome = Fetch(url: string) | DatesRejected(reason: Exc) | Raised(e: Exc)

  /**
   * The request URL of `show invoices-v1`, with the date defaults applied
   * to timestamps by `ResolveDates`. A date that cannot be read is caught
   * and ends the command before any request is built. Both timestamps are
   * then rendered as dates outside the `try`, so one `datetime` cannot hold
   * raises; after that an unknown invoice type's KeyError propagates.
   */
  function InvoicesRequest(a: InvoiceArgs, startArg: Json, endArg: Json, now: int, parseDate: string -> Option<int>,
                           url: string, apiKey: Option<string>, quote: string -> string, dumps: Json -> string): (o: Outcome)
    ensures var w := ResolveDates(startArg, endArg, now, parseDate);
            && (o.DatesRejected? <==> w.Err?)
            && (o.DatesRejected? ==> o.reason == w.error)
    ensures var w := ResolveDates(startArg, endArg, now, parseDate);
            w.Ok? && !(InDateRange(w.value.0) && InDateRange(w.value.1)) ==> o.Raised? && o.e.ValueError?
    ensures var w := ResolveDates(startArg, endArg, now, parseDate);
            w.Ok? && InDateRange(w.value.0) && InDateRange(w.value.1) ==>
              && (o.Raised? <==> InvoiceParams(a, w.value.0, w.value.1).Err?)
              && (o.Raised? ==> o.e == InvoiceParams(a, w.value.0, w.value.1).error)
    ensures var w := ResolveDates(startArg, endArg, now, parseDate);
            o.Fetch? ==> && InDateRange(w.value.0) && InDateRange(w.value.1)
                         && o.url == url + Endpoint(a.kind) + "?"
                                     + ApiHelpers.QueryString(ApiHelpers.QueryArgs(apiKey, Some(InvoiceParams(a, w.value.0, w.value.1).value)), quote, dumps)
  {
    match ResolveDates(startArg, endArg, now, parseDate)
    case Err(e) => DatesRejected(e)
    case Ok(window) =>
      if !(InDateRange(window.0) && InDateRange(window.1)) then Raised(ValueError("year is out of range"))
      else
        match InvoiceParams(a, window.0, window.1)
        case Err(e) => Raised(e)
        case Ok(params) =>
          EndpointVersioned(a.kind);
          var u := ApiHelpers.ApiUrl(url, apiKey, Endpoint(a.kind), Some(params), quote, dumps);
          assert |u.1| > 0 by {
            if apiKey.None? { assert u.1 == params; }
          }
          Fetch(u.0)
  }

  /**
   * An all-digit date past the end of year 9999 is read as a timestamp,
   * but rendering it as a date raises ValueError, so no request is sent.
   */
  lemma DateBeyondYear9999Raises(a: InvoiceArgs, n: nat, now: int, parseDate: string -> Option<int>,
                                 url: string, apiKey: Option<string>, quote: string -> string, dumps: Json -> string)
    requires n > MaxTimestamp
    ensures var o := InvoicesRequest(a, JStr(ShowNat(n)), JStr(ShowNat(n)), now, parseDate, url, apiKey, quote, dumps);
            o.Raised? && o.e.ValueError?
  {
    var d := JStr(ShowNat(n));
    ToTimestampShown(n, parseDate);
    assert Truthy(d);
    assert GivenTimestamp(d, parseDate) == Ok(Some(n));
    assert ResolveDates(d, d, now, parseDate) == Ok((n, n));
  }

  // ----- the command's declaration -----

  /** The argument declarations of `show invoices-v1`, in order. */
  const InvoicesV1Arguments: seq<Registry.Argument> := [
    Registry.Argument(["-i", "--invoices"], Some(true), "grp"),
    Registry.Argument(["-it", "--invoice-type"], None, ""),
    Registry.Argument(["-c", "--charges"], Some(true), "grp"),
    Registry.Argument(["-ct", "--charge-type"], None, ""),
    Registry.Argument(["-s", "--start-date"], None, ""),
    Registry.Argument(["-e", "--end-date"], None, ""),
    Registry.Argument(["-l", "--limit"], None, ""),
    Registry.Argument(["-t", "--next-token"], None, ""),
    Registry.Argument(["-f", "--format"], None, ""),
    Registry.Argument(["-v", "--verbose"], None, ""),
    Registry.Argument(["--latest-first"], None, "")]

  /** `--invoices` and `--charges` form the one group, `grp`, and it is required. */
  lemma InvoicesChargesRequired()
    ensures forall g :: HasKey(Registry.Groups(InvoicesV1Arguments), g) <==> g == "grp"
    ensures Get(Registry.Groups(InvoicesV1Arguments), "grp") == Some(true)
  {
    var args := InvoicesV1Arguments;
    assert Registry.Grouped(args[0]) && args[0].mutexGroup == "grp";
    forall g | Registry.MemberOf(args, g) ensures g == "grp" {
      var i :| 0 <= i < |args| && Registry.Grouped(args[i]) && args[i].mutexGroup == g;
    }
    Registry.GroupRequired(args, "grp");
    assert Registry.Required(args[0]);
  }
}

=== FILE: chunking.dfy ===
/** List chunking (`split_list`, `split_into_sublists` in vast_cli/helpers.py). */
module Chunking {
  import opened Wrappers
  import opened PyExc


  function Flatten<T>(xss: seq<seq<T>>): seq<T> {
    if |xss| == 0 then [] else xss[0] + Flatten(xss[1..])
  }

  /** `[lst[i:i + k] for i in range(0, len(lst), k)]` for a positive step. */
  function Chunks<T>(lst: seq<T>, k: nat): (r: seq<seq<T>>)
    requires k > 0
    ensures Flatten(r) == lst
    ensures forall i :: 0 <= i < |r| ==> 0 < |r[i]| <= k
    ensures forall i :: 0 <= i < |r| - 1 ==> |r[i]| == k
    ensures (|r| - 1) * k < |lst| <= |r| * k || (|lst| == 0 && |r| == 0)
    decreases |lst|
  {
    if |lst| == 0 then []
    else if |lst| <= k then [lst]
    else
      var rest := Chunks(lst[k..], k);
      assert lst == lst[..k] + lst[k..];
      [lst[..k]] + rest
  }

  /** `split_list(lst, k)`: a zero step raises ValueError (from `range`); a negative one gives no chunks. */
  function SplitList<T>(lst: seq<T>, k: int): (r: Result<seq<seq<T>>, Exc>)
    ensures k == 0 <==> r.Err?
    ensures k > 0 ==> r.Ok? && Flatten(r.value) == lst
    ensures k > 0 ==> forall i :: 0 <= i < |r.value| ==> 0 < |r.value[i]| <= k
    ensures k > 0 ==> forall i :: 0 <= i < |r.value| - 1 ==> |r.value[i]| == k
  {
    if k == 0 then Err(ValueError("range() arg 3 must not be zero"))
    else if k < 0 then Ok([])
    else Ok(Chunks(lst, k))
  }

  /** Python's `//`, which rounds toward negative infinity. */
  function FloorDiv(a: int, b: int): (q: int)
    requires b != 0
    ensures b > 0 ==> q * b <= a < q * b + b
    ensures b < 0 ==> q * b >= a > q * b + b
  {
    if b > 0 then a / b else (-a) / (-b)
  }

  /**
   * `split_into_sublists(lst, k)`: chunks of size `(len(lst) + k - 1) // k`.
   * A zero `k` divides by zero; a zero chunk size (an empty list) makes
   * `range` raise ValueError; a negative one gives no chunks.
   */
  function SplitIntoSublists<T>(lst: seq<T>, k: int): Result<seq<seq<T>>, Exc> {
    if k == 0 then Err(ZeroDivisionError)
    else
      var size := FloorDiv(|lst| + k - 1, k);
      if size == 0 then Err(ValueError("range() arg 3 must not be zero"))
      else if size < 0 then Ok([])
      else Ok(Chunks(lst, size))
  }

  /** For a positive `k` and a non-empty list: at most `k` chunks, of size ceil(len/k), concatenating to the list. */
  lemma SplitIntoSublistsBound<T>(lst: seq<T>, k: int)
    requires k > 0 && |lst| > 0
    ensures var r := SplitIntoSublists(lst, k);
      && r.Ok? && Flatten(r.value) == lst && 0 < |r.value| <= k
      && forall i :: 0 <= i < |r.value| ==> |r.value[i]| <= FloorDiv(|lst| + k - 1, k)
  {
    var size := FloorDiv(|lst| + k - 1, k);
    assert size * k >= |lst|;
    assert size > 0;
    var r := Chunks(lst, size);
    var n := |r|;
    assert (n - 1) * size < |lst| <= size * k;
    assert (n - 1) * size < k * size;
    assert size * (k - n + 1) > 0;
    PositiveFactor(size, k - n + 1);
  }

  lemma PositiveFactor(a: int, b: int)
    requires a > 0 && a * b > 0
    ensures b > 0
  {
  }

  /** An empty list always raises: the chunk size is zero. */
  lemma SplitIntoSublistsEmpty<T>(lst: seq<T>, k: int)
    requires k > 0 && |lst| == 0
    ensures SplitIntoSublists(lst, k).Err?
  {
  }
}

=== FILE: formatting.dfy ===
/**
 * Output helpers: blanking empty table cells, de-indenting the text of
 * triple-quoted messages, and the switches that keep progress and debug
 * output away from machine-readable (`--raw`) output.
 */
module Formatting {
  import opened Wrappers
  import opened PyStr
  import opened PyDict
  import opened PyExc
  import opened Json

  // ----- translate_null_strings_to_blanks -----

  /** The cell value shown for `v`: the empty string becomes one space. */
  function Blank(v: Json): Json {
    if v == JStr("") then JStr(" ") else v
  }

  /**
   * `translate_null_strings_to_blanks`: the same keys in the same order,
   * every empty-string value replaced by a single space and every other
   * value kept.
   */
  function TranslateNulls<K>(d: Dict<K, Json>): (r: Dict<K, Json>)
    ensures |r| == |d|
    ensures forall i :: 0 <= i < |d| ==> r[i].0 == d[i].0
    ensures forall i :: 0 <= i < |d| ==> d[i].1 == JStr("") ==> r[i].1 == JStr(" ")
    ensures forall i :: 0 <= i < |d| ==> d[i].1 != JStr("") ==> r[i].1 == d[i].1
  {
    if |d| == 0 then [] else [(d[0].0, Blank(d[0].1))] + TranslateNulls(d[1..])
  }

  /** Looking a key up after the translation is looking it up before and blanking what is found. */
  lemma {:induction false} TranslateGet<K(!new)>(d: Dict<K, Json>, k: K)
    ensures Get(TranslateNulls(d), k) == (if Get(d, k).Some? then Some(Blank(Get(d, k).value)) else None)
    decreases |d|
  {
    if |d| > 0 && d[0].0 != k {
      TranslateGet(d[1..], k);
      assert TranslateNulls(d)[1..] == TranslateNulls(d[1..]);
    }
  }

  /** No empty string is left, and a second translation changes nothing. */
  lemma TranslateIdempotent<K>(d: Dict<K, Json>)
    ensures forall i :: 0 <= i < |d| ==> TranslateNulls(d)[i].1 != JStr("")
    ensures TranslateNulls(TranslateNulls(d)) == TranslateNulls(d)
  {
    var r := TranslateNulls(d);
    var rr := TranslateNulls(r);
    assert |rr| == |r|;
    forall i | 0 <= i < |r| ensures rr[i] == r[i] {
      assert r[i].1 != JStr("");
    }
  }

  /** The translation leaves a dict unchanged exactly when none of its values is the empty string. */
  lemma TranslateUnchangedIff<K>(d: Dict<K, Json>)
    ensures TranslateNulls(d) == d <==> forall i :: 0 <= i < |d| ==> d[i].1 != JStr("")
  {
    var r := TranslateNulls(d);
    if forall i :: 0 <= i < |d| ==> d[i].1 != JStr("") {
      forall i | 0 <= i < |d| ensures r[i] == d[i] { }
    } else {
      var i :| 0 <= i < |d| && d[i].1 == JStr("");
      assert r[i].1 != d[i].1;
    }
  }

  // ----- deindent -----

  /** Only the space character: the regular expressions of `deindent` match ` ` and nothing else. */
  const Space := Chars({' '})

  /** The number of spaces a line starts with. */
  function Indent(l: string): (n: nat)
    ensures n <= |l|
    ensures forall j :: 0 <= j < n ==> l[j] == ' '
    ensures n == |l| || l[n] != ' '
  {
    |l| - |LStrip(l, Space)|
  }

  /** A line where `^ *(?=[^ ])` matches a non-empty run of spaces: it is indented and has text after the indent. */
  predicate Indented(l: string) {
    0 < Indent(l) < |l|
  }

  /** `re.sub(r" *$", "", message, flags=re.MULTILINE)` on the lines of a message: trailing spaces go. */
  function TrimLines(lines: seq<string>): (r: seq<string>)
    ensures |r| == |lines|
    ensures forall i :: 0 <= i < |lines| ==> r[i] == RStrip(lines[i], Space)
  {
    seq(|lines|, i requires 0 <= i < |lines| => RStrip(lines[i], Space))
  }

  /**
   * The lengths of the indents `re.findall` reports, with the empty ones
   * left out. Once trailing spaces are gone a line of spaces is empty, so
   * the lookahead only ever sees text after the indent.
   */
  function Indents(lines: seq<string>): (ns: seq<nat>)
    decreases |lines|
  {
    if |lines| == 0 then []
    else (if Indented(lines[0]) then [Indent(lines[0])] else []) + Indents(lines[1..])
  }

  /** The indents are exactly those of the indented lines. */
  lemma {:induction false} IndentsMembers(lines: seq<string>, x: nat)
    ensures x in Indents(lines) <==> exists i :: 0 <= i < |lines| && Indented(lines[i]) && Indent(lines[i]) == x
    decreases |lines|
  {
    if |lines| > 0 {
      IndentsMembers(lines[1..], x);
      if exists i :: 0 <= i < |lines| && Indented(lines[i]) && Indent(lines[i]) == x {
        var i :| 0 <= i < |lines| && Indented(lines[i]) && Indent(lines[i]) == x;
        if i > 0 {
          assert lines[1..][i - 1] == lines[i];
        }
      }
      if exists i :: 0 <= i < |lines[1..]| && Indented(lines[1..][i]) && Indent(lines[1..][i]) == x {
        var i :| 0 <= i < |lines[1..]| && Indented(lines[1..][i]) && Indent(lines[1..][i]) == x;
        assert lines[i + 1] == lines[1..][i];
      }
    }
  }

  /** There are no indents exactly when no line is indented. */
  lemma {:induction false} IndentsEmpty(lines: seq<string>)
    ensures |Indents(lines)| == 0 <==> forall i :: 0 <= i < |lines| ==> !Indented(lines[i])
    decreases |lines|
  {
    if |lines| > 0 {
      IndentsEmpty(lines[1..]);
      assert forall i :: 1 <= i < |lines| ==> lines[i] == lines[1..][i - 1];
    }
  }

  /** `min(ns)`, defined only where Python's `min` does not raise. */
  function Min(ns: seq<nat>): (m: nat)
    requires |ns| > 0
    ensures m in ns
    ensures forall j :: 0 <= j < |ns| ==> m <= ns[j]
  {
    if |ns| == 1 then ns[0]
    else
      var t := Min(ns[1..]);
      assert forall j :: 1 <= j < |ns| ==> ns[j] == ns[1..][j - 1];
      if ns[0] <= t then ns[0] else t
  }

  /** `re.sub(r"^ {,a}", "", ...)` on one line: up to `a` leading spaces go. */
  function DropIndent(l: string, a: nat): string {
    l[if a <= Indent(l) then a else Indent(l)..]
  }

  function DropIndents(lines: seq<string>, a: nat): (r: seq<string>)
    ensures |r| == |lines|
    ensures forall i :: 0 <= i < |lines| ==> r[i] == DropIndent(lines[i], a)
  {
    seq(|lines|, i requires 0 <= i < |lines| => DropIndent(lines[i], a))
  }

  /** No line of the message, once its trailing spaces are removed, has text after a non-empty indent. */
  predicate NoIndentedLine(message: string) {
    var parts := Split(message, '\n');
    forall i :: 0 <= i < |parts| ==> !Indented(RStrip(parts[i], Space))
  }

  /**
   * `deindent(message, add_separator=False)`: trailing spaces removed from
   * every line, the smallest non-zero indent removed from the start of
   * every line, and surrounding whitespace stripped. A message with no
   * indented line makes `min` raise ValueError.
   */
  function Deindent(message: string): (r: Result<string, Exc>)
    ensures r.Err? <==> NoIndentedLine(message)
    ensures r.Err? ==> r.error.ValueError?
    ensures r.Ok? ==> |r.value| == 0 || (!IsSpace(r.value[0]) && !IsSpace(r.value[|r.value| - 1]))
  {
    var parts := Split(message, '\n');
    var lines := TrimLines(parts);
    var ind := Indents(lines);
    IndentsEmpty(lines);
    assert forall i :: 0 <= i < |parts| ==> lines[i] == RStrip(parts[i], Space);
    if |ind| == 0 then Err(ValueError("min() arg is an empty sequence"))
    else
      var out := Join(DropIndents(lines, Min(ind)), "\n");
      StripEnds(out, Whitespace);
      Ok(Strip(out, Whitespace))
  }

  /** `n` spaces in front of every line. */
  function Shift(ls: seq<string>, n: nat): (r: seq<string>)
    ensures |r| == |ls|
    ensures forall i :: 0 <= i < |ls| ==> r[i] == Repeat(' ', n) + ls[i]
  {
    seq(|ls|, i requires 0 <= i < |ls| => Repeat(' ', n) + ls[i])
  }

  /** The text of a message line: no line break and no trailing space. */
  predicate PlainLine(l: string) {
    '\n' !in l && (|l| == 0 || l[|l| - 1] != ' ')
  }

  /** A line shifted right by `n` spaces, once its trailing spaces are gone: an empty line stays empty. */
  function ShiftLine(l: string, n: nat): string {
    if |l| == 0 then "" else Repeat(' ', n) + l
  }

  /** `lines` are the lines `ls`, each shifted right by `n` spaces and trimmed. */
  predicate ShiftedOf(ls: seq<string>, n: nat, lines: seq<string>) {
    |lines| == |ls| && forall i :: 0 <= i < |ls| ==> lines[i] == ShiftLine(ls[i], n)
  }

  /**
   * De-indenting undoes indenting: lines shifted right by `n > 0` spaces,
   * at least one of which started with text, come back as they were (and
   * stripped at both ends).
   */
  lemma DeindentShift(ls: seq<string>, n: nat)
    requires |ls| >= 1 && n > 0
    requires forall i :: 0 <= i < |ls| ==> PlainLine(ls[i])
    requires exists i :: 0 <= i < |ls| && |ls[i]| > 0 && ls[i][0] != ' '
    ensures Deindent(Join(Shift(ls, n), "\n")) == Ok(Strip(Join(ls, "\n"), Whitespace))
  {
    var lines := TrimLines(Split(Join(Shift(ls, n), "\n"), '\n'));
    ShiftedLines(ls, n);
    ShiftedIndentPresent(ls, n, lines);
    ShiftedIndentsAtLeast(ls, n, lines);
    var ind := Indents(lines);
    assert Min(ind) == n by {
      assert Min(ind) in ind && n in ind;
    }
    DropShifted(ls, n, lines);
  }

  /** Splitting and trimming a shifted message gives the shifted lines, with the empty lines empty again. */
  lemma ShiftedLines(ls: seq<string>, n: nat)
    requires |ls| >= 1
    requires forall i :: 0 <= i < |ls| ==> PlainLine(ls[i])
    ensures ShiftedOf(ls, n, TrimLines(Split(Join(Shift(ls, n), "\n"), '\n')))
  {
    var shifted := Shift(ls, n);
    forall i | 0 <= i < |shifted| ensures '\n' !in shifted[i] {
      assert '\n' !in Repeat(' ', n);
    }
    SplitJoin(shifted, '\n');
    forall i | 0 <= i < |ls| ensures RStrip(shifted[i], Space) == ShiftLine(ls[i], n) {
      TrimShifted(ls[i], n);
    }
  }

  /** Removing `n` spaces from the trimmed shifted lines gives the original lines. */
  lemma DropShifted(ls: seq<string>, n: nat, lines: seq<string>)
    requires ShiftedOf(ls, n, lines)
    ensures DropIndents(lines, n) == ls
  {
    forall i | 0 <= i < |ls| ensures DropIndent(lines[i], n) == ls[i] {
      DropShiftedLine(ls[i], n);
    }
  }

  lemma DropShiftedLine(l: string, n: nat)
    ensures DropIndent(ShiftLine(l, n), n) == l
  {
    if |l| > 0 {
      var s := Repeat(' ', n) + l;
      IndentShifted(l, n);
      assert s[n..] == l;
    }
  }

  /** Trailing spaces of a shifted line: only a line that was empty loses anything, and it loses all. */
  lemma TrimShifted(l: string, n: nat)
    requires PlainLine(l)
    ensures RStrip(Repeat(' ', n) + l, Space) == ShiftLine(l, n)
  {
    var s := Repeat(' ', n) + l;
    if |l| == 0 {
      assert forall j :: 0 <= j < |s| ==> InClass(s[j], Space);
    } else {
      assert s[|s| - 1] == l[|l| - 1];
    }
  }

  /** Shifting a line right by `n` adds `n` to its indent. */
  lemma IndentShifted(l: string, n: nat)
    ensures Indent(Repeat(' ', n) + l) == n + Indent(l)
  {
    LStripSpaces(l, n);
  }

  lemma {:induction false} LStripSpaces(l: string, n: nat)
    ensures LStrip(Repeat(' ', n) + l, Space) == LStrip(l, Space)
    decreases n
  {
    var s := Repeat(' ', n) + l;
    if n > 0 {
      assert s[0] == ' ';
      assert InClass(s[0], Space);
      assert s[1..] == Repeat(' ', n - 1) + l;
      LStripSpaces(l, n - 1);
    } else {
      assert s == l;
    }
  }

  /** A shifted line of text is indented by `n` more than before. */
  lemma ShiftedIndent(l: string, n: nat)
    requires PlainLine(l) && n > 0
    ensures Indented(ShiftLine(l, n)) <==> |l| > 0
    ensures |l| > 0 ==> Indent(ShiftLine(l, n)) == n + Indent(l)
  {
    if |l| > 0 {
      IndentShifted(l, n);
      assert l[|l| - 1] != ' ';
    }
  }

  /** The line that started with text contributes the indent `n`. */
  lemma ShiftedIndentPresent(ls: seq<string>, n: nat, lines: seq<string>)
    requires n > 0 && ShiftedOf(ls, n, lines)
    requires forall i :: 0 <= i < |ls| ==> PlainLine(ls[i])
    requires exists i :: 0 <= i < |ls| && |ls[i]| > 0 && ls[i][0] != ' '
    ensures n in Indents(lines)
  {
    var k :| 0 <= k < |ls| && |ls[k]| > 0 && ls[k][0] != ' ';
    ShiftedIndent(ls[k], n);
    assert Indent(ls[k]) == 0;
    assert Indented(lines[k]) && Indent(lines[k]) == n;
    IndentsMembers(lines, n);
  }

  /** No shifted line has an indent below `n`. */
  lemma ShiftedIndentsAtLeast(ls: seq<string>, n: nat, lines: seq<string>)
    requires n > 0 && ShiftedOf(ls, n, lines)
    requires forall i :: 0 <= i < |ls| ==> PlainLine(ls[i])
    ensures forall x :: x in Indents(lines) ==> x >= n
  {
    forall x | x in Indents(lines) ensures x >= n {
      IndentsMembers(lines, x);
      var i :| 0 <= i < |lines| && Indented(lines[i]) && Indent(lines[i]) == x;
      ShiftedIndent(ls[i], n);
    }
  }

  // ----- progress_print and debug_print -----

  /** What `print(*args)` writes: the arguments separated by spaces, then a line break. */
  function PrintLine(args: seq<string>): string {
    Join(args, " ") + "\n"
  }

  /** `progress_print`: the arguments are printed unless the output is raw. */
  function ProgressOutput(raw: bool, args: seq<string>): (out: string)
    ensures raw <==> out == ""
  {
    if raw then "" else PrintLine(args)
  }

  /** `debug_print`: the arguments are printed when debugging and the output is not raw. */
  function DebugOutput(debugging: bool, raw: bool, args: seq<string>): (out: string)
    ensures out != "" <==> debugging && !raw
  {
    if debugging && !raw then PrintLine(args) else ""
  }

  /** Debug output is progress output that debugging switches on: whatever it prints, progress output prints too. */
  lemma DebugIsGatedProgress(debugging: bool, raw: bool, args: seq<string>)
    ensures DebugOutput(debugging, raw, args) == (if debugging then ProgressOutput(raw, args) else "")
    ensures DebugOutput(debugging, raw, args) != "" ==> DebugOutput(debugging, raw, args) == ProgressOutput(raw, args)
  {
  }
}

=== FILE: helpers.dfy ===
/** Small pure helpers of vast_cli/helpers.py. */
module Helpers {
  import opened Wrappers
  import opened PyStr
  import opened PyDict
  import opened PyExc
  import opened Json

  // ----- numeric_version -----

  /**
   * `numeric_version`: exactly three `.`-separated parts, each zero-padded
   * to three characters, concatenated and read with `int()`; `None` where
   * the unpacking or `int()` raises ValueError.
   */
  function NumericVersion(s: string): Option<int> {
    var parts := Split(s, '.');
    if |parts| != 3 then None
    else ParseInt(ZFill(parts[0], 3) + ZFill(parts[1], 3) + ZFill(parts[2], 3))
  }

  lemma NoDot(d: string)
    requires AllDigits(d)
    ensures '.' !in d
  {
    assert forall i :: 0 <= i < |d| ==> IsDigit(d[i]);
  }

  lemma SplitTriple(s: string, a: string, b: string, c: string)
    requires '.' !in a && '.' !in b && '.' !in c
    requires s == a + "." + b + "." + c
    ensures Split(s, '.') == [a, b, c]
  {
    assert [a, b, c][1..] == [b, c] && [b, c][1..] == [c];
    assert Join([b, c], ".") == b + "." + c;
    assert Join([a, b, c], ".") == a + "." + b + "." + c;
    SplitJoin([a, b, c], '.');
  }

  lemma Concat3Value(x: string, y: string, z: string)
    requires AllDigits(x) && AllDigits(y) && AllDigits(z) && |y| == 3 && |z| == 3
    ensures IsDigitString(x + y + z)
    ensures DigitsValue(x + y + z) == DigitsValue(x) * 1000000 + DigitsValue(y) * 1000 + DigitsValue(z)
  {
    var vx, vy, vz := DigitsValue(x), DigitsValue(y), DigitsValue(z);
    assert Pow10(|y|) == 1000 && Pow10(|z|) == 1000;
    DigitsValueAppend(x, y);
    var vxy := DigitsValue(x + y);
    assert vxy == vx * 1000 + vy;
    DigitsValueAppend(x + y, z);
    assert DigitsValue(x + y + z) == vxy * 1000 + vz;
  }

  /** A digit group of at most three digits pads to exactly three digits of the same value. */
  lemma Pad3(s: string)
    requires IsDigitString(s) && |s| <= 3
    ensures |ZFill(s, 3)| == 3 && AllDigits(ZFill(s, 3)) && DigitsValue(ZFill(s, 3)) == DigitsValue(s)
  {
    ZFillDigits(s, 3);
  }

  lemma PaddedTripleValue(a: string, b: string, c: string, n: int)
    requires IsDigitString(a) && IsDigitString(b) && IsDigitString(c)
    requires |a| <= 3 && |b| <= 3 && |c| <= 3
    requires n == DigitsValue(a) * 1000000 + DigitsValue(b) * 1000 + DigitsValue(c)
    ensures ParseInt(ZFill(a, 3) + ZFill(b, 3) + ZFill(c, 3)) == Some(n)
  {
    var x, y, z := ZFill(a, 3), ZFill(b, 3), ZFill(c, 3);
    Pad3(a);
    Pad3(b);
    Pad3(c);
    var d := x + y + z;
    assert IsDigitString(d) && DigitsValue(d) == n by {
      Concat3Value(x, y, z);
    }
    ParseDigits(d);
  }

  /**
   * A version of three digit groups of at most three digits each, with
   * values `major`, `minor` and `patch`, encodes as
   * `major * 10^6 + minor * 10^3 + patch`.
   */
  lemma NumericVersionOfTriple(s: string, a: string, b: string, c: string, major: nat, minor: nat, patch: nat)
    requires s == a + "." + b + "." + c
    requires IsDigitString(a) && IsDigitString(b) && IsDigitString(c)
    requires |a| <= 3 && |b| <= 3 && |c| <= 3
    requires DigitsValue(a) == major && DigitsValue(b) == minor && DigitsValue(c) == patch
    ensures NumericVersion(s).Some? && NumericVersion(s).value == major * 1000000 + minor * 1000 + patch
  {
    NoDot(a);
    NoDot(b);
    NoDot(c);
    SplitTriple(s, a, b, c);
    var n := major * 1000000 + minor * 1000 + patch;
    PaddedTripleValue(a, b, c, n);
    NumericVersionOfParts(s, a, b, c, n);
  }

  lemma NumericVersionOfParts(s: string, a: string, b: string, c: string, n: int)
    requires Split(s, '.') == [a, b, c]
    requires ParseInt(ZFill(a, 3) + ZFill(b, 3) + ZFill(c, 3)) == Some(n)
    ensures NumericVersion(s) == Some(n)
  {
  }

  /** `numeric_version("535.86.05") == 535086005`. */
  lemma NumericVersionExample()
    ensures NumericVersion("535.86.05").Some? && NumericVersion("535.86.05").value == 535086005
  {
    assert "535"[..2] == "53" && "53"[..1] == "5" && "86"[..1] == "8" && "05"[..1] == "0";
    assert "5"[..0] == "" && "8"[..0] == "" && "0"[..0] == "";
    assert DigitsValue("535") == 535 && DigitsValue("86") == 86 && DigitsValue("05") == 5;
    NumericVersionOfTriple("535.86.05", "535", "86", "05", 535, 86, 5);
  }

  /** Only a string with exactly two dots can encode. */
  lemma NumericVersionNeedsTwoDots(s: string)
    requires NumericVersion(s).Some?
    ensures Count(s, '.') == 2
  {
    SplitCount(s, '.');
  }

  // ----- get_runtype -----

  /** The `--args` option: absent, a single string, or a list of strings. */
  datatype ArgsValue = NoArgs | ArgText(text: string) | ArgList(items: seq<string>)

  /** The options of an instance launch that decide how it is reached. */
  datatype LaunchArgs = LaunchArgs(args: ArgsValue, jupyter: bool, jupyterDir: bool, jupyterLab: bool, ssh: bool, direct: bool)

  /**
   * What `get_runtype` returns: 1 (with an error message) when Jupyter and
   * `--args` are combined, otherwise the runtype, a list of access modes;
   * either way with the arguments as it left them.
   */
  datatype RuntypeResult = Refused(updated: LaunchArgs) | Chosen(modes: seq<string>, updated: LaunchArgs)

  /** The runtype string: the modes separated by single spaces, as in `'ssh_direc ssh_proxy'`. */
  function RuntypeText(modes: seq<string>): string {
    Join(modes, " ")
  }

  /** The three spellings of "no arguments" that are cleared to `None`. */
  predicate EmptyArgs(v: ArgsValue) {
    v == ArgText("") || v == ArgList([""]) || v == ArgList([])
  }

  predicate ArgsTruthy(v: ArgsValue) {
    (v.ArgText? && |v.text| > 0) || (v.ArgList? && |v.items| > 0)
  }

  /** Jupyter is asked for directly or implied by a Jupyter directory or JupyterLab. */
  predicate WantsJupyter(a: LaunchArgs) {
    a.jupyter || a.jupyterDir || a.jupyterLab
  }

  /**
   * `get_runtype`. Chosen modes: a Jupyter mode exactly when Jupyter is
   * wanted, the SSH proxy exactly when Jupyter or SSH is, a direct mode
   * exactly when `--direct` is given as well, and otherwise `args` exactly
   * when `--args` was passed at all, even empty.
   */
  function GetRuntype(a: LaunchArgs): (r: RuntypeResult)
    ensures r.Refused? <==> !a.args.NoArgs? && WantsJupyter(a)
    ensures r.updated.args.NoArgs? <==> a.args.NoArgs? || EmptyArgs(a.args)
    ensures !r.updated.args.NoArgs? ==> r.updated.args == a.args
    ensures r.updated.jupyter == WantsJupyter(a)
    ensures r.updated.(jupyter := a.jupyter, args := a.args) == a
    ensures r.Chosen? ==> (("jupyter_direc" in r.modes || "jupyter_proxy" in r.modes) <==> WantsJupyter(a))
    ensures r.Chosen? ==> ("ssh_proxy" in r.modes <==> WantsJupyter(a) || a.ssh)
    ensures r.Chosen? ==> (("jupyter_direc" in r.modes || "ssh_direc" in r.modes) <==> a.direct && (WantsJupyter(a) || a.ssh))
    ensures r.Chosen? ==> (r.modes == ["args"] <==> !WantsJupyter(a) && !a.ssh && !a.args.NoArgs?)
    ensures r.Chosen? ==> (r.modes == ["ssh"] <==> !WantsJupyter(a) && !a.ssh && a.args.NoArgs?)
  {
    var runtype := if ArgsTruthy(a.args) then "args" else "ssh";
    var runtype := if EmptyArgs(a.args) then "args" else runtype;
    var updated := a.(args := if EmptyArgs(a.args) then NoArgs else a.args, jupyter := WantsJupyter(a));
    if updated.jupyter && runtype == "args" then Refused(updated)
    else if updated.jupyter then
      Chosen(if a.direct then ["jupyter_direc", "ssh_direc", "ssh_proxy"] else ["jupyter_proxy", "ssh_proxy"], updated)
    else if a.ssh then
      Chosen(if a.direct then ["ssh_direc", "ssh_proxy"] else ["ssh_proxy"], updated)
    else Chosen([runtype], updated)
  }

  /** The runtype string reads back as its modes: none of them holds a space. */
  lemma RuntypeTextModes(a: LaunchArgs)
    requires GetRuntype(a).Chosen?
    ensures Split(RuntypeText(GetRuntype(a).modes), ' ') == GetRuntype(a).modes
  {
    var ms := GetRuntype(a).modes;
    assert forall i :: 0 <= i < |ms| ==> ' ' !in ms[i];
    SplitJoin(ms, ' ');
  }

  // ----- build_tfa_verification_payload -----

  /** The TFA options a command may carry; a missing one reads as `None` (`sms` as `False`). */
  datatype TfaArgs = TfaArgs(methodId: Json, sms: Json, code: Json, backupCode: Json, secret: Json)

  /** The method asked for: SMS when `--sms` is set, an authenticator app otherwise. */
  function TfaMethod(a: TfaArgs): string {
    if Truthy(a.sms) then "sms" else "totp"
  }

  function TfaBase(a: TfaArgs): (d: Dict<string, Json>)
    ensures UniqueKeys(d)
  {
    var d := [("tfa_method_id", a.methodId), ("tfa_method", JStr(TfaMethod(a))),
              ("code", a.code), ("backup_code", a.backupCode), ("secret", a.secret)];
    assert Keys(d) == ["tfa_method_id", "tfa_method", "code", "backup_code", "secret"];
    d
  }

  /** `{k: v for k, v in d.items() if v}`: the truthy items, in order. */
  function FilterTruthy<K(!new)>(d: Dict<K, Json>): (r: Dict<K, Json>)
    ensures forall p :: p in r <==> p in d && Truthy(p.1)
    ensures |r| <= |d|
  {
    if |d| == 0 then []
    else (if Truthy(d[0].1) then [d[0]] else []) + FilterTruthy(d[1..])
  }

  /** The keys that survive keep their order and stay distinct. */
  lemma {:induction false} FilterTruthyUnique<K(!new)>(d: Dict<K, Json>)
    requires UniqueKeys(d)
    ensures UniqueKeys(FilterTruthy(d))
    ensures forall k :: HasKey(FilterTruthy(d), k) ==> HasKey(d, k)
  {
    if |d| > 0 {
      assert Keys(d[1..]) == Keys(d)[1..];
      FilterTruthyUnique(d[1..]);
      var t := FilterTruthy(d[1..]);
      assert d[0].0 !in Keys(t);
      if Truthy(d[0].1) {
        assert Keys(FilterTruthy(d)) == [d[0].0] + Keys(t);
      } else {
        assert FilterTruthy(d) == t;
      }
    }
  }

  /** With distinct keys, a key keeps its value if that value is truthy and is dropped otherwise. */
  lemma {:induction false} FilterTruthyGet<K(!new)>(d: Dict<K, Json>, k: K)
    requires UniqueKeys(d)
    ensures Get(FilterTruthy(d), k) == if Get(d, k).Some? && Truthy(Get(d, k).value) then Get(d, k) else None
  {
    if |d| > 0 {
      assert Keys(d[1..]) == Keys(d)[1..];
      FilterTruthyGet(d[1..], k);
      FilterTruthyUnique(d[1..]);
      var t := FilterTruthy(d[1..]);
      if d[0].0 == k {
        assert k !in Keys(d[1..]);
        assert !HasKey(t, k);
      }
      if Truthy(d[0].1) {
        assert FilterTruthy(d) == [d[0]] + t;
        assert ([d[0]] + t)[1..] == t;
      } else {
        assert FilterTruthy(d) == t;
      }
    }
  }

  /**
   * `build_tfa_verification_payload`: the five TFA fields, overridden by the
   * keyword arguments, keeping only the truthy values.
   */
  function TfaPayload(a: TfaArgs, kwargs: Dict<string, Json>): (r: Dict<string, Json>)
    ensures forall p :: p in r ==> Truthy(p.1)
    ensures forall p :: p in r ==> p in TfaBase(a) || p in kwargs
  {
    var full := Update(TfaBase(a), kwargs);
    UpdateItems(TfaBase(a), kwargs);
    FilterTruthy(full)
  }

  /**
   * Each key of the payload holds the keyword argument's value if one was
   * given and the TFA field's value otherwise, and is present exactly when
   * that value is truthy.
   */
  lemma TfaPayloadGet(a: TfaArgs, kwargs: Dict<string, Json>, k: string)
    requires UniqueKeys(kwargs)
    ensures var v := if HasKey(kwargs, k) then Get(kwargs, k) else Get(TfaBase(a), k);
            Get(TfaPayload(a, kwargs), k) == if v.Some? && Truthy(v.value) then v else None
  {
    UpdateUnique(TfaBase(a), kwargs);
    UpdateGet(TfaBase(a), kwargs, k);
    FilterTruthyGet(Update(TfaBase(a), kwargs), k);
  }

  /** Unless a keyword argument overrides it, the payload always names the method: `sms` or `totp`. */
  lemma TfaPayloadMethod(a: TfaArgs, kwargs: Dict<string, Json>)
    requires UniqueKeys(kwargs) && !HasKey(kwargs, "tfa_method")
    ensures Get(TfaPayload(a, kwargs), "tfa_method") == Some(JStr(if Truthy(a.sms) then "sms" else "totp"))
  {
    TfaPayloadGet(a, kwargs, "tfa_method");
    assert Get(TfaBase(a), "tfa_method") == Some(JStr(TfaMethod(a)));
  }

  // ----- select -----

  /** Python can put a value in a set unless it is a list or a dict. */
  predicate Hashable(j: Json) {
    !j.JList? && !j.JObj?
  }

  /** `select`: the set of non-`None` values stored under `k` across the rows; an unhashable one raises TypeError. */
  function Select(rows: seq<Dict<string, Json>>, k: string): (r: Result<set<Json>, Exc>)
    ensures r.Ok? <==> forall i :: 0 <= i < |rows| ==> Get(rows[i], k).None? || Hashable(Get(rows[i], k).value)
    ensures r.Ok? ==> forall v :: v in r.value <==> !v.JNull? && exists i :: 0 <= i < |rows| && Get(rows[i], k) == Some(v)
    ensures r.Err? ==> r.error.TypeError?
  {
    if |rows| == 0 then Ok({})
    else
      var v := Get(rows[0], k);
      if v.Some? && !Hashable(v.value) then Err(TypeError("unhashable type"))
      else
        match Select(rows[1..], k)
        case Err(e) => Err(e)
        case Ok(ys) =>
          assert forall i :: 1 <= i < |rows| ==> rows[i] == rows[1..][i - 1];
          Ok(if v.Some? && !v.value.JNull? then {v.value} + ys else ys)
  }
}

=== FILE: json.dfy ===
/** Loosely typed Python values as the client handles them: the JSON it sends and receives. */
module Json {
  import opened Wrappers
  import opened PyDict
  import PyStr
  import opened PyExc

  datatype Json =
    | JNull
    | JBool(b: bool)
    | JInt(i: int)
    | JReal(r: real)
    | JStr(s: string)
    | JList(items: seq<Json>)
    | JObj(fields: Dict<string, Json>)

  /** Python truthiness (`bool(x)`). */
  predicate Truthy(j: Json) {
    match j
    case JNull => false
    case JBool(b) => b
    case JInt(i) => i != 0
    case JReal(r) => r != 0.0
    case JStr(s) => |s| > 0
    case JList(xs) => |xs| > 0
    case JObj(fs) => |fs| > 0
  }

  /** A list of strings as JSON strings. */
  function StrList(xs: seq<string>): (r: seq<Json>)
    ensures |r| == |xs| && forall i :: 0 <= i < |xs| ==> r[i] == JStr(xs[i])
  {
    seq(|xs|, i requires 0 <= i < |xs| => JStr(xs[i]))
  }

  /** bool, int and float compare as numbers in Python (`True == 1 == 1.0`). */
  function NumValue(j: Json): Option<real> {
    match j
    case JBool(b) => Some(if b then 1.0 else 0.0)
    case JInt(i) => Some(i as real)
    case JReal(r) => Some(r)
    case _ => None
  }

  /** Python `==` on these values: numbers across types, lists elementwise, dicts by key regardless of order. */
  predicate PyEq(a: Json, b: Json)
    decreases a
  {
    if NumValue(a).Some? && NumValue(b).Some? then NumValue(a) == NumValue(b)
    else
      match a
      case JNull => b.JNull?
      case JStr(x) => b.JStr? && b.s == x
      case JList(xs) =>
        b.JList? && |xs| == |b.items| && forall i :: 0 <= i < |xs| ==> PyEq(xs[i], b.items[i])
      case JObj(xs) =>
        && b.JObj? && |xs| == |b.fields|
        && forall i :: 0 <= i < |xs| ==> Get(b.fields, xs[i].0).Some? && PyEq(xs[i].1, Get(b.fields, xs[i].0).value)
      case _ => false
  }

  /** Python `x in container`; Err names the TypeError Python raises for a container it cannot search. */
  function PyIn(x: Json, container: Json): Result<bool, string> {
    match container
    case JList(ys) => Ok(exists i :: 0 <= i < |ys| && PyEq(x, ys[i]))
    case JObj(fs) => Ok(x.JStr? && HasKey(fs, x.s))
    case JStr(s) =>
      if x.JStr? then Ok(PyStr.Contains(s, x.s)) else Err("'in <string>' requires string as left operand")
    case _ => Err("argument is not iterable")
  }

  /** `int(x)` truncates a float toward zero, as Python does. */
  function Trunc(r: real): (n: int)
    ensures r >= 0.0 ==> n as real <= r < n as real + 1.0
    ensures r < 0.0 ==> n as real - 1.0 < r <= n as real
  {
    if r >= 0.0 then r.Floor else -((-r).Floor)
  }

  /** Python `int(x)` on a loosely typed value. */
  function PyInt(j: Json): (r: Result<int, Exc>)
    ensures j.JInt? ==> r == Ok(j.i)
    ensures j.JStr? ==> (r.Ok? <==> PyStr.ParseInt(j.s).Some?)
    ensures (j.JNull? || j.JList? || j.JObj?) ==> r.Err? && r.error.TypeError?
  {
    match j
    case JInt(i) => Ok(i)
    case JBool(b) => Ok(if b then 1 else 0)
    case JReal(x) => Ok(Trunc(x))
    case JStr(s) =>
      (match PyStr.ParseInt(s)
       case Some(n) => Ok(n)
       case None => Err(ValueError("invalid literal for int() with base 10")))
    case _ => Err(TypeError("int() argument must be a string, a bytes-like object or a real number"))
  }
}

=== FILE: path_regex.dfy ===
/**
 * The Unix-path pattern `^(/)?([^/\0]+(/)?)+$` used to check VRL paths
 * and volume mount paths.
 */
module PathRegex {
  import opened PyStr

  /** `[^/\0]` */
  predicate NameChar(c: char) {
    c != '/' && c != '\0'
  }

  /** `([^/\0]+(/)?)+`: one or more names, each optionally followed by one `/`. */
  predicate Segments(s: string)
    decreases |s|, 1
  {
    |s| > 0 && NameChar(s[0]) && SegmentTail(s[1..])
  }

  /** What may follow the first character of a name inside `Segments`. */
  predicate SegmentTail(t: string)
    decreases |t|, 0
  {
    || |t| == 0
    || (NameChar(t[0]) && SegmentTail(t[1..]))
    || (t[0] == '/' && (|t| == 1 || Segments(t[1..])))
  }

  /** The whole pattern, anchored at both ends: an optional leading `/`, then the names. */
  predicate MatchesUnixPath(p: string) {
    Segments(p) || (|p| > 0 && p[0] == '/' && Segments(p[1..]))
  }

  /** No two consecutive `/`. */
  predicate NoDoubleSlash(p: string) {
    forall i :: 0 <= i < |p| - 1 ==> !(p[i] == '/' && p[i + 1] == '/')
  }

  /** The plain reading of the pattern: non-empty, no NUL, no `//`, and not `/` alone. */
  predicate PlainUnixPath(p: string) {
    |p| > 0 && '\0' !in p && NoDoubleSlash(p) && p != "/"
  }

  /** `Segments` holds exactly for non-empty strings without NUL or `//` that do not start with `/`. */
  lemma {:induction false} SegmentsIff(s: string)
    ensures Segments(s) <==> |s| > 0 && s[0] != '/' && '\0' !in s && NoDoubleSlash(s)
    decreases |s|, 1
  {
    if |s| > 0 {
      SegmentTailIff(s[1..]);
      assert s == [s[0]] + s[1..];
    }
  }

  lemma {:induction false} SegmentTailIff(t: string)
    ensures SegmentTail(t) <==> '\0' !in t && NoDoubleSlash(t)
    decreases |t|, 0
  {
    if |t| > 0 {
      assert t == [t[0]] + t[1..];
      if t[0] == '/' && |t| > 1 {
        SegmentsIff(t[1..]);
      } else if t[0] != '/' {
        SegmentTailIff(t[1..]);
      }
    }
  }

  /** The pattern accepts exactly the plain reading. */
  lemma MatchesUnixPathIff(p: string)
    ensures MatchesUnixPath(p) <==> PlainUnixPath(p)
  {
    SegmentsIff(p);
    if |p| > 0 {
      SegmentsIff(p[1..]);
      assert p == [p[0]] + p[1..];
      if p[0] == '/' && |p| > 1 {
        assert p[1] == p[1..][0];
      }
    }
  }
}

=== FILE: pydict.dfy ===
/**
 * Python dicts, which remember insertion order, as association lists.
 * Order is observable in this client: the `rented` post-filter reads the
 * first operator of a sub-filter, and URL query strings are written in
 * dict order.
 */
module PyDict {
  import opened Wrappers

  /** The items of a dict in insertion order. */
  type Dict<K, V> = seq<(K, V)>

  function Keys<K, V>(d: Dict<K, V>): (ks: seq<K>)
    ensures |ks| == |d|
    ensures forall i :: 0 <= i < |d| ==> ks[i] == d[i].0
  {
    if |d| == 0 then [] else [d[0].0] + Keys(d[1..])
  }

  predicate Distinct<T(==)>(s: seq<T>) {
    forall i, j :: 0 <= i < j < |s| ==> s[i] != s[j]
  }

  /** Every Python dict has pairwise distinct keys. */
  predicate UniqueKeys<K(==, !new), V>(d: Dict<K, V>) {
    Distinct(Keys(d))
  }

  predicate HasKey<K(==, !new), V>(d: Dict<K, V>, k: K) {
    k in Keys(d)
  }

  /** `d.get(k)`: the value stored under `k`, if any. */
  function Get<K(==, !new), V>(d: Dict<K, V>, k: K): (r: Option<V>)
    ensures r.Some? <==> HasKey(d, k)
    ensures r.Some? ==> (k, r.value) in d
  {
    if |d| == 0 then None
    else if d[0].0 == k then Some(d[0].1)
    else Get(d[1..], k)
  }

  /** `d[k] = v`: overwrite in place when `k` is present, otherwise append. */
  function Set<K(==, !new), V>(d: Dict<K, V>, k: K, v: V): (r: Dict<K, V>)
    ensures Get(r, k) == Some(v)
    ensures forall k' :: k' != k ==> Get(r, k') == Get(d, k')
  {
    if |d| == 0 then [(k, v)]
    else if d[0].0 == k then [(k, v)] + d[1..]
    else [d[0]] + Set(d[1..], k, v)
  }

  /** Setting a key that is not there appends it. */
  lemma {:induction false} SetAppends<K(!new), V>(d: Dict<K, V>, k: K, v: V)
    requires !HasKey(d, k)
    ensures Set(d, k, v) == d + [(k, v)]
  {
    if |d| > 0 {
      var tail := d[1..];
      MissingKeyTail(d, k);
      SetAppends(tail, k, v);
      ConsAppend(d, (k, v));
    }
  }

  lemma KeysCons<K, V>(d: Dict<K, V>)
    requires |d| > 0
    ensures Keys(d) == [d[0].0] + Keys(d[1..])
  {
  }

  /** A key missing from a dict is missing from its tail, and the set goes past the head. */
  lemma MissingKeyTail<K(!new), V>(d: Dict<K, V>, k: K)
    requires |d| > 0 && !HasKey(d, k)
    ensures d[0].0 != k && !HasKey(d[1..], k)
    ensures forall v :: Set(d, k, v) == [d[0]] + Set(d[1..], k, v)
  {
    KeysCons(d);
  }

  lemma ConsAppend<T>(d: seq<T>, x: T)
    requires |d| > 0
    ensures [d[0]] + (d[1..] + [x]) == d + [x]
  {
  }

  /** Setting a key to the value it was just set to changes nothing. */
  lemma {:induction false} SetTwice<K(!new), V>(d: Dict<K, V>, k: K, v: V)
    ensures Set(Set(d, k, v), k, v) == Set(d, k, v)
  {
    if |d| > 0 && d[0].0 != k {
      SetTwice(d[1..], k, v);
      assert Set(d, k, v)[1..] == Set(d[1..], k, v);
    }
  }

  /** Setting keeps the key order, appending a new key at the end. */
  lemma {:induction false} SetKeys<K(!new), V>(d: Dict<K, V>, k: K, v: V)
    ensures Keys(Set(d, k, v)) == if HasKey(d, k) then Keys(d) else Keys(d) + [k]
  {
    if |d| > 0 && d[0].0 != k {
      SetKeys(d[1..], k, v);
      assert Keys(d) == [d[0].0] + Keys(d[1..]);
    }
  }

  lemma SetUnique<K(!new), V>(d: Dict<K, V>, k: K, v: V)
    requires UniqueKeys(d)
    ensures UniqueKeys(Set(d, k, v))
  {
    SetKeys(d, k, v);
    if !HasKey(d, k) {
      DistinctSnoc(Keys(d), k);
    }
  }

  lemma DistinctSnoc<T>(s: seq<T>, x: T)
    requires Distinct(s) && x !in s
    ensures Distinct(s + [x])
  {
    var t := s + [x];
    forall i, j | 0 <= i < j < |t| ensures t[i] != t[j] {
      if j == |s| {
        assert t[i] == s[i];
      } else {
        assert t[i] == s[i] && t[j] == s[j];
      }
    }
  }

  /** `d.pop(k, None)` / `del d[k]`: the dict without `k`, other items in their order. */
  function Remove<K(==, !new), V>(d: Dict<K, V>, k: K): (r: Dict<K, V>)
    ensures !HasKey(r, k)
    ensures forall k' :: k' != k ==> Get(r, k') == Get(d, k')
    ensures forall x :: x in Keys(r) ==> x in Keys(d)
    ensures |r| <= |d|
  {
    if |d| == 0 then []
    else if d[0].0 == k then Remove(d[1..], k)
    else
      var rest := Remove(d[1..], k);
      assert ([d[0]] + rest)[1..] == rest;
      assert Keys([d[0]] + rest) == [d[0].0] + Keys(rest);
      assert Keys(d) == [d[0].0] + Keys(d[1..]);
      [d[0]] + rest
  }

  lemma {:induction false} RemoveUnique<K(!new), V>(d: Dict<K, V>, k: K)
    requires UniqueKeys(d)
    ensures UniqueKeys(Remove(d, k))
    decreases |d|
  {
    if |d| > 0 {
      assert Keys(d[1..]) == Keys(d)[1..];
      RemoveUnique(d[1..], k);
      var r := Remove(d[1..], k);
      if d[0].0 != k {
        assert d[0].0 !in Keys(d[1..]);
        assert !HasKey(r, d[0].0);
      }
    }
  }

  /** `d.update(e)`: every item of `e`, in order, written into `d`. */
  function Update<K(==, !new), V>(d: Dict<K, V>, e: Dict<K, V>): (r: Dict<K, V>)
    decreases |e|
  {
    if |e| == 0 then d else Update(Set(d, e[0].0, e[0].1), e[1..])
  }

  /** With unique keys on the right, `update` lets the right-hand value win. */
  lemma {:induction false} UpdateGet<K(!new), V>(d: Dict<K, V>, e: Dict<K, V>, k: K)
    requires UniqueKeys(e)
    ensures Get(Update(d, e), k) == if HasKey(e, k) then Get(e, k) else Get(d, k)
    decreases |e|
  {
    if |e| > 0 {
      assert Keys(e[1..]) == Keys(e)[1..];
      assert e[0].0 !in Keys(e[1..]);
      UpdateGet(Set(d, e[0].0, e[0].1), e[1..], k);
    }
  }

  /** Every item after `d[k] = v` was already there, or is the new one. */
  lemma {:induction false} SetItems<K(!new), V>(d: Dict<K, V>, k: K, v: V)
    ensures forall p :: p in Set(d, k, v) ==> p in d || p == (k, v)
    decreases |d|
  {
    if |d| > 0 && d[0].0 != k {
      SetItems(d[1..], k, v);
      assert Set(d, k, v) == [d[0]] + Set(d[1..], k, v);
    }
  }

  /** Removing a key adds no item. */
  lemma {:induction false} RemoveItems<K(!new), V>(d: Dict<K, V>, k: K)
    ensures forall p :: p in Remove(d, k) ==> p in d
    decreases |d|
  {
    if |d| > 0 {
      RemoveItems(d[1..], k);
      if d[0].0 != k {
        assert Remove(d, k) == [d[0]] + Remove(d[1..], k);
      }
    }
  }

  /** Every item after `d.update(e)` comes from `d` or from `e`. */
  lemma {:induction false} UpdateItems<K(!new), V>(d: Dict<K, V>, e: Dict<K, V>)
    ensures forall p :: p in Update(d, e) ==> p in d || p in e
    decreases |e|
  {
    if |e| > 0 {
      SetItems(d, e[0].0, e[0].1);
      UpdateItems(Set(d, e[0].0, e[0].1), e[1..]);
      assert forall p :: p in e[1..] ==> p in e;
    }
  }

  /** `update` keeps keys distinct. */
  lemma {:induction false} UpdateUnique<K(!new), V>(d: Dict<K, V>, e: Dict<K, V>)
    requires UniqueKeys(d)
    ensures UniqueKeys(Update(d, e))
    decreases |e|
  {
    if |e| > 0 {
      SetUnique(d, e[0].0, e[0].1);
      UpdateUnique(Set(d, e[0].0, e[0].1), e[1..]);
    }
  }

  /** With distinct keys, an item of the dict is what `get` finds. */
  lemma UniqueGet<K(!new), V>(d: Dict<K, V>, k: K, v: V)
    requires UniqueKeys(d) && (k, v) in d
    ensures Get(d, k) == Some(v)
  {
    var i :| 0 <= i < |d| && d[i] == (k, v);
    UniqueGetAt(d, i);
  }

  lemma {:induction false} UniqueGetAt<K(!new), V>(d: Dict<K, V>, i: nat)
    requires UniqueKeys(d) && i < |d|
    ensures Get(d, d[i].0) == Some(d[i].1)
    decreases i
  {
    if i > 0 {
      assert Keys(d)[0] != Keys(d)[i];
      assert Keys(d[1..]) == Keys(d)[1..];
      UniqueGetAt(d[1..], i - 1);
    }
  }

  /** A dict with a single item. */
  function Singleton<K, V>(k: K, v: V): Dict<K, V> {
    [(k, v)]
  }
}

=== FILE: pyexc.dfy ===
/** The Python exceptions the modelled code raises or lets escape, each with its message where the code sets one. */
module PyExc {
  datatype Exc =
    | ValueError(msg: string)
    | TypeError(msg: string)
    | AttributeError(msg: string)
    | IndexError(msg: string)
    | KeyError(key: string)
    | ZeroDivisionError
    | ArgumentTypeError(msg: string)
    /** argparse's error for a bad declaration, such as an option string already in use. */
    | ArgumentError(msg: string)
    /** `raise SystemExit` / `sys.exit(code)`; `None` when raised without a code. */
    | SystemExit(code: ExitCode)
    | VRLException(msg: string)
    /** A bare `raise Exception(msg)`. */
    | PlainException(msg: string)

  /** The argument of `sys.exit`: none, an integer status, or a message printed to stderr (status 1). */
  datatype ExitCode = NoCode | Code(n: int) | Message(text: string)
}

=== FILE: pystr.dfy ===
/**
 * The Python `str` operations the client relies on, over `seq<char>`:
 * strip/lstrip/rstrip, split/join, replace, lower, startswith, find,
 * partition, zfill, and the `int()` / `float()` conversions of text.
 */
module PyStr {
  import opened Wrappers

  /** The characters for which Python's `str.isspace()` holds; `strip()` with no argument removes these. */
  predicate IsSpace(c: char) {
    || c == ' ' || c == '\t' || c == '\n' || c == '\r'
    || c == '\U{000B}' || c == '\U{000C}'
    || ('\U{001C}' <= c <= '\U{001F}')
    || c == '\U{0085}' || c == '\U{00A0}' || c == '\U{1680}'
    || ('\U{2000}' <= c <= '\U{200A}')
    || c == '\U{2028}' || c == '\U{2029}' || c == '\U{202F}' || c == '\U{205F}' || c == '\U{3000}'
  }

  predicate IsDigit(c: char) { '0' <= c <= '9' }

  function DigitValue(c: char): nat
    requires IsDigit(c)
  {
    (c as int) - ('0' as int)
  }

  function DigitChar(d: nat): (c: char)
    requires d < 10
    ensures IsDigit(c) && DigitValue(c) == d
  {
    ('0' as int + d) as char
  }

  predicate AllDigits(s: string) {
    forall i :: 0 <= i < |s| ==> IsDigit(s[i])
  }

  /** Python's `str.isdigit()`, restricted to ASCII digits: non-empty and all digits. */
  predicate IsDigitString(s: string) {
    |s| > 0 && AllDigits(s)
  }

  /** The argument of `strip`: no argument (whitespace) or an explicit set of characters. */
  datatype CharClass = Whitespace | Chars(cs: set<char>)

  predicate InClass(c: char, k: CharClass) {
    match k
    case Whitespace => IsSpace(c)
    case Chars(cs) => c in cs
  }

  /** `s.lstrip(k)`: the suffix left after dropping every leading character of class `k`. */
  function LStrip(s: string, k: CharClass): (r: string)
    ensures |r| <= |s| && r == s[|s| - |r|..]
    ensures |r| == 0 || !InClass(r[0], k)
    ensures forall i :: 0 <= i < |s| - |r| ==> InClass(s[i], k)
  {
    if |s| > 0 && InClass(s[0], k) then LStrip(s[1..], k) else s
  }

  /** `s.rstrip(k)`: the prefix left after dropping every trailing character of class `k`. */
  function RStrip(s: string, k: CharClass): (r: string)
    ensures |r| <= |s| && r == s[..|r|]
    ensures |r| == 0 || !InClass(r[|r| - 1], k)
    ensures forall i :: |r| <= i < |s| ==> InClass(s[i], k)
  {
    if |s| > 0 && InClass(s[|s| - 1], k) then RStrip(s[..|s| - 1], k) else s
  }

  /** `s.strip(k)`. */
  function Strip(s: string, k: CharClass): string {
    RStrip(LStrip(s, k), k)
  }

  /** Neither end of a stripped string is in the class. */
  lemma StripEnds(s: string, k: CharClass)
    ensures var r := Strip(s, k);
            |r| == 0 || (!InClass(r[0], k) && !InClass(r[|r| - 1], k))
  {
    var l := LStrip(s, k);
    var r := RStrip(l, k);
    if |r| > 0 {
      assert r[0] == l[0];
    }
  }

  /** Stripping only removes characters: whatever is left was in the string. */
  lemma StripKeepsChars(s: string, k: CharClass)
    ensures forall c :: c in Strip(s, k) ==> c in s
  {
  }

  lemma StripUnchanged(s: string, k: CharClass)
    requires |s| == 0 || (!InClass(s[0], k) && !InClass(s[|s| - 1], k))
    ensures Strip(s, k) == s
  {
  }

  /** `s.strip(k) != s` exactly when one of the ends of `s` is in the class. */
  lemma StripChangesIff(s: string, k: CharClass)
    ensures Strip(s, k) != s <==> |s| > 0 && (InClass(s[0], k) || InClass(s[|s| - 1], k))
  {
    if |s| > 0 && (InClass(s[0], k) || InClass(s[|s| - 1], k)) {
      StripEnds(s, k);
    } else {
      StripUnchanged(s, k);
    }
  }

  /** Stripping twice is stripping once. */
  lemma StripIdempotent(s: string, k: CharClass)
    ensures Strip(Strip(s, k), k) == Strip(s, k)
  {
    StripEnds(s, k);
    StripUnchanged(Strip(s, k), k);
  }

  /** Index of the first occurrence of `c` in `s`. */
  function IndexOf(s: string, c: char): (i: nat)
    requires c in s
    ensures i < |s| && s[i] == c && c !in s[..i]
  {
    if s[0] == c then 0 else 1 + IndexOf(s[1..], c)
  }

  /** `sep.join(parts)`. */
  function Join(parts: seq<string>, sep: string): string {
    if |parts| == 0 then ""
    else if |parts| == 1 then parts[0]
    else parts[0] + sep + Join(parts[1..], sep)
  }

  /** `s.split(sep)` for a one-character separator (never used with `maxsplit` in a way that matters here). */
  function Split(s: string, sep: char): (parts: seq<string>)
    ensures |parts| >= 1
    ensures forall i :: 0 <= i < |parts| ==> sep !in parts[i]
    decreases |s|
  {
    if sep in s then
      var i := IndexOf(s, sep);
      [s[..i]] + Split(s[i + 1..], sep)
    else
      [s]
  }

  /** Joining the pieces of a split with the separator gives the string back. */
  lemma {:induction false} JoinSplit(s: string, sep: char)
    ensures Join(Split(s, sep), [sep]) == s
    decreases |s|
  {
    if sep in s {
      var i := IndexOf(s, sep);
      var rest := s[i + 1..];
      SplitFirst(s, sep);
      JoinSplit(rest, sep);
      JoinCons(s[..i], Split(rest, sep), [sep]);
    }
  }

  /** A split at the first separator: the piece before it, then the split of the rest. */
  lemma SplitFirst(s: string, sep: char)
    requires sep in s
    ensures Split(s, sep) == [s[..IndexOf(s, sep)]] + Split(s[IndexOf(s, sep) + 1..], sep)
    ensures s == s[..IndexOf(s, sep)] + [sep] + s[IndexOf(s, sep) + 1..]
  {
    var i := IndexOf(s, sep);
    assert s == s[..i] + [s[i]] + s[i + 1..];
  }

  /** Joining a first piece in front of at least one more. */
  lemma JoinCons(p: string, ps: seq<string>, sep: string)
    requires |ps| >= 1
    ensures Join([p] + ps, sep) == p + sep + Join(ps, sep)
  {
    assert ([p] + ps)[1..] == ps;
  }

  lemma {:induction false} IndexOfConcat(p: string, c: char, rest: string)
    requires c !in p
    ensures c in p + [c] + rest && IndexOf(p + [c] + rest, c) == |p|
    decreases |p|
  {
    var s := p + [c] + rest;
    assert s[|p|] == c;
    if |p| > 0 {
      assert s[1..] == p[1..] + [c] + rest;
      IndexOfConcat(p[1..], c, rest);
    }
  }

  /** Joining one more part adds the separator and the part. */
  lemma JoinSnoc(ps: seq<string>, sep: string, last: string)
    requires |ps| >= 1
    ensures Join(ps + [last], sep) == Join(ps, sep) + sep + last
    decreases |ps|
  {
    if |ps| > 1 {
      assert (ps + [last])[1..] == ps[1..] + [last];
      JoinSnoc(ps[1..], sep, last);
    }
  }

  /** Splitting a join of separator-free pieces gives the pieces back. */
  lemma {:induction false} SplitJoin(parts: seq<string>, sep: char)
    requires |parts| >= 1
    requires forall i :: 0 <= i < |parts| ==> sep !in parts[i]
    ensures Split(Join(parts, [sep]), sep) == parts
    decreases |parts|
  {
    if |parts| > 1 {
      var p0 := parts[0];
      var tail := parts[1..];
      var rest := Join(tail, [sep]);
      var s := p0 + [sep] + rest;
      assert Join(parts, [sep]) == s by {
        assert parts == [p0] + tail;
        JoinCons(p0, tail, [sep]);
      }
      assert Split(s, sep) == [p0] + Split(rest, sep) by {
        IndexOfConcat(p0, sep, rest);
        assert s[..|p0|] == p0;
        assert s[|p0| + 1..] == rest;
      }
      SplitJoin(tail, sep);
      assert parts == [p0] + tail;
    }
  }

  /** Number of occurrences of `c` in `s`. */
  function Count(s: string, c: char): nat {
    if |s| == 0 then 0 else (if s[0] == c then 1 else 0) + Count(s[1..], c)
  }

  lemma CountPrefix(s: string, c: char, i: nat)
    requires i <= |s|
    ensures Count(s, c) == Count(s[..i], c) + Count(s[i..], c)
  {
    if i > 0 {
      CountPrefix(s[1..], c, i - 1);
      assert s[1..][..i - 1] == s[..i][1..];
      assert s[1..][i - 1..] == s[i..];
    }
  }

  lemma CountAbsent(s: string, c: char)
    requires c !in s
    ensures Count(s, c) == 0
  {
    if |s| > 0 {
      assert c !in s[1..] by { assert forall j :: 0 <= j < |s| - 1 ==> s[1..][j] == s[j + 1]; }
    }
  }

  /** `s.split(sep)` has one more piece than there are separators. */
  lemma {:induction false} SplitCount(s: string, sep: char)
    ensures |Split(s, sep)| == Count(s, sep) + 1
    decreases |s|
  {
    if sep in s {
      var i := IndexOf(s, sep);
      SplitCount(s[i + 1..], sep);
      CountPrefix(s, sep, i);
      CountAbsent(s[..i], sep);
      assert s[i..] == [sep] + s[i + 1..];
    } else {
      CountAbsent(s, sep);
    }
  }

  /** `s.replace(a, b)` for single characters. */
  function ReplaceChar(s: string, a: char, b: char): (r: string)
    ensures |r| == |s|
    ensures forall i :: 0 <= i < |s| ==> r[i] == (if s[i] == a then b else s[i])
  {
    seq(|s|, i requires 0 <= i < |s| => if s[i] == a then b else s[i])
  }

  function LowerChar(c: char): char {
    if 'A' <= c <= 'Z' then (c as int + 32) as char else c
  }

  /** `s.lower()` on ASCII letters. */
  function Lower(s: string): (r: string)
    ensures |r| == |s|
    ensures forall i :: 0 <= i < |s| ==> r[i] == LowerChar(s[i])
  {
    seq(|s|, i requires 0 <= i < |s| => LowerChar(s[i]))
  }

  predicate StartsWith(s: string, p: string) {
    |p| <= |s| && s[..|p|] == p
  }

  predicate EndsWith(s: string, p: string) {
    |p| <= |s| && s[|s| - |p|..] == p
  }

  /** `s.find(sub)` as an option: the index of the first occurrence. */
  function Find(s: string, sub: string): (r: Option<nat>)
    ensures r.Some? ==> r.value + |sub| <= |s| && s[r.value..r.value + |sub|] == sub
    ensures r.Some? ==> forall j :: 0 <= j < r.value ==> !StartsWith(s[j..], sub)
    ensures r.Some? ==> StartsWith(s[r.value..], sub)
    decreases |s|
  {
    if StartsWith(s, sub) then Some(0)
    else if |s| == 0 then None
    else match Find(s[1..], sub)
      case Some(i) =>
        FindShift(s, sub, i);
        Some(i + 1)
      case None => None
  }

  /** A match found in the tail of `s`, one place further on in `s`. */
  lemma FindShift(s: string, sub: string, i: nat)
    requires |s| > 0 && !StartsWith(s, sub)
    requires i + |sub| <= |s| - 1 && s[1..][i..i + |sub|] == sub && StartsWith(s[1..][i..], sub)
    requires forall j :: 0 <= j < i ==> !StartsWith(s[1..][j..], sub)
    ensures s[i + 1..i + 1 + |sub|] == sub && StartsWith(s[i + 1..], sub)
    ensures forall j :: 0 <= j < i + 1 ==> !StartsWith(s[j..], sub)
  {
    assert s[i + 1..] == s[1..][i..];
    assert s[i + 1..i + 1 + |sub|] == s[1..][i..i + |sub|];
    forall j | 0 <= j < i + 1 ensures !StartsWith(s[j..], sub) {
      if j > 0 {
        assert s[j..] == s[1..][j - 1..];
      }
    }
  }

  /** `sub in s` for strings. */
  predicate Contains(s: string, sub: string) {
    Find(s, sub).Some?
  }

  lemma ContainsAt(s: string, sub: string, i: nat)
    requires i + |sub| <= |s| && s[i..i + |sub|] == sub
    ensures Contains(s, sub)
    decreases i
  {
    if !StartsWith(s, sub) {
      assert i > 0;
      assert s[1..][i - 1..i - 1 + |sub|] == sub;
      ContainsAt(s[1..], sub, i - 1);
    }
  }

  /** `s.partition(sep)`: text before the first `sep`, the separator found (or ""), and the rest. */
  function Partition(s: string, sep: string): (r: (string, string, string))
    requires |sep| > 0
    ensures r.0 + r.1 + r.2 == s
    ensures r.1 == sep || (r.1 == "" && r.0 == s)
    ensures r.1 == sep ==> forall j :: 0 <= j < |r.0| ==> !StartsWith(s[j..], sep)
  {
    match Find(s, sep)
    case Some(i) =>
      assert s == s[..i] + sep + s[i + |sep|..];
      (s[..i], sep, s[i + |sep|..])
    case None => (s, "", "")
  }
  /** A partition finds nothing only when the separator occurs nowhere. */
  lemma PartitionFound(s: string, sep: string, i: nat)
    requires |sep| > 0 && i + |sep| <= |s| && s[i..i + |sep|] == sep
    ensures Partition(s, sep).1 == sep && |Partition(s, sep).0| <= i
  {
    ContainsAt(s, sep, i);
    var p := Partition(s, sep);
    if |p.0| > i {
      assert StartsWith(s[i..], sep);
    }
  }

  /** Where the separator occurs nowhere, the partition keeps the whole text. */
  lemma PartitionMissing(s: string, sep: string)
    requires |sep| > 0
    requires forall k :: 0 <= k <= |s| ==> !StartsWith(s[k..], sep)
    ensures Partition(s, sep) == (s, "", "")
  {
  }


  /** `c * n` for a character. */
  function Repeat(c: char, n: nat): (r: string)
    ensures |r| == n && forall i :: 0 <= i < n ==> r[i] == c
  {
    seq(n, _ => c)
  }

  /** `s.zfill(width)`: left-pad with zeros to `width`, keeping a leading sign in front. */
  function ZFill(s: string, width: nat): (r: string)
    ensures |r| == if |s| >= width then |s| else width
  {
    if |s| >= width then s
    else if |s| > 0 && (s[0] == '+' || s[0] == '-') then [s[0]] + Repeat('0', width - |s|) + s[1..]
    else Repeat('0', width - |s|) + s
  }

  // ----- int() -----

  /** The body of a Python decimal integer literal: digits, with single `_` only between two digits. */
  predicate IsIntLiteral(d: string) {
    && |d| > 0
    && (forall i :: 0 <= i < |d| ==> IsDigit(d[i]) || d[i] == '_')
    && IsDigit(d[0]) && IsDigit(d[|d| - 1])
    && (forall i :: 0 <= i < |d| - 1 ==> d[i] == '_' ==> IsDigit(d[i + 1]))
  }

  /** The value of a digit string, ignoring `_` separators. */
  function DigitsValue(d: string): nat {
    if |d| == 0 then 0
    else if IsDigit(d[|d| - 1]) then DigitsValue(d[..|d| - 1]) * 10 + DigitValue(d[|d| - 1])
    else DigitsValue(d[..|d| - 1])
  }

  function Pow10(n: nat): (p: nat)
    ensures p >= 1
  {
    if n == 0 then 1 else 10 * Pow10(n - 1)
  }

  /** `int(s)`: surrounding whitespace, an optional sign and a decimal literal; `None` where Python raises ValueError. */
  function ParseInt(s: string): Option<int> {
    var t := Strip(s, Whitespace);
    if |t| > 0 && (t[0] == '-' || t[0] == '+') then
      if IsIntLiteral(t[1..]) then
        Some(if t[0] == '-' then -(DigitsValue(t[1..]) as int) else DigitsValue(t[1..]))
      else None
    else if IsIntLiteral(t) then Some(DigitsValue(t))
    else None
  }

  /** Decimal digits of a natural number (`str(n)`). */
  function ShowNat(n: nat): (r: string)
    ensures |r| > 0 && AllDigits(r)
  {
    if n < 10 then [DigitChar(n)] else ShowNat(n / 10) + [DigitChar(n % 10)]
  }

  /** `str(n)` for an integer. */
  function ShowInt(n: int): string {
    if n < 0 then "-" + ShowNat(-n) else ShowNat(n)
  }

  lemma {:induction false} ShowNatValue(n: nat)
    ensures DigitsValue(ShowNat(n)) == n
  {
    if n >= 10 {
      var s := ShowNat(n);
      assert s[..|s| - 1] == ShowNat(n / 10);
      ShowNatValue(n / 10);
    }
  }

  lemma AllDigitsIsLiteral(d: string)
    requires IsDigitString(d)
    ensures IsIntLiteral(d)
  {
  }

  /** `int(str(n)) == n`. */
  lemma ParseShowInt(n: int)
    ensures ParseInt(ShowInt(n)) == Some(n)
  {
    if n < 0 {
      ParseShowNegative(n);
    } else {
      ShowNatValue(n);
      ParseDigits(ShowNat(n));
    }
  }

  lemma ParseShowNegative(n: int)
    requires n < 0
    ensures ParseInt(ShowInt(n)) == Some(n)
  {
    var d := ShowNat(-n);
    assert ShowInt(n) == "-" + d;
    assert DigitsValue(d) == -n by { ShowNatValue(-n); }
    ParseNegDigits(d);
  }

  /** `int("-" + d)` of a plain digit string is minus its value. */
  lemma ParseNegDigits(d: string)
    requires IsDigitString(d)
    ensures var r := ParseInt("-" + d);
            r.Some? && r.value == -(DigitsValue(d) as int)
  {
    var s := "-" + d;
    assert s[0] == '-' && s[1..] == d && s[|s| - 1] == d[|d| - 1];
    assert !IsSpace(s[0]) && !IsSpace(s[|s| - 1]);
    StripUnchanged(s, Whitespace);
    AllDigitsIsLiteral(d);
  }

  /** `int(d)` of a plain digit string is its value. */
  lemma ParseDigits(d: string)
    requires IsDigitString(d)
    ensures ParseInt(d) == Some(DigitsValue(d))
  {
    AllDigitsIsLiteral(d);
    assert !IsSpace(d[0]) && !IsSpace(d[|d| - 1]);
    StripUnchanged(d, Whitespace);
  }

  /** The value of a concatenation of digit strings. */
  lemma {:induction false} DigitsValueAppend(a: string, b: string)
    requires AllDigits(b)
    ensures DigitsValue(a + b) == DigitsValue(a) * Pow10(|b|) + DigitsValue(b)
    decreases |b|
  {
    if |b| > 0 {
      var b' := b[..|b| - 1];
      var c := b[|b| - 1];
      assert (a + b)[..|a + b| - 1] == a + b';
      assert (a + b)[|a + b| - 1] == c && IsDigit(c);
      assert DigitsValue(a + b) == DigitsValue(a + b') * 10 + DigitValue(c);
      assert DigitsValue(b) == DigitsValue(b') * 10 + DigitValue(c);
      DigitsValueAppend(a, b');
      var x, p := DigitsValue(a), Pow10(|b'|);
      assert Pow10(|b|) == 10 * p;
      ShiftDecimal(x, p, DigitsValue(b'));
    } else {
      assert a + b == a;
    }
  }

  lemma ShiftDecimal(x: int, p: int, y: int)
    ensures (x * p + y) * 10 == x * (10 * p) + y * 10
  {
  }

  lemma {:induction false} ZerosValue(n: nat)
    ensures DigitsValue(Repeat('0', n)) == 0
  {
    if n > 0 {
      assert Repeat('0', n)[..n - 1] == Repeat('0', n - 1);
      ZerosValue(n - 1);
    }
  }

  /** Left-padding a digit string with zeros keeps its value. */
  lemma ZFillDigits(s: string, width: nat)
    requires IsDigitString(s)
    ensures AllDigits(ZFill(s, width))
    ensures DigitsValue(ZFill(s, width)) == DigitsValue(s)
  {
    if |s| < width {
      ZerosValue(width - |s|);
      DigitsValueAppend(Repeat('0', width - |s|), s);
    }
  }

  // ----- float() -----

  /** The unsigned decimal forms `float()` accepts here: digits, optionally a `.` and more digits, at least one digit. */
  function DecimalBody(b: string): Option<real> {
    if '.' in b then
      var i := IndexOf(b, '.');
      var ip := b[..i];
      var fp := b[i + 1..];
      if AllDigits(ip) && AllDigits(fp) && |ip| + |fp| > 0 then
        Some(DigitsValue(ip) as real + (DigitsValue(fp) as real) / (Pow10(|fp|) as real))
      else None
    else if IsDigitString(b) then Some(DigitsValue(b) as real)
    else None
  }

  /** `float(s)` for plain decimal notation; `None` where Python raises ValueError. */
  function ParseFloat(s: string): Option<real> {
    var t := Strip(s, Whitespace);
    if |t| > 0 && (t[0] == '-' || t[0] == '+') then
      match DecimalBody(t[1..])
      case Some(x) => Some(if t[0] == '-' then -x else x)
      case None => None
    else DecimalBody(t)
  }

  /** `float(str(n)) == n`. */
  lemma ParseFloatShowInt(n: int)
    ensures ParseFloat(ShowInt(n)) == Some(n as real)
  {
    var m: nat := if n < 0 then -n else n;
    ShowNatValue(m);
    ParseFloatSigned(n, ShowNat(m));
  }

  /** The sign, if any, followed by the digits of `|n|`, reads as `n`. */
  lemma ParseFloatSigned(n: int, d: string)
    requires IsDigitString(d) && DigitsValue(d) == (if n < 0 then -n else n)
    ensures ParseFloat(if n < 0 then "-" + d else d) == Some(n as real)
  {
    DecimalBodyDigits(d);
    var s := if n < 0 then "-" + d else d;
    assert IsDigit(d[|d| - 1]) && s[|s| - 1] == d[|d| - 1];
    assert !IsSpace(s[0]) by { assert IsDigit(d[0]) && (s[0] == '-' || s[0] == d[0]); }
    StripUnchanged(s, Whitespace);
    if n < 0 {
      assert s[1..] == d;
    } else {
      assert s[0] != '-' && s[0] != '+' by { assert IsDigit(d[0]); }
    }
  }

  /** A digit string has no `.`, so it is read as an integer. */
  lemma DecimalBodyDigits(d: string)
    requires IsDigitString(d)
    ensures DecimalBody(d) == Some(DigitsValue(d) as real)
  {
    assert '.' !in d by { assert forall i :: 0 <= i < |d| ==> IsDigit(d[i]); }
  }
}

=== FILE: query_compiler.dfy ===
/**
 * `parse_query` (vast_cli/query/parser.py): compiles a free-text filter
 * such as `reliability>0.98 gpu_name=RTX_3090 geolocation in [TW,SE]`
 * into a map `field -> {operator -> value}`, merged into a base filter.
 */
module QueryCompiler {
  import opened Wrappers
  import opened PyStr
  import opened PyDict
  import opened PyExc
  import opened Json
  import opened QueryLexer
  import Helpers

  /** The operators the server understands. */
  datatype Op = Gt | Gte | Lt | Lte | Eq | Neq | In | NotIn {
    function Name(): string {
      match this
      case Gt => "gt"
      case Gte => "gte"
      case Lt => "lt"
      case Lte => "lte"
      case Eq => "eq"
      case Neq => "neq"
      case In => "in"
      case NotIn => "notin"
    }
  }

  /** `op_names`: the spellings accepted for each operator. */
  const OpNames: map<string, Op> := map[
    ">=" := Gte, ">" := Gt, "gt" := Gt, "gte" := Gte,
    "<=" := Lte, "<" := Lt, "lt" := Lt, "lte" := Lte,
    "!=" := Neq, "==" := Eq, "=" := Eq, "eq" := Eq,
    "neq" := Neq, "noteq" := Neq, "not eq" := Neq,
    "notin" := NotIn, "not in" := NotIn, "nin" := NotIn, "in" := In
  ]

  /** The operator a compiled key stands for: the inverse of `Name`. */
  function OpFromName(k: string): (o: Option<Op>)
    ensures o.Some? ==> o.value.Name() == k
  {
    if k == "gt" then Some(Gt) else if k == "gte" then Some(Gte)
    else if k == "lt" then Some(Lt) else if k == "lte" then Some(Lte)
    else if k == "eq" then Some(Eq) else if k == "neq" then Some(Neq)
    else if k == "in" then Some(In) else if k == "notin" then Some(NotIn)
    else None
  }

  lemma OpNameRoundTrip(o: Op)
    ensures OpFromName(o.Name()) == Some(o)
  {
  }

  /** The keys an operator map can hold once compiled. */
  predicate IsOpName(k: string) {
    OpFromName(k).Some?
  }

  /** Operator map of one field (`{"gte": 0.98}`). */
  type OpMap = Dict<string, Json>

  /** The compiled filter: field name to operator map, in insertion order. */
  type Filter = Dict<string, OpMap>

  /** A query as the command line hands it over: absent, one string, or a list of tokens. */
  datatype QueryArg = NoQuery | QueryText(text: string) | QueryTokens(tokens: seq<string>)

  const UnconsumedMsg := "Unconsumed text. Did you forget to quote your query?"
  const UnknownOpMsg := "Unknown operator. Did you forget to quote your query?"
  const BlankValueMsg := "Value cannot be blank. Did you forget to quote your query?"
  const BlankFieldMsg := "Field cannot be blank. Did you forget to quote your query?"
  const WildcardMsg := "Wildcard only makes sense with equals."

  /** The characters `value.strip(",[]")` removes. */
  const ListPunct: CharClass := Chars({',', '[', ']'})

  /** `?`, `*` and `any` ask for no constraint on the field. */
  predicate IsWildcard(j: Json) {
    j.JStr? && (j.s == "?" || j.s == "*" || j.s == "any")
  }

  /** The field a clause names after alias resolution. */
  function Canonical(f: string, alias: map<string, string>): string {
    if f in alias then alias[f] else f
  }

  /** A `driver_version` value with a `.` is encoded by `numeric_version` (`None` when it does not parse). */
  function RawValue(field: string, value: string): (j: Json)
    ensures field != "driver_version" || '.' !in value ==> j == JStr(value)
  {
    if field == "driver_version" && '.' in value then
      match Helpers.NumericVersion(value)
      case Some(n) => JInt(n)
      case None => JNull
    else JStr(value)
  }

  /** `[x.strip() for x in value.split(",") if x.strip()]`. */
  function ListItems(parts: seq<string>): (items: seq<string>)
    ensures |items| <= |parts|
    ensures forall i :: 0 <= i < |items| ==> |items[i]| > 0
  {
    if |parts| == 0 then []
    else
      var x := Strip(parts[0], Whitespace);
      (if |x| > 0 then [x] else []) + ListItems(parts[1..])
  }

  /** For `in`/`notin` the value becomes a list; `.split` on a non-string raises AttributeError. */
  function ListValue(j: Json): (r: Result<Json, Exc>)
    ensures j.JStr? <==> r.Ok?
    ensures r.Ok? ==> r.value.JList? && forall i :: 0 <= i < |r.value.items| ==> r.value.items[i].JStr?
  {
    if j.JStr? then Ok(JList(StrList(ListItems(Split(j.s, ',')))))
    else Err(AttributeError("object has no attribute 'split'"))
  }

  /** Every `_` becomes a space, then surrounding `"` are stripped. */
  function CleanText(s: string): (r: string)
    ensures '_' !in r
    ensures |r| == 0 || (r[0] != '"' && r[|r| - 1] != '"')
    ensures |r| <= |s|
  {
    var t := ReplaceChar(s, '_', ' ');
    StripEnds(t, Chars({'"'}));
    StripKeepsChars(t, Chars({'"'}));
    Strip(t, Chars({'"'}))
  }

  /** `CleanText` on a string or on every element of a list; other values are left alone. */
  function Clean(j: Json): (r: Json)
    ensures j.JStr? ==> r == JStr(CleanText(j.s))
    ensures j.JList? ==> r.JList? && |r.items| == |j.items|
    ensures !j.JStr? && !j.JList? ==> r == j
  {
    match j
    case JStr(s) => JStr(CleanText(s))
    case JList(xs) => JList(seq(|xs|, i requires 0 <= i < |xs| => if xs[i].JStr? then JStr(CleanText(xs[i].s)) else xs[i]))
    case _ => j
  }

  /** `float(value)` for the values that can reach it here. */
  function ToFloat(j: Json): Result<real, Exc> {
    match j
    case JStr(s) =>
      (match ParseFloat(s)
       case Some(x) => Ok(x)
       case None => Err(ValueError("could not convert string to float")))
    case JInt(n) => Ok(n as real)
    case JBool(b) => Ok(if b then 1.0 else 0.0)
    case JReal(x) => Ok(x)
    case _ => Err(TypeError("float() argument must be a string or a real number"))
  }

  /** `true`/`True`, `false`/`False` and `None`/`null` become constants; every other value is kept as is. */
  function Literal(j: Json): (r: Json)
    ensures j == JStr("true") || j == JStr("True") ==> r == JBool(true)
    ensures j == JStr("false") || j == JStr("False") ==> r == JBool(false)
    ensures j == JStr("None") || j == JStr("null") ==> r == JNull
    ensures !IsLiteralText(j) ==> r == j
  {
    if j == JStr("true") || j == JStr("True") then JBool(true)
    else if j == JStr("false") || j == JStr("False") then JBool(false)
    else if j == JStr("None") || j == JStr("null") then JNull
    else j
  }

  /** The six spellings that `Literal` turns into a constant. */
  predicate IsLiteralText(j: Json) {
    j.JStr? && j.s in {"true", "True", "false", "False", "None", "null"}
  }

  /** `float(value) * multiplier`, kept as a named product so that proofs can refer to it as a term. */
  function Scaled(x: real, factor: real): real {
    x * factor
  }

  /** The stored value: scaled by the field's unit multiplier, or a literal coercion. */
  function StoredValue(field: string, j: Json, mult: map<string, real>): Result<Json, Exc> {
    if field in mult then
      match ToFloat(j)
      case Ok(x) => Ok(JReal(Scaled(x, mult[field])))
      case Err(e) => Err(e)
    else Ok(Literal(j))
  }

  /** `offers_alias`: legacy field names and the field they stand for. */
  const OffersAlias: map<string, string> := map[
    "cuda_vers" := "cuda_max_good",
    "display_active" := "gpu_display_active",
    "dlperf_usd" := "dlperf_per_dphtotal",
    "dph" := "dph_total",
    "flops_usd" := "flops_per_dphtotal"
  ]

  /** `offers_mult`: RAM is entered in GB and sent in MB, durations in days and sent in seconds. */
  const OffersMult: map<string, real> := map[
    "cpu_ram" := 1000.0,
    "gpu_ram" := 1000.0,
    "gpu_total_ram" := 1000.0,
    "duration" := 86400.0
  ]

  /** The operator a clause names, if the table knows it. */
  function ClauseOp(c: Clause): Option<Op> {
    var opText := Strip(c.op, Whitespace);
    if opText in OpNames then Some(OpNames[opText]) else None
  }

  /**
   * The clause's value after the `,[]` strip, the driver-version encoding
   * and, for `in`/`notin`, the split into a list.
   */
  function ClauseValue(c: Clause, op: Op, alias: map<string, string>): Result<Json, Exc> {
    var raw := RawValue(Canonical(c.field, alias), Strip(c.value, ListPunct));
    if op == In || op == NotIn then ListValue(raw) else Ok(raw)
  }

  /**
   * One clause folded into the filter. An aliased field's own entry is
   * popped and the clause's operators land under the canonical field.
   */
  function Step(res: Filter, c: Clause, alias: map<string, string>, mult: map<string, real>): (r: Result<Filter, Exc>)
    ensures ClauseOp(c).None? ==> r == Err(ValueError(UnknownOpMsg))
    ensures (ClauseOp(c).Some? && ClauseValue(c, ClauseOp(c).value, alias).Ok?
             && !Truthy(ClauseValue(c, ClauseOp(c).value, alias).value)) ==> r == Err(ValueError(BlankValueMsg))
    ensures (ClauseOp(c).Some? && ClauseValue(c, ClauseOp(c).value, alias).Ok?
             && Truthy(ClauseValue(c, ClauseOp(c).value, alias).value) && Canonical(c.field, alias) == "")
            ==> r == Err(ValueError(BlankFieldMsg))
    ensures (ClauseOp(c).Some? && ClauseValue(c, ClauseOp(c).value, alias).Ok?
             && Truthy(ClauseValue(c, ClauseOp(c).value, alias).value) && Canonical(c.field, alias) != ""
             && IsWildcard(ClauseValue(c, ClauseOp(c).value, alias).value) && ClauseOp(c) != Some(Eq))
            ==> r == Err(ValueError(WildcardMsg))
    ensures r.Ok? ==> ClauseOp(c).Some? && ClauseValue(c, ClauseOp(c).value, alias).Ok?
    ensures r.Ok? ==> Truthy(ClauseValue(c, ClauseOp(c).value, alias).value)
    ensures r.Ok? ==> forall k :: k != c.field && k != Canonical(c.field, alias) ==> Get(r.value, k) == Get(res, k)
    ensures r.Ok? && c.field in alias && alias[c.field] != c.field ==> Get(r.value, c.field).None?
    ensures r.Ok? && IsWildcard(ClauseValue(c, ClauseOp(c).value, alias).value) ==>
              ClauseOp(c) == Some(Eq) && Get(r.value, Canonical(c.field, alias)).None?
    ensures r.Ok? && !IsWildcard(ClauseValue(c, ClauseOp(c).value, alias).value) ==>
              HasKey(r.value, Canonical(c.field, alias))
  {
    match ClauseOp(c)
    case None => Err(ValueError(UnknownOpMsg))
    case Some(op) =>
      match ClauseValue(c, op, alias)
      case Err(e) => Err(e)
      case Ok(value) => Apply(res, c.field, c.field in alias, Canonical(c.field, alias), op, value, mult)
  }

  /**
   * `v = res.setdefault(f, {})`, then `res.pop(f)` when `f` is an alias:
   * the filter the clause is applied to.
   */
  function Prepared(res: Filter, f: string, aliased: bool): (r: Filter)
    ensures aliased ==> Get(r, f).None?
    ensures !aliased ==> HasKey(r, f)
    ensures forall k :: k != f ==> Get(r, k) == Get(res, k)
  {
    var res1 := if HasKey(res, f) then res else Set(res, f, []);
    if aliased then Remove(res1, f) else res1
  }

  /** The checks and the write of one clause whose operator and value are known. */
  function Apply(res: Filter, f: string, aliased: bool, field: string, op: Op, value: Json, mult: map<string, real>): (r: Result<Filter, Exc>)
    requires !aliased ==> field == f
    ensures r.Ok? ==> Truthy(value) && field != ""
    ensures r.Ok? ==> forall k :: k != f && k != field ==> Get(r.value, k) == Get(res, k)
    ensures r.Ok? && aliased && field != f ==> Get(r.value, f).None?
    ensures r.Ok? && IsWildcard(value) ==> op == Eq && Get(r.value, field).None?
    ensures r.Ok? && !IsWildcard(value) ==> HasKey(r.value, field)
    ensures !Truthy(value) ==> r == Err(ValueError(BlankValueMsg))
    ensures Truthy(value) && field == "" ==> r == Err(ValueError(BlankFieldMsg))
    ensures Truthy(value) && field != "" && IsWildcard(value) && op != Eq ==> r == Err(ValueError(WildcardMsg))
  {
    var v := Get(res, f).GetOr([]);
    var res2 := Prepared(res, f, aliased);
    if !Truthy(value) then Err(ValueError(BlankValueMsg))
    else if field == "" then Err(ValueError(BlankFieldMsg))
    else if IsWildcard(value) then
      if op != Eq then Err(ValueError(WildcardMsg)) else Ok(Remove(res2, field))
    else
      match StoredValue(field, Clean(value), mult)
      case Err(e) => Err(e)
      case Ok(stored) => Ok(Store(res2, f, field, op, stored, v))
  }

  /**
   * Writing `op -> stored` into the operator map `v` the clause started
   * from: in place under the field itself, or merged into the canonical
   * field's map (which is appended when absent).
   */
  function Store(res: Filter, f: string, field: string, op: Op, stored: Json, v: OpMap): (r: Filter)
    ensures HasKey(r, field)
    ensures forall k :: k != field ==> Get(r, k) == Get(res, k)
  {
    var v' := Set(v, op.Name(), stored);
    if field == f then Set(res, field, v')
    else
      match Get(res, field)
      case None => Set(res, field, v')
      case Some(existing) => Set(res, field, Update(existing, v'))
  }

  /** The clauses folded left to right; the first error stops the fold. */
  function Fold(res: Filter, cs: seq<Clause>, alias: map<string, string>, mult: map<string, real>): Result<Filter, Exc>
    decreases |cs|
  {
    if |cs| == 0 then Ok(res)
    else
      match Step(res, cs[0], alias, mult)
      case Err(e) => Err(e)
      case Ok(res') => Fold(res', cs[1..], alias, mult)
  }

  /** The text that is scanned: tokens joined with single spaces, then stripped. */
  function QueryString(q: QueryArg): string
    requires !q.NoQuery?
  {
    var s := if q.QueryTokens? then Join(q.tokens, " ") else q.text;
    Strip(s, Whitespace)
  }

  /** `parse_query(query, res, fields, alias, mult)`. */
  function ParseQuery(q: QueryArg, base: Filter, alias: map<string, string>, mult: map<string, real>): (r: Result<Filter, Exc>)
    ensures q.NoQuery? ==> r == Ok(base)
    ensures !q.NoQuery? && !Covers(QueryString(q)) ==> r == Err(ValueError(UnconsumedMsg))
    ensures !q.NoQuery? && Covers(QueryString(q)) ==> r == Fold(base, Findall(QueryString(q)), alias, mult)
  {
    if q.NoQuery? then Ok(base)
    else
      var t := QueryString(q);
      ReconstructsIffCovers(t);
      var cs := Findall(t);
      if Joined(cs) != t then Err(ValueError(UnconsumedMsg))
      else Fold(base, cs, alias, mult)
  }

  /** The value a filter holds for one field and operator. */
  function Lookup(flt: Filter, field: string, opName: string): Option<Json> {
    match Get(flt, field)
    case None => None
    case Some(ops) => Get(ops, opName)
  }

  /**
   * What every compiled filter satisfies: distinct fields, and per field a
   * non-empty operator map with distinct keys drawn from the operator names.
   */
  predicate GoodFilter(flt: Filter) {
    && UniqueKeys(flt)
    && (forall p :: p in flt ==> GoodOps(p.1))
  }

  predicate GoodOps(ops: OpMap) {
    && |ops| > 0
    && UniqueKeys(ops)
    && (forall q :: q in ops ==> IsOpName(q.0))
  }

  lemma SetOpGood(v: OpMap, op: Op, x: Json)
    requires UniqueKeys(v) && forall q :: q in v ==> IsOpName(q.0)
    ensures GoodOps(Set(v, op.Name(), x))
  {
    SetUnique(v, op.Name(), x);
    SetItems(v, op.Name(), x);
    OpNameRoundTrip(op);
    assert HasKey(Set(v, op.Name(), x), op.Name());
  }

  lemma MergeGood(existing: OpMap, v': OpMap, k: string)
    requires GoodOps(existing) && GoodOps(v')
    ensures GoodOps(Update(existing, v'))
  {
    UpdateUnique(existing, v');
    UpdateItems(existing, v');
    UpdateGet(existing, v', v'[0].0);
    assert HasKey(v', v'[0].0);
  }

  lemma SetGood(flt: Filter, field: string, ops: OpMap)
    requires GoodFilter(flt) && GoodOps(ops)
    ensures GoodFilter(Set(flt, field, ops))
  {
    SetUnique(flt, field, ops);
    SetItems(flt, field, ops);
  }

  lemma RemoveGood(flt: Filter, field: string)
    requires GoodFilter(flt)
    ensures GoodFilter(Remove(flt, field))
  {
    RemoveUnique(flt, field);
    RemoveItems(flt, field);
  }

  lemma PreparedGood(res: Filter, f: string, aliased: bool)
    requires GoodFilter(res)
    ensures UniqueKeys(Prepared(res, f, aliased))
    ensures forall p :: p in Prepared(res, f, aliased) ==> p in res || p == (f, [])
  {
    if !HasKey(res, f) {
      SetUnique(res, f, []);
      SetItems(res, f, []);
    }
    var res1 := if HasKey(res, f) then res else Set(res, f, []);
    if aliased {
      RemoveUnique(res1, f);
      RemoveItems(res1, f);
    }
  }

  /** Storing a clause keeps a filter good. */
  lemma StoreGood(res: Filter, f: string, aliased: bool, field: string, op: Op, stored: Json)
    requires GoodFilter(res) && (!aliased ==> field == f)
    ensures GoodFilter(Store(Prepared(res, f, aliased), f, field, op, stored, Get(res, f).GetOr([])))
  {
    var v := Get(res, f).GetOr([]);
    assert UniqueKeys(v) && forall q :: q in v ==> IsOpName(q.0) by {
      if HasKey(res, f) { assert (f, v) in res; }
    }
    PreparedGood(res, f, aliased);
    SetOpGood(v, op, stored);
    var v' := Set(v, op.Name(), stored);
    if field == f {
      StoreOwnField(Prepared(res, f, aliased), field, v');
    } else {
      StoreOtherField(res, Prepared(res, f, aliased), f, field, v');
    }
  }

  /** Writing a good operator map over the field's placeholder leaves a good filter. */
  lemma StoreOwnField(res2: Filter, field: string, v': OpMap)
    requires UniqueKeys(res2) && GoodOps(v')
    requires forall p :: p in res2 ==> GoodOps(p.1) || p == (field, [])
    ensures GoodFilter(Set(res2, field, v'))
  {
    SetUnique(res2, field, v');
    SetItems(res2, field, v');
    forall p | p in Set(res2, field, v') ensures GoodOps(p.1) {
      UniqueGet(Set(res2, field, v'), p.0, p.1);
      if p.0 != field {
        assert p in res2;
      }
    }
  }

  /** Writing an aliased field, merged into what it already holds, leaves a good filter. */
  lemma StoreOtherField(res: Filter, res2: Filter, f: string, field: string, v': OpMap)
    requires GoodFilter(res) && GoodOps(v') && field != f
    requires UniqueKeys(res2) && Get(res2, f).None?
    requires forall p :: p in res2 ==> p in res || p == (f, [])
    ensures GoodFilter(match Get(res2, field)
                       case None => Set(res2, field, v')
                       case Some(existing) => Set(res2, field, Update(existing, v')))
  {
    assert GoodFilter(res2) by {
      forall p | p in res2 ensures GoodOps(p.1) {
        assert p.0 in Keys(res2);
      }
    }
    match Get(res2, field)
    case None => SetGood(res2, field, v');
    case Some(existing) =>
      assert (field, existing) in res2;
      MergeGood(existing, v', "");
      SetGood(res2, field, Update(existing, v'));
  }

  /** A clause that compiles keeps the filter good. */
  lemma StepGood(res: Filter, c: Clause, alias: map<string, string>, mult: map<string, real>)
    requires GoodFilter(res) && Step(res, c, alias, mult).Ok?
    ensures GoodFilter(Step(res, c, alias, mult).value)
  {
    var f := c.field;
    var op := ClauseOp(c).value;
    var value := ClauseValue(c, op, alias).value;
    var aliased := f in alias;
    var field := Canonical(f, alias);
    if IsWildcard(value) {
      var res2 := Prepared(res, f, aliased);
      PreparedGood(res, f, aliased);
      RemoveUnique(res2, field);
      RemoveItems(res2, field);
      forall p | p in Remove(res2, field) ensures GoodOps(p.1) {
        assert p.0 in Keys(Remove(res2, field));
      }
    } else {
      var stored := StoredValue(field, Clean(value), mult).value;
      StoreGood(res, f, aliased, field, op, stored);
    }
  }

  /** Compiling any number of clauses keeps the filter good. */
  lemma {:induction false} FoldGood(res: Filter, cs: seq<Clause>, alias: map<string, string>, mult: map<string, real>)
    requires GoodFilter(res) && Fold(res, cs, alias, mult).Ok?
    ensures GoodFilter(Fold(res, cs, alias, mult).value)
    decreases |cs|
  {
    if |cs| > 0 {
      StepGood(res, cs[0], alias, mult);
      FoldGood(Step(res, cs[0], alias, mult).value, cs[1..], alias, mult);
    }
  }

  /** A field no clause names, as written or after aliasing, keeps its base entry. */
  lemma {:induction false} FoldOtherFields(res: Filter, cs: seq<Clause>, alias: map<string, string>, mult: map<string, real>, k: string)
    requires Fold(res, cs, alias, mult).Ok?
    requires forall c :: c in cs ==> c.field != k && Canonical(c.field, alias) != k
    ensures Get(Fold(res, cs, alias, mult).value, k) == Get(res, k)
    decreases |cs|
  {
    if |cs| > 0 {
      var s := FoldFirst(res, cs, alias, mult);
      StepKeepsOther(res, cs[0], alias, mult, k);
      assert forall c :: c in cs[1..] ==> c in cs;
      FoldOtherFields(s, cs[1..], alias, mult, k);
    }
  }

  /** The first clause of a successful fold compiles, and the rest continue from its result. */
  lemma FoldFirst(res: Filter, cs: seq<Clause>, alias: map<string, string>, mult: map<string, real>) returns (s: Filter)
    requires |cs| > 0 && Fold(res, cs, alias, mult).Ok?
    ensures Step(res, cs[0], alias, mult) == Ok(s)
    ensures Fold(res, cs, alias, mult) == Fold(s, cs[1..], alias, mult)
  {
    s := Step(res, cs[0], alias, mult).value;
  }

  lemma StepKeepsOther(res: Filter, c: Clause, alias: map<string, string>, mult: map<string, real>, k: string)
    requires Step(res, c, alias, mult).Ok? && k != c.field && k != Canonical(c.field, alias)
    ensures Get(Step(res, c, alias, mult).value, k) == Get(res, k)
  {
  }

  /**
   * What one stored clause means for lookups: the clause's operator now
   * holds the stored value; every other operator of the canonical field
   * keeps its value, where an aliased field's own operators win over the
   * canonical field's.
   */
  lemma StoreLookup(res: Filter, f: string, aliased: bool, field: string, op: Op, stored: Json, p: string)
    requires GoodFilter(res) && (!aliased ==> field == f)
    ensures Lookup(Store(Prepared(res, f, aliased), f, field, op, stored, Get(res, f).GetOr([])), field, p) ==
      if p == op.Name() then Some(stored)
      else if aliased && field != f && Lookup(res, f, p).Some? then Lookup(res, f, p)
      else Lookup(res, field, p)
  {
    var v := Get(res, f).GetOr([]);
    assert UniqueKeys(v) by {
      if HasKey(res, f) { assert (f, v) in res; }
    }
    assert Lookup(res, f, p) == Get(v, p);
    var v' := Set(v, op.Name(), stored);
    SetUnique(v, op.Name(), stored);
    var res2 := Prepared(res, f, aliased);
    if field != f {
      assert Get(res2, field) == Get(res, field);
      MergedLookup(res2, field, v', p);
    }
  }

  /** An aliased field's operators, merged into what the canonical field holds: the alias's win. */
  lemma MergedLookup(res2: Filter, field: string, v': OpMap, p: string)
    requires UniqueKeys(v')
    ensures var r := match Get(res2, field)
                     case None => Set(res2, field, v')
                     case Some(existing) => Set(res2, field, Update(existing, v'));
            Lookup(r, field, p) == if HasKey(v', p) then Get(v', p) else Lookup(res2, field, p)
  {
    match Get(res2, field)
    case None =>
    case Some(existing) =>
      UpdateGet(existing, v', p);
  }

  /**
   * Step in terms of lookups, for a clause that stores a value: the last
   * clause on an operator wins and the field's other operators are kept;
   * an alias's operators are merged under the canonical field.
   */
  lemma StepLookup(res: Filter, c: Clause, alias: map<string, string>, mult: map<string, real>, p: string)
    requires GoodFilter(res) && Step(res, c, alias, mult).Ok?
    requires !IsWildcard(ClauseValue(c, ClauseOp(c).value, alias).value)
    ensures var op := ClauseOp(c).value;
            var field := Canonical(c.field, alias);
            var value := ClauseValue(c, op, alias).value;
            Lookup(Step(res, c, alias, mult).value, field, p) ==
              if p == op.Name() then Some(StoredValue(field, Clean(value), mult).value)
              else if field != c.field && Lookup(res, c.field, p).Some? then Lookup(res, c.field, p)
              else Lookup(res, field, p)
  {
    var op := ClauseOp(c).value;
    var field := Canonical(c.field, alias);
    var value := ClauseValue(c, op, alias).value;
    StoreLookup(res, c.field, c.field in alias, field, op, StoredValue(field, Clean(value), mult).value, p);
  }

  /** `"[" + j + "]".strip(",[]")` is `j` when neither end of `j` is list punctuation. */
  lemma StripBrackets(j: string)
    requires |j| > 0 && !InClass(j[0], ListPunct) && !InClass(j[|j| - 1], ListPunct)
    ensures Strip("[" + j + "]", ListPunct) == j
  {
    var s := "[" + j + "]";
    assert s[1..] == j + "]";
    assert LStrip(s, ListPunct) == LStrip(j + "]", ListPunct) == j + "]";
    assert (j + "]")[..|j|] == j;
    assert RStrip(j + "]", ListPunct) == RStrip(j, ListPunct) == j;
  }

  /** Items that are already trimmed and non-empty pass through unchanged. */
  lemma {:induction false} ListItemsClean(xs: seq<string>)
    requires forall i :: 0 <= i < |xs| ==> |xs[i]| > 0 && Strip(xs[i], Whitespace) == xs[i]
    ensures ListItems(xs) == xs
  {
    if |xs| > 0 {
      ListItemsClean(xs[1..]);
      assert xs == [xs[0]] + xs[1..];
    }
  }

  /** A list entry as a user writes it between commas: trimmed, non-empty, without a comma. */
  predicate TrimmedItem(x: string) {
    |x| > 0 && Strip(x, Whitespace) == x && ',' !in x
  }

  /** A plain list item: a trimmed entry without `[` and `]` either. */
  predicate PlainItem(x: string) {
    && TrimmedItem(x)
    && (forall i :: 0 <= i < |x| ==> !InClass(x[i], ListPunct))
  }

  /** `field in [a,b,c]` compiles to the list of its items, in order. */
  lemma InListRoundTrip(field: string, op: string, xs: seq<string>, alias: map<string, string>)
    requires Canonical(field, alias) != "driver_version"
    requires |xs| >= 1 && forall i :: 0 <= i < |xs| ==> PlainItem(xs[i])
    ensures ClauseValue(Clause(field, op, "", "[" + Join(xs, ",") + "]", ""), In, alias) == Ok(JList(StrList(xs)))
  {
    var j := Join(xs, ",");
    BracketedJoin(xs);
    ItemsOfJoin(xs);
    var raw := RawValue(Canonical(field, alias), Strip("[" + j + "]", ListPunct));
    assert raw == JStr(j);
  }

  lemma BracketedJoin(xs: seq<string>)
    requires |xs| >= 1 && forall i :: 0 <= i < |xs| ==> PlainItem(xs[i])
    ensures Strip("[" + Join(xs, ",") + "]", ListPunct) == Join(xs, ",")
  {
    JoinEnds(xs);
    StripBrackets(Join(xs, ","));
  }

  /** Splitting a comma-join of trimmed entries and dropping blanks gives the entries back. */
  lemma ItemsOfJoin(xs: seq<string>)
    requires |xs| >= 1 && forall i :: 0 <= i < |xs| ==> TrimmedItem(xs[i])
    ensures ListItems(Split(Join(xs, ","), ',')) == xs
  {
    SplitJoin(xs, ',');
    ListItemsClean(xs);
  }

  /** The join of plain items starts and ends with a character that is not list punctuation. */
  lemma {:induction false} JoinEnds(xs: seq<string>)
    requires |xs| >= 1 && forall i :: 0 <= i < |xs| ==> PlainItem(xs[i])
    ensures var j := Join(xs, ",");
            |j| > 0 && !InClass(j[0], ListPunct) && !InClass(j[|j| - 1], ListPunct)
  {
    assert PlainItem(xs[0]);
    if |xs| > 1 {
      JoinEnds(xs[1..]);
      var j := Join(xs, ",");
      assert j == xs[0] + "," + Join(xs[1..], ",");
      assert j[0] == xs[0][0];
    }
  }

  /** A compiled query is a good filter whenever the base filter is. */
  lemma ParseQueryGood(q: QueryArg, base: Filter, alias: map<string, string>, mult: map<string, real>)
    requires GoodFilter(base) && ParseQuery(q, base, alias, mult).Ok?
    ensures GoodFilter(ParseQuery(q, base, alias, mult).value)
  {
    if !q.NoQuery? {
      FoldGood(base, Findall(QueryString(q)), alias, mult);
    }
  }

  /** Outside the multiplier fields, numeric-looking text is stored as text, not as a number. */
  lemma DigitsStayText(field: string, s: string, mult: map<string, real>)
    requires field !in mult && IsDigitString(s)
    ensures StoredValue(field, JStr(s), mult) == Ok(JStr(s))
  {
    assert s[0] != "true"[0] && s[0] != "True"[0] && s[0] != "false"[0];
    assert s[0] != "False"[0] && s[0] != "None"[0] && s[0] != "null"[0];
  }

  /**
   * A multiplier field stores the number the text parses to, scaled by the
   * unit factor (`gpu_ram>=16` sends 16000); text that is no number fails
   * with ValueError rather than being stored.
   */
  lemma MultiplierScales(field: string, s: string, mult: map<string, real>)
    requires field in mult && '_' !in s && '"' !in s
    ensures var r := StoredValue(field, Clean(JStr(s)), mult);
            match ParseFloat(s)
            case Some(x) => r == Ok(JReal(Scaled(x, mult[field])))
            case None => r.Err? && r.error.ValueError?
  {
    CleanPlain(s);
  }

  /**
   * Outside the multiplier fields, a value spelled `true`/`True`,
   * `false`/`False` or `None`/`null` is stored as the constant, not as text.
   */
  lemma LiteralsCoerced(field: string, t: string, mult: map<string, real>)
    requires field !in mult
    ensures t == "true" || t == "True" ==> StoredValue(field, Clean(JStr(t)), mult) == Ok(JBool(true))
    ensures t == "false" || t == "False" ==> StoredValue(field, Clean(JStr(t)), mult) == Ok(JBool(false))
    ensures t == "None" || t == "null" ==> StoredValue(field, Clean(JStr(t)), mult) == Ok(JNull)
  {
    if IsLiteralText(JStr(t)) {
      LiteralTextPlain(t);
      CleanPlain(t);
    }
  }

  /** The literal spellings hold neither `_` nor `"`. */
  lemma LiteralTextPlain(t: string)
    requires IsLiteralText(JStr(t))
    ensures '_' !in t && '"' !in t
  {
    assert t in {"true", "True", "false", "False", "None", "null"};
    if t == "true" || t == "True" {
      assert t[1..] == "rue";
    } else if t == "false" || t == "False" {
      assert t[1..] == "alse";
    } else if t == "None" {
      assert t[1..] == "one";
    } else {
      assert t[1..] == "ull";
    }
  }

  /**
   * Outside the multiplier fields, unquoted text is stored with every `_`
   * read as a space (`gpu_name=RTX_3090` asks for "RTX 3090"), unless the
   * result is one of the literal spellings.
   */
  lemma UnderscoresBecomeSpaces(field: string, t: string, mult: map<string, real>)
    requires field !in mult && '"' !in t
    requires !IsLiteralText(JStr(ReplaceChar(t, '_', ' ')))
    ensures StoredValue(field, Clean(JStr(t)), mult) == Ok(JStr(ReplaceChar(t, '_', ' ')))
  {
    var u := ReplaceChar(t, '_', ' ');
    assert '"' !in u;
    StripUnchanged(u, Chars({'"'}));
  }

  /** Text without `_` and `"` comes through the clean-up unchanged. */
  lemma CleanPlain(s: string)
    requires '_' !in s && '"' !in s
    ensures CleanText(s) == s
  {
    assert ReplaceChar(s, '_', ' ') == s;
    StripUnchanged(s, Chars({'"'}));
  }

  /** Every word operator the scanner recognises is in the operator table. */
  lemma WordOpsKnown()
    ensures forall i :: 0 <= i < |WordOps| ==> WordOps[i] in OpNames
  {
  }
}

=== FILE: query_lexer.dfy ===
/**
 * The tokenizer of the query language (vast_cli/query/parser.py).
 *
 * The source scans the stripped query with `re.findall` and the pattern
 *   ([a-zA-Z0-9_]+)( *[=><!]+| +(?:[lg]te?|nin|neq|eq|not ?eq|not ?in|in) )?( *)(\[[^\]]+\]|\"[^\"]+\"|[^ ]+)?( *)
 * Every match starts at a word character and can always be completed
 * with empty optional groups, so no backtracking ever undoes a greedy
 * choice: each group takes the longest text it can, in order.
 * `findall` skips, one character at a time, positions where no match
 * starts; the skipped characters are what the source's reconstruction
 * check detects.
 */
module QueryLexer {
  import opened PyStr

  /** `[a-zA-Z0-9_]` */
  predicate IsWordChar(c: char) {
    ('a' <= c <= 'z') || ('A' <= c <= 'Z') || ('0' <= c <= '9') || c == '_'
  }

  /** `[=><!]` */
  predicate IsOpChar(c: char) {
    c == '=' || c == '>' || c == '<' || c == '!'
  }

  /** The character classes repeated by the pattern. */
  datatype RunClass = Word | Space | OpChars | NonSpace

  predicate InRun(c: char, k: RunClass) {
    match k
    case Word => IsWordChar(c)
    case Space => c == ' '
    case OpChars => IsOpChar(c)
    case NonSpace => c != ' '
  }

  /** The longest prefix of `t` drawn from class `k` (a greedy `k*`). */
  function Run(t: string, k: RunClass): (r: string)
    ensures |r| <= |t| && r == t[..|r|]
    ensures forall i :: 0 <= i < |r| ==> InRun(r[i], k)
    ensures |r| == |t| || !InRun(t[|r|], k)
  {
    if |t| > 0 && InRun(t[0], k) then [t[0]] + Run(t[1..], k) else ""
  }

  /** The word operators of the second alternative of group 2, in the order the regex tries them. */
  const WordOps: seq<string> := ["lte", "lt", "gte", "gt", "nin", "neq", "eq", "not eq", "noteq", "not in", "notin", "in"]

  /** The first word operator `w` such that `t` starts with `w` and a space; that text, or "" when none does. */
  function WordOpAt(t: string, ws: seq<string>): (r: string)
    ensures r == "" || (exists i :: 0 <= i < |ws| && r == ws[i] + " ")
    ensures r == "" || StartsWith(t, r)
  {
    if |ws| == 0 then ""
    else if StartsWith(t, ws[0] + " ") then ws[0] + " "
    else WordOpAt(t, ws[1..])
  }

  /** Group 2: ` *[=><!]+` or ` +(word op) `, or nothing. */
  function OpGroup(t: string): (r: string)
    ensures |r| <= |t| && r == t[..|r|]
  {
    var sp := Run(t, Space);
    var rest := t[|sp|..];
    if |rest| > 0 && IsOpChar(rest[0]) then
      var ops := Run(rest, OpChars);
      assert t[..|sp| + |ops|] == sp + ops;
      sp + ops
    else if |sp| > 0 then
      var w := WordOpAt(rest, WordOps);
      if w == "" then "" else
        assert t[..|sp| + |w|] == sp + w;
        sp + w
    else ""
  }

  /** Length of `open [^close]+ close` at the start of `t`, or 0 when it does not match there. */
  function Enclosed(t: string, open: char, close: char): (n: nat)
    ensures n == 0 || (3 <= n <= |t| && t[0] == open && t[n - 1] == close && close !in t[1..n - 1])
  {
    if |t| > 0 && t[0] == open && close in t[1..] then
      var j := IndexOf(t[1..], close);
      if j >= 1 then
        assert t[1..j + 1] == t[1..][..j];
        j + 2
      else 0
    else 0
  }

  /** Group 4: a bracketed list, a double-quoted string, or a run of non-spaces; nothing at the end of the text. */
  function ValueGroup(t: string): (r: string)
    ensures |r| <= |t| && r == t[..|r|]
    ensures |t| > 0 && t[0] != ' ' ==> |r| > 0
    ensures |r| > 0 ==> r[0] == t[0]
  {
    if |t| == 0 then ""
    else if Enclosed(t, '[', ']') > 0 then t[..Enclosed(t, '[', ']')]
    else if Enclosed(t, '"', '"') > 0 then t[..Enclosed(t, '"', '"')]
    else Run(t, NonSpace)
  }

  /** One match of the pattern: the five capture groups. */
  datatype Clause = Clause(field: string, op: string, gap: string, value: string, trail: string)

  /** The text a match consumed: its groups concatenated. */
  function Text(c: Clause): string {
    c.field + c.op + c.gap + c.value + c.trail
  }

  /** Cutting a text after one of its prefixes. */
  lemma PrefixThenRest(t: string, x: string)
    requires |x| <= |t| && x == t[..|x|]
    ensures t == x + t[|x|..]
  {
  }

  lemma ConcatPrefix(t: string, x: string, y: string)
    requires t == x + y
    ensures |x| <= |t| && x == t[..|x|] && y == t[|x|..]
  {
  }

  lemma Regroup(t: string, x: string, r: string, y: string, r': string)
    requires t == x + r && r == y + r'
    ensures t == (x + y) + r'
  {
  }

  /** The match that starts at the first character of `t`. */
  function MatchAt(t: string): (c: Clause)
    requires |t| > 0 && IsWordChar(t[0])
    ensures |c.field| > 0
    ensures |Text(c)| <= |t| && Text(c) == t[..|Text(c)|]
  {
    var field := Run(t, Word);
    var r1 := t[|field|..];
    var op := OpGroup(r1);
    var r2 := r1[|op|..];
    var gap := Run(r2, Space);
    var r3 := r2[|gap|..];
    var value := ValueGroup(r3);
    var r4 := r3[|value|..];
    var trail := Run(r4, Space);
    var r5 := r4[|trail|..];
    PrefixThenRest(t, field);
    PrefixThenRest(r1, op);
    PrefixThenRest(r2, gap);
    PrefixThenRest(r3, value);
    PrefixThenRest(r4, trail);
    Regroup(t, field, r1, op, r2);
    Regroup(t, field + op, r2, gap, r3);
    Regroup(t, field + op + gap, r3, value, r4);
    Regroup(t, field + op + gap + value, r4, trail, r5);
    ConcatPrefix(t, field + op + gap + value + trail, r5);
    Clause(field, op, gap, value, trail)
  }

  /** `re.findall`: matches left to right; positions where no match starts are skipped. */
  function Findall(t: string): seq<Clause>
    decreases |t|
  {
    if |t| == 0 then []
    else if IsWordChar(t[0]) then
      var c := MatchAt(t);
      [c] + Findall(t[|Text(c)|..])
    else Findall(t[1..])
  }

  /** `"".join("".join(x) for x in opts)`. */
  function Joined(cs: seq<Clause>): string {
    if |cs| == 0 then "" else Text(cs[0]) + Joined(cs[1..])
  }

  /** The scan never skips: every match ends where a word character (or the end) follows. */
  predicate Covers(t: string)
    decreases |t|
  {
    |t| == 0 || (IsWordChar(t[0]) && Covers(t[|Text(MatchAt(t))|..]))
  }

  /** What the matches concatenate to is never longer than the text. */
  lemma {:induction false} JoinedNoLonger(t: string)
    ensures |Joined(Findall(t))| <= |t|
    decreases |t|
  {
    if |t| > 0 {
      if IsWordChar(t[0]) {
        JoinedNoLonger(t[|Text(MatchAt(t))|..]);
      } else {
        JoinedNoLonger(t[1..]);
      }
    }
  }

  /** The reconstruction check succeeds exactly when the scan skips nothing. */
  lemma {:induction false} ReconstructsIffCovers(t: string)
    ensures Joined(Findall(t)) == t <==> Covers(t)
    decreases |t|
  {
    if |t| > 0 {
      if IsWordChar(t[0]) {
        var x := Text(MatchAt(t));
        var rest := t[|x|..];
        FindallWord(t);
        ReconstructsIffCovers(rest);
        PrefixCancel(x, Joined(Findall(rest)), rest);
      } else {
        JoinedNoLonger(t[1..]);
      }
    }
  }

  /** At a word character the first match is taken and the scan resumes after it. */
  lemma FindallWord(t: string)
    requires |t| > 0 && IsWordChar(t[0])
    ensures var x := Text(MatchAt(t));
            Joined(Findall(t)) == x + Joined(Findall(t[|x|..])) && t == x + t[|x|..]
            && (Covers(t) <==> Covers(t[|x|..]))
  {
    var c := MatchAt(t);
    assert Findall(t) == [c] + Findall(t[|Text(c)|..]);
    assert ([c] + Findall(t[|Text(c)|..]))[1..] == Findall(t[|Text(c)|..]);
    PrefixThenRest(t, Text(c));
  }

  lemma PrefixCancel(x: string, y: string, z: string)
    ensures x + y == x + z <==> y == z
  {
    if x + y == x + z {
      assert y == (x + y)[|x|..];
      assert z == (x + z)[|x|..];
    }
  }

  /** A query that does not start with a word character always fails the reconstruction check. */
  lemma LeadingNonWordUnconsumed(t: string)
    requires |t| > 0 && !IsWordChar(t[0])
    ensures Joined(Findall(t)) != t
  {
    JoinedNoLonger(t[1..]);
  }

  /** The shape of every group of a match, as the pattern describes it. */
  predicate WellFormed(c: Clause) {
    && |c.field| > 0 && (forall i :: 0 <= i < |c.field| ==> IsWordChar(c.field[i]))
    && (forall i :: 0 <= i < |c.gap| ==> c.gap[i] == ' ')
    && (forall i :: 0 <= i < |c.trail| ==> c.trail[i] == ' ')
    && (c.value == "" || c.value[0] != ' ')
  }

  lemma MatchAtWellFormed(t: string)
    requires |t| > 0 && IsWordChar(t[0])
    ensures WellFormed(MatchAt(t))
  {
    var r1 := t[|Run(t, Word)|..];
    var r2 := r1[|OpGroup(r1)|..];
    var r3 := r2[|Run(r2, Space)|..];
    var c := MatchAt(t);
    assert c.gap == Run(r2, Space) && c.value == ValueGroup(r3);
    assert c.value == "" || c.value[0] == r3[0];
  }

  /** Every match the scan returns is well formed. */
  lemma {:induction false} FindallWellFormed(t: string)
    ensures forall i :: 0 <= i < |Findall(t)| ==> WellFormed(Findall(t)[i])
    decreases |t|
  {
    if |t| > 0 {
      if IsWordChar(t[0]) {
        MatchAtWellFormed(t);
        FindallWellFormed(t[|Text(MatchAt(t))|..]);
      } else {
        FindallWellFormed(t[1..]);
      }
    }
  }
}

=== FILE: regions.dfy ===
/** Region names and country-code lists (`_is_valid_region`, `_parse_region` in vast_cli/helpers.py). */
module Regions {
  import opened Wrappers
  import opened PyStr
  import opened PyDict


  function Bracketed(body: string): (r: string)
    ensures |r| == |body| + 2 && r[0] == '[' && r[|r| - 1] == ']' && r[1..|r| - 1] == body
  {
    "[" + body + "]"
  }

  /** `REGIONS`: region name to the list of its two-letter country codes, as text. */
  const REGIONS: Dict<string, string> := [
    ("North_America", Bracketed("AG, BS, BB, BZ, CA, CR, CU, DM, DO, SV, GD, GT, HT, HN, JM, MX, NI, PA, KN, LC, VC, TT, US")),
    ("South_America", Bracketed("AR, BO, BR, CL, CO, EC, FK, GF, GY, PY, PE, SR, UY, VE")),
    ("Europe", Bracketed("AL, AD, AT, BY, BE, BA, BG, HR, CY, CZ, DK, EE, FI, FR, DE, GR, HU, IS, IE, IT, LV, LI, LT, LU, MT, MD, MC, ME, NL, MK, NO, PL, PT, RO, RU, SM, RS, SK, SI, ES, SE, CH, UA, GB, VA, XK")),
    ("Asia", Bracketed("AF, AM, AZ, BH, BD, BT, BN, KH, CN, GE, IN, ID, IR, IQ, IL, JP, JO, KZ, KW, KG, LA, LB, MY, MV, MN, MM, NP, KP, OM, PK, PH, QA, SA, SG, KR, LK, SY, TW, TJ, TH, TL, TR, TM, AE, UZ, VN, YE, HK, MO")),
    ("Oceania", Bracketed("AS, AU, CK, FJ, PF, GU, KI, MH, FM, NR, NC, NZ, NU, MP, PW, PG, PN, WS, SB, TK, TO, TV, VU, WF")),
    ("Africa", Bracketed("DZ, AO, BJ, BW, BF, BI, CV, CM, CF, TD, KM, CG, CD, CI, DJ, EG, GQ, ER, SZ, ET, GA, GM, GH, GN, GW, KE, LS, LR, LY, MG, MW, ML, MR, MU, MA, MZ, NA, NE, NG, RW, ST, SN, SC, SL, SO, ZA, SS, SD, TZ, TG, TN, UG, ZM, ZW"))
  ]

  /** Every comma-separated entry is two characters once trimmed. */
  predicate AllCodes(parts: seq<string>) {
    forall i :: 0 <= i < |parts| ==> |Strip(parts[i], Whitespace)| == 2
  }

  /** A `[...]` string of two-character codes. */
  predicate IsCodeList(region: string) {
    && |region| >= 2 && region[0] == '[' && region[|region| - 1] == ']'
    && AllCodes(Split(region[1..|region| - 1], ','))
  }

  /** `_is_valid_region`: a region name, or a bracketed list of two-character codes. */
  function IsValidRegion(region: string): (ok: bool)
    ensures ok <==> HasKey(REGIONS, region) || IsCodeList(region)
  {
    BracketsIff(region);
    if HasKey(REGIONS, region) then true
    // a one-character string cannot both start with `[` and end with `]`
    else if StartsWith(region, "[") && EndsWith(region, "]") && |region| >= 2 then
      AllCodes(Split(region[1..|region| - 1], ','))
    else false
  }

  lemma BracketsIff(region: string)
    ensures StartsWith(region, "[") && EndsWith(region, "]") && |region| >= 2
        <==> |region| >= 2 && region[0] == '[' && region[|region| - 1] == ']'
  {
    if |region| >= 2 {
      assert region[..1] == [region[0]];
      assert region[|region| - 1..] == [region[|region| - 1]];
    }
  }

  /** `_parse_region`: a region name becomes its code list; anything else is passed through. */
  function ParseRegion(region: string): (r: string)
    ensures HasKey(REGIONS, region) ==> r == Get(REGIONS, region).value
    ensures !HasKey(REGIONS, region) ==> r == region
  {
    match Get(REGIONS, region)
    case Some(codes) => codes
    case None => region
  }

  /** `[]` is not a valid region: its single entry is empty. */
  lemma EmptyCodeListInvalid()
    ensures !IsValidRegion("[]")
  {
    NamesAreNotLists("[]");
    EmptyListHasNoCodes();
  }

  lemma EmptyListHasNoCodes()
    ensures !IsCodeList("[]")
  {
    assert "[]"[1..1] == "";
    assert Split("", ',') == [""];
    assert Strip("", Whitespace) == "";
    assert |Strip([""][0], Whitespace)| != 2;
  }

  /** No name of `table` starts with `[`. */
  predicate NamesUnbracketed(table: Dict<string, string>) {
    forall i :: 0 <= i < |table| ==> |table[i].0| > 0 && table[i].0[0] != '['
  }

  /** Every value of `table` starts with `[`. */
  predicate ValuesBracketed(table: Dict<string, string>) {
    forall i :: 0 <= i < |table| ==> |table[i].1| > 0 && table[i].1[0] == '['
  }

  lemma RegionsShape()
    ensures NamesUnbracketed(REGIONS) && ValuesBracketed(REGIONS)
  {
  }

  lemma UnbracketedNotKey(table: Dict<string, string>, s: string)
    requires NamesUnbracketed(table) && |s| > 0 && s[0] == '['
    ensures !HasKey(table, s)
  {
    var ks := Keys(table);
    forall i | 0 <= i < |ks| ensures ks[i] != s {
      assert ks[i] == table[i].0;
    }
  }

  lemma BracketedValue(table: Dict<string, string>, k: string)
    requires ValuesBracketed(table) && HasKey(table, k)
    ensures |Get(table, k).value| > 0 && Get(table, k).value[0] == '['
  {
    var v := Get(table, k).value;
    var i :| 0 <= i < |table| && table[i] == (k, v);
  }

  /** No region name starts with `[`, so a bracketed list is never mistaken for a name. */
  lemma NamesAreNotLists(region: string)
    requires |region| > 0 && region[0] == '['
    ensures !HasKey(REGIONS, region)
  {
    RegionsShape();
    UnbracketedNotKey(REGIONS, region);
  }

  /**
   * A bracketed list of comma-separated entries is a valid region exactly
   * when every entry is two characters once trimmed.
   */
  lemma CodeListValidIff(codes: seq<string>)
    requires |codes| >= 1
    requires forall i :: 0 <= i < |codes| ==> ',' !in codes[i]
    ensures IsValidRegion("[" + Join(codes, ",") + "]")
      <==> forall i :: 0 <= i < |codes| ==> |Strip(codes[i], Whitespace)| == 2
  {
    var region := "[" + Join(codes, ",") + "]";
    NamesAreNotLists(region);
    assert region[1..|region| - 1] == Join(codes, ",");
    SplitJoin(codes, ',');
  }

  /** Resolving a region twice changes nothing: the code lists are not region names. */
  lemma ParseRegionIdempotent(region: string)
    ensures ParseRegion(ParseRegion(region)) == ParseRegion(region)
  {
    if HasKey(REGIONS, region) {
      RegionsShape();
      BracketedValue(REGIONS, region);
      UnbracketedNotKey(REGIONS, Get(REGIONS, region).value);
    }
  }
}

=== FILE: registry.dfy ===
/**
 * The command registry (`apwrap` in vast_cli/parser.py): how handler names
 * become `verb object` commands, how aliases and the automatic `help`
 * command are registered, how argument tokens are merged before parsing,
 * how mutually exclusive groups are formed, and how global options are
 * mirrored onto every sub-parser. argparse itself is not modelled: a
 * sub-parser is the record of what was registered on it.
 */
module Registry {
  import opened Wrappers
  import opened PyStr
  import opened PyDict
  import opened PyExc
  import opened Json

  // ----- command names -----

  /**
   * The verb and object of a handler: underscores become dashes and the
   * result is cut at its first `--`; the object is empty when there is none.
   */
  function CommandParts(handler: string): (r: (string, string))
    ensures r.1 != "" ==> ReplaceChar(handler, '_', '-') == r.0 + "--" + r.1
    ensures r.1 == "" ==> r.0 + "--" == ReplaceChar(handler, '_', '-') || r.0 == ReplaceChar(handler, '_', '-')
  {
    var p := Partition(ReplaceChar(handler, '_', '-'), "--");
    (p.0, p.2)
  }

  /** `verb + ' ' + obj`, or the bare verb. */
  function NameOf(verb: string, obj: string): string {
    if obj != "" then verb + " " + obj else verb
  }

  /** A word of a handler name: letters and digits only. */
  predicate Plain(w: string) {
    forall i :: 0 <= i < |w| ==> w[i] != '_' && w[i] != '-'
  }

  /** No `--` starts before position `n` in a plain word followed by `--`. */
  lemma PlainNoDoubleDash(v: string, rest: string)
    requires Plain(v)
    ensures forall j :: 0 <= j < |v| ==> !StartsWith((v + rest)[j..], "--")
  {
    forall j | 0 <= j < |v|
      ensures !StartsWith((v + rest)[j..], "--")
    {
      assert (v + rest)[j..][0] == v[j];
    }
  }

  /**
   * A handler `<verb>__<object>` with a plain verb registers the command
   * `<verb> <object>`, the object's own underscores turned into dashes.
   */
  lemma CommandNameOfHandler(verb: string, obj: string)
    requires Plain(verb) && obj != ""
    ensures CommandParts(verb + "__" + obj) == (verb, ReplaceChar(obj, '_', '-'))
  {
    var o := ReplaceChar(obj, '_', '-');
    var d := ReplaceChar(verb + "__" + obj, '_', '-');
    assert d == verb + ("--" + o);
    PlainNoDoubleDash(verb, "--" + o);
    assert d[|verb|..|verb| + 2] == "--";
    PartitionFound(d, "--", |verb|);
    var p := Partition(d, "--");
    assert p.0 == d[..|verb|] == verb;
    assert p.2 == d[|verb| + 2..] == o;
  }

  /** A handler without a double underscore registers its dashed name as a bare verb. */
  lemma CommandNameOfPlainHandler(handler: string)
    requires forall i :: 0 <= i < |handler| - 1 ==> !(handler[i] == '_' && handler[i + 1] == '_')
    requires forall i :: 0 <= i < |handler| ==> handler[i] != '-'
    ensures CommandParts(handler) == (ReplaceChar(handler, '_', '-'), "")
  {
    var d := ReplaceChar(handler, '_', '-');
    forall k | 0 <= k <= |d| ensures !StartsWith(d[k..], "--") {
      if k + 2 <= |d| {
        assert d[k..][..2] == [d[k], d[k + 1]];
        assert handler[k] != '_' || handler[k + 1] != '_';
      }
    }
    PartitionMissing(d, "--");
  }

  // ----- the registry -----

  /** One `argument(...)` declaration: its flags (or positional name), its `required=` keyword if given, and its mutually exclusive group ("" for none). */
  datatype Argument = Argument(flags: seq<string>, required: Option<bool>, mutexGroup: string)

  /** The shell completer attached to an argument. */
  datatype Completer = NoCompleter | MachineCompleter | InstanceCompleter | SshKeyCompleter

  /** What is known of an argument's default on a parser. */
  datatype Default = Suppress | Given(value: Json)

  /** A global option: its flags and default. */
  datatype GlobalOption = GlobalOption(flags: seq<string>, default: Default)

  /** An argument as added to a sub-parser: directly (`group` is "") or through its mutually exclusive group. */
  datatype Placed = Placed(arg: Argument, group: string, completer: Completer)

  /** One registered command. */
  datatype SubParser = SubParser(
    name: string, aliases: seq<string>, aliasesHidden: bool, help: Option<string>, handler: string,
    groups: Dict<string, bool>, placed: seq<Placed>,
    hasGlobalGroup: bool, globals: seq<GlobalOption>)

  /** The state of an `apwrap`: the verb and object sets, the sub-parsers in registration order, whether `help` was added, and the top-level options. */
  datatype Registry = Registry(verbs: set<string>, objs: set<string>, subs: seq<SubParser>, addedHelp: bool, top: seq<GlobalOption>)

  const Empty := Registry({}, {}, [], false, [])

  /**
   * `get_name`: a verb with an object joins `verbs` and the object joins
   * `objs`; a verb on its own joins `objs` only.
   */
  function GetName(reg: Registry, verb: string, obj: string): (r: (Registry, string))
    ensures r.1 == NameOf(verb, obj)
    ensures r.0.verbs == if obj != "" then reg.verbs + {verb} else reg.verbs
    ensures r.0.objs == reg.objs + {if obj != "" then obj else verb}
    ensures r.0.(verbs := reg.verbs, objs := reg.objs) == reg
  {
    if obj != "" then (reg.(verbs := reg.verbs + {verb}, objs := reg.objs + {obj}), verb + " " + obj)
    else (reg.(objs := reg.objs + {verb}), verb)
  }

  /** The alias names: each alias cut at its first space into verb and object, passed through `get_name` in order. */
  function AliasNames(reg: Registry, aliases: seq<string>): (r: (Registry, seq<string>))
    ensures |r.1| == |aliases|
    ensures r.0.(verbs := reg.verbs, objs := reg.objs) == reg
    ensures reg.verbs <= r.0.verbs && reg.objs <= r.0.objs
    decreases |aliases|
  {
    if |aliases| == 0 then (reg, [])
    else
      var p := Partition(aliases[0], " ");
      var (reg1, name) := GetName(reg, p.0, p.2);
      var (reg2, names) := AliasNames(reg1, aliases[1..]);
      (reg2, [name] + names)
  }

  /** An alias cut at its first space never leaves a space in its verb. */
  lemma {:induction false} AliasVerbsSpaceless(reg: Registry, aliases: seq<string>)
    ensures forall v :: v in AliasNames(reg, aliases).0.verbs && v !in reg.verbs ==> ' ' !in v
    decreases |aliases|
  {
    if |aliases| > 0 {
      var p := Partition(aliases[0], " ");
      assert ' ' !in p.0 by {
        forall j | 0 <= j < |p.0| ensures p.0[j] != ' ' {
          assert p.0[j] == aliases[0][j];
          if aliases[0][j] == ' ' {
            assert aliases[0][j..j + 1] == " ";
            PartitionFound(aliases[0], " ", j);
          }
        }
      }
      var (reg1, name) := GetName(reg, p.0, p.2);
      AliasVerbsSpaceless(reg1, aliases[1..]);
    }
  }

  /** `_add_completer`: chosen from the lower-cased first flag. */
  function CompleterFor(a: Argument): (c: Completer)
    requires |a.flags| > 0
    ensures c == MachineCompleter <==> StartsWith(Lower(a.flags[0]), "machine")
    ensures c == SshKeyCompleter ==> StartsWith(Lower(a.flags[0]), "ssh")
  {
    var k := Lower(a.flags[0]);
    if StartsWith(k, "machine") then MachineCompleter
    else if StartsWith(k, "id") || EndsWith(k, "id") then InstanceCompleter
    else if StartsWith(k, "ssh") then SshKeyCompleter
    else NoCompleter
  }

  // ----- mutually exclusive groups -----

  predicate Grouped(a: Argument) {
    a.mutexGroup != ""
  }

  /** `arg.kwargs.pop('required', False)` */
  predicate Required(a: Argument) {
    a.required == Some(true)
  }

  predicate HasFlags(args: seq<Argument>) {
    forall i :: 0 <= i < |args| ==> |args[i].flags| > 0
  }

  /** The first pass over one argument: a group once required stays required, otherwise it takes this argument's flag. */
  function GroupStep(groups: Dict<string, bool>, a: Argument): Dict<string, bool> {
    if !Grouped(a) then groups
    else if Get(groups, a.mutexGroup) == Some(true) then groups
    else Set(groups, a.mutexGroup, Required(a))
  }

  lemma GroupStepKeys(groups: Dict<string, bool>, a: Argument, g: string)
    ensures HasKey(GroupStep(groups, a), g) <==> HasKey(groups, g) || (Grouped(a) && g == a.mutexGroup)
  {
    if Grouped(a) && Get(groups, a.mutexGroup) != Some(true) {
      assert Get(GroupStep(groups, a), g).Some? <==> Get(groups, g).Some? || g == a.mutexGroup;
    }
  }

  /** Some argument names group `g`. */
  predicate MemberOf(args: seq<Argument>, g: string) {
    exists i :: 0 <= i < |args| && Grouped(args[i]) && args[i].mutexGroup == g
  }

  lemma MemberOfSnoc(args: seq<Argument>)
    requires |args| > 0
    ensures forall g :: MemberOf(args, g) <==>
              MemberOf(args[..|args| - 1], g) || (Grouped(args[|args| - 1]) && args[|args| - 1].mutexGroup == g)
  {
    var init := args[..|args| - 1];
    assert forall i :: 0 <= i < |init| ==> init[i] == args[i];
    forall g | MemberOf(args, g) && !(Grouped(args[|args| - 1]) && args[|args| - 1].mutexGroup == g)
      ensures MemberOf(init, g)
    {
      var i :| 0 <= i < |args| && Grouped(args[i]) && args[i].mutexGroup == g;
      assert i < |init|;
    }
  }

  lemma GroupStepAllKeys(groups: Dict<string, bool>, a: Argument)
    requires UniqueKeys(groups)
    ensures UniqueKeys(GroupStep(groups, a))
    ensures forall g :: HasKey(GroupStep(groups, a), g) <==> HasKey(groups, g) || (Grouped(a) && g == a.mutexGroup)
  {
    SetUnique(groups, a.mutexGroup, Required(a));
    forall g ensures HasKey(GroupStep(groups, a), g) <==> HasKey(groups, g) || (Grouped(a) && g == a.mutexGroup) {
      GroupStepKeys(groups, a, g);
    }
  }

  /** `mutex_groups_to_required` after the first pass, in first-appearance order. */
  function Groups(args: seq<Argument>): (r: Dict<string, bool>)
    ensures UniqueKeys(r)
    ensures forall g :: HasKey(r, g) <==> MemberOf(args, g)
    decreases |args|
  {
    if |args| == 0 then []
    else
      var prev := Groups(args[..|args| - 1]);
      var a := args[|args| - 1];
      GroupStepAllKeys(prev, a);
      MemberOfSnoc(args);
      GroupStep(prev, a)
  }

  /** A group is required exactly when at least one of its members says `required=True`: the OR of the members, sticky once true. */
  lemma GroupStepRequired(groups: Dict<string, bool>, a: Argument, g: string)
    ensures Get(GroupStep(groups, a), g) == Some(true) <==>
              Get(groups, g) == Some(true) || (Grouped(a) && a.mutexGroup == g && Required(a))
  {
  }

  predicate SomeMemberRequired(args: seq<Argument>, g: string) {
    exists i :: 0 <= i < |args| && args[i].mutexGroup == g && Required(args[i])
  }

  lemma SomeMemberRequiredSnoc(args: seq<Argument>, g: string)
    requires |args| > 0
    ensures SomeMemberRequired(args, g) <==>
              SomeMemberRequired(args[..|args| - 1], g) || (args[|args| - 1].mutexGroup == g && Required(args[|args| - 1]))
  {
    var init := args[..|args| - 1];
    if SomeMemberRequired(init, g) {
      var i :| 0 <= i < |init| && init[i].mutexGroup == g && Required(init[i]);
      assert args[i] == init[i];
    }
    if SomeMemberRequired(args, g) {
      var i :| 0 <= i < |args| && args[i].mutexGroup == g && Required(args[i]);
      if i < |init| {
        assert init[i] == args[i];
      }
    }
  }

  lemma GroupsSnoc(args: seq<Argument>)
    requires |args| > 0
    ensures Groups(args) == GroupStep(Groups(args[..|args| - 1]), args[|args| - 1])
  {
  }

  lemma {:induction false} GroupRequired(args: seq<Argument>, g: string)
    requires g != ""
    ensures Get(Groups(args), g) == Some(true) <==> SomeMemberRequired(args, g)
    decreases |args|
  {
    if |args| > 0 {
      var init := args[..|args| - 1];
      GroupRequired(init, g);
      GroupsSnoc(args);
      GroupStepRequired(Groups(init), args[|args| - 1], g);
      SomeMemberRequiredSnoc(args, g);
    }
  }

  /** `arg_to_group`: each grouped argument's first flag mapped to its group, a later one with the same flag overriding. */
  function ArgToGroup(args: seq<Argument>): Dict<string, string>
    requires HasFlags(args)
    decreases |args|
  {
    if |args| == 0 then []
    else
      var prev := ArgToGroup(args[..|args| - 1]);
      var a := args[|args| - 1];
      if Grouped(a) then Set(prev, a.flags[0], a.mutexGroup) else prev
  }

  predicate DistinctFirstFlags(args: seq<Argument>)
    requires HasFlags(args)
  {
    forall i, j :: 0 <= i < j < |args| ==> args[i].flags[0] != args[j].flags[0]
  }

  /** With distinct first flags, each argument's first flag leads to its own group, and only grouped arguments have one. */
  lemma {:induction false} ArgToGroupOwn(args: seq<Argument>, i: nat)
    requires HasFlags(args) && DistinctFirstFlags(args) && i < |args|
    ensures Get(ArgToGroup(args), args[i].flags[0]) == if Grouped(args[i]) then Some(args[i].mutexGroup) else None
    decreases |args|
  {
    var init := args[..|args| - 1];
    var a := args[|args| - 1];
    assert forall j :: 0 <= j < |init| ==> init[j] == args[j];
    if i < |args| - 1 {
      ArgToGroupOwn(init, i);
    } else {
      ArgToGroupAbsent(init, a.flags[0]);
    }
  }

  /** A first flag no argument has is not in `arg_to_group`. */
  lemma {:induction false} ArgToGroupAbsent(args: seq<Argument>, key: string)
    requires HasFlags(args)
    requires forall j :: 0 <= j < |args| ==> args[j].flags[0] != key
    ensures Get(ArgToGroup(args), key) == None
    decreases |args|
  {
    if |args| > 0 {
      var init := args[..|args| - 1];
      assert forall j :: 0 <= j < |init| ==> init[j] == args[j];
      ArgToGroupAbsent(init, key);
    }
  }

  /** A grouped argument as handed to its group: `required` has been popped. */
  function Popped(a: Argument): Argument {
    if Grouped(a) then a.(required := None) else a
  }

  /**
   * `_process_arguments_with_groups`: one group per group name, then every
   * argument, in order, into its group if its first flag has one and
   * directly onto the sub-parser otherwise.
   */
  function ProcessArguments(args: seq<Argument>): (r: (Dict<string, bool>, seq<Placed>))
    requires HasFlags(args)
    ensures r.0 == Groups(args)
    ensures |r.1| == |args|
    ensures forall i :: 0 <= i < |args| ==> r.1[i].arg == Popped(args[i]) && r.1[i].completer == CompleterFor(args[i])
    ensures forall i :: 0 <= i < |args| ==> (r.1[i].group == "" || HasKey(r.0, r.1[i].group))
    ensures forall i :: 0 <= i < |args| ==> !Required(r.1[i].arg) || !Grouped(args[i])
  {
    var toGroup := ArgToGroup(args);
    var placed := seq(|args|, i requires 0 <= i < |args| =>
      var g := Get(toGroup, args[i].flags[0]);
      Placed(Popped(args[i]), if g.Some? then g.value else "", CompleterFor(args[i])));
    forall i | 0 <= i < |args| ensures placed[i].group == "" || HasKey(Groups(args), placed[i].group) {
      ArgToGroupNamesGroups(args, args[i].flags[0]);
    }
    (Groups(args), placed)
  }

  /** Every group `arg_to_group` names is one of the groups. */
  lemma {:induction false} ArgToGroupNamesGroups(args: seq<Argument>, key: string)
    requires HasFlags(args)
    ensures Get(ArgToGroup(args), key).Some? ==> HasKey(Groups(args), Get(ArgToGroup(args), key).value)
    decreases |args|
  {
    if |args| > 0 {
      var init := args[..|args| - 1];
      var a := args[|args| - 1];
      ArgToGroupNamesGroups(init, key);
      if Get(ArgToGroup(args), key).Some? {
        var g := Get(ArgToGroup(args), key).value;
        if Grouped(a) && a.flags[0] == key {
          assert g == a.mutexGroup;
        } else {
          assert Get(ArgToGroup(init), key) == Some(g);
          var i :| 0 <= i < |init| && Grouped(init[i]) && init[i].mutexGroup == g;
          assert args[i] == init[i];
        }
      }
    }
  }

  /** With distinct first flags, every argument goes into its own group, or onto the sub-parser when it has none. */
  lemma PlacedInOwnGroup(args: seq<Argument>, i: nat)
    requires HasFlags(args) && DistinctFirstFlags(args) && i < |args|
    ensures ProcessArguments(args).1[i].group == args[i].mutexGroup
  {
    ArgToGroupOwn(args, i);
  }

  // ----- registering commands -----

  /**
   * `command`'s inner decorator: the handler's name and the aliases go
   * through `get_name`, the sub-parser is appended, and its arguments are
   * processed. With no aliases argparse is handed an empty, falsy
   * `hidden_aliases`.
   */
  function Register(reg: Registry, handler: string, args: seq<Argument>, aliases: seq<string>, help: Option<string>): (r: Registry)
    requires HasFlags(args)
    ensures |r.subs| == |reg.subs| + 1 && r.subs[..|reg.subs|] == reg.subs
    ensures r.subs[|reg.subs|].handler == handler && r.subs[|reg.subs|].help == help
    ensures r.subs[|reg.subs|].name == NameOf(CommandParts(handler).0, CommandParts(handler).1)
    ensures |r.subs[|reg.subs|].aliases| == |aliases|
    ensures r.subs[|reg.subs|].aliasesHidden <==> |aliases| == 0
    ensures !r.subs[|reg.subs|].hasGlobalGroup && r.subs[|reg.subs|].globals == []
    ensures reg.verbs <= r.verbs && reg.objs <= r.objs
    ensures r.addedHelp == reg.addedHelp && r.top == reg.top
  {
    var parts := CommandParts(handler);
    var (reg1, name) := GetName(reg, parts.0, parts.1);
    var (reg2, aliasNames) := AliasNames(reg1, aliases);
    var (groups, placed) := ProcessArguments(args);
    var sp := SubParser(name, aliasNames, |aliases| == 0, help, handler, groups, placed, false, []);
    reg2.(subs := reg2.subs + [sp])
  }

  const HelpArgument := Argument(["subcommand"], None, "")

  /**
   * `command`: the first call registers the `help` command before the
   * caller's handler; later calls register only the handler.
   */
  function Command(reg: Registry, handler: string, args: seq<Argument>, aliases: seq<string>, help: Option<string>): (r: Registry)
    requires HasFlags(args)
    ensures r.addedHelp
    ensures !reg.addedHelp ==> |r.subs| == |reg.subs| + 2 && r.subs[|reg.subs|].handler == "help"
    ensures reg.addedHelp ==> |r.subs| == |reg.subs| + 1
    ensures r.subs[|r.subs| - 1].handler == handler
    ensures r.subs[..|reg.subs|] == reg.subs
  {
    if !reg.addedHelp then
      var withHelp := Register(reg.(addedHelp := true), "help", [HelpArgument], [], Some("print this help message"));
      var r := Register(withHelp, handler, args, aliases, help);
      assert r.subs[..|reg.subs|] == withHelp.subs[..|reg.subs|];
      r
    else Register(reg, handler, args, aliases, help)
  }

  /** A command declaration: handler name, arguments, aliases and help text. */
  datatype Decl = Decl(handler: string, args: seq<Argument>, aliases: seq<string>, help: Option<string>)

  predicate DeclsHaveFlags(decls: seq<Decl>) {
    forall i :: 0 <= i < |decls| ==> HasFlags(decls[i].args)
  }

  /** Registering a program's commands one after another. */
  function CommandsFrom(reg: Registry, decls: seq<Decl>): Registry
    requires DeclsHaveFlags(decls)
    decreases |decls|
  {
    if |decls| == 0 then reg
    else
      var d := decls[|decls| - 1];
      Command(CommandsFrom(reg, decls[..|decls| - 1]), d.handler, d.args, d.aliases, d.help)
  }

  /**
   * From an empty registry, `help` is registered exactly once, first, and
   * every declared handler follows in declaration order.
   */
  lemma CommandsFromSnoc(reg: Registry, decls: seq<Decl>)
    requires DeclsHaveFlags(decls) && |decls| > 0
    ensures DeclsHaveFlags(decls[..|decls| - 1])
    ensures var d := decls[|decls| - 1];
            CommandsFrom(reg, decls) == Command(CommandsFrom(reg, decls[..|decls| - 1]), d.handler, d.args, d.aliases, d.help)
  {
    assert forall i :: 0 <= i < |decls| - 1 ==> decls[..|decls| - 1][i] == decls[i];
  }

  /** `help` comes first and then the handlers of `decls`, in order. */
  predicate HelpThenHandlers(reg: Registry, decls: seq<Decl>) {
    |reg.subs| == |decls| + 1 && reg.addedHelp && reg.subs[0].handler == "help"
    && forall i :: 0 <= i < |decls| ==> reg.subs[i + 1].handler == decls[i].handler
  }

  /** The handler order carries over when one more sub-parser is appended. */
  lemma HandlersFollow(prev: Registry, r: Registry, decls: seq<Decl>)
    requires |decls| > 0 && HelpThenHandlers(prev, decls[..|decls| - 1])
    requires |r.subs| == |prev.subs| + 1 && r.addedHelp
    requires r.subs[..|prev.subs|] == prev.subs && r.subs[|r.subs| - 1].handler == decls[|decls| - 1].handler
    ensures HelpThenHandlers(r, decls)
  {
    forall i | 0 <= i < |decls| - 1 ensures r.subs[i + 1].handler == decls[i].handler {
      assert r.subs[i + 1] == r.subs[..|prev.subs|][i + 1];
      assert decls[..|decls| - 1][i] == decls[i];
    }
    assert r.subs[0] == r.subs[..|prev.subs|][0];
  }

  /** One more command after `help` keeps the order. */
  lemma HelpStep(prev: Registry, decls: seq<Decl>)
    requires |decls| > 0 && HasFlags(decls[|decls| - 1].args) && HelpThenHandlers(prev, decls[..|decls| - 1])
    ensures var d := decls[|decls| - 1];
            HelpThenHandlers(Command(prev, d.handler, d.args, d.aliases, d.help), decls)
  {
    var d := decls[|decls| - 1];
    HandlersFollow(prev, Command(prev, d.handler, d.args, d.aliases, d.help), decls);
  }

  /** `help` is registered once, first, and every handler follows in declaration order. */
  lemma {:induction false} HelpRegisteredOnce(decls: seq<Decl>)
    requires DeclsHaveFlags(decls) && |decls| > 0
    ensures HelpThenHandlers(CommandsFrom(Empty, decls), decls)
    decreases |decls|
  {
    var init := decls[..|decls| - 1];
    CommandsFromSnoc(Empty, decls);
    if |init| > 0 {
      HelpRegisteredOnce(init);
      HelpStep(CommandsFrom(Empty, init), decls);
    } else {
      assert CommandsFrom(Empty, init) == Empty;
      FirstCommand(decls[0]);
    }
  }

  /** The first command on an empty registry comes right after `help`. */
  lemma FirstCommand(d: Decl)
    requires HasFlags(d.args)
    ensures var r := Command(Empty, d.handler, d.args, d.aliases, d.help);
            |r.subs| == 2 && r.addedHelp && r.subs[0].handler == "help" && r.subs[1].handler == d.handler
  {
  }

  /** Handler names are Python identifiers and have no spaces; alias verbs are cut at a space. Together with an empty start, no verb holds a space. */
  predicate SpacelessVerbs(reg: Registry) {
    forall v :: v in reg.verbs ==> ' ' !in v
  }

  lemma VerbsStaySpaceless(reg: Registry, handler: string, args: seq<Argument>, aliases: seq<string>, help: Option<string>)
    requires HasFlags(args) && SpacelessVerbs(reg) && ' ' !in handler
    ensures SpacelessVerbs(Register(reg, handler, args, aliases, help))
  {
    var parts := CommandParts(handler);
    var p := Partition(ReplaceChar(handler, '_', '-'), "--");
    assert ' ' !in parts.0 by {
      assert forall j :: 0 <= j < |p.0| ==> p.0[j] == (p.0 + p.1 + p.2)[j];
    }
    var (reg1, name) := GetName(reg, parts.0, parts.1);
    AliasVerbsSpaceless(reg1, aliases);
  }

  // ----- global options -----

  /** The option strings argparse gives every parser, the top-level one and each sub-parser. */
  const HelpFlags: seq<string> := ["-h", "--help"]

  /** argparse compares only option strings, the names that start with `-`, when it looks for a conflict. */
  predicate OptionString(flag: string) {
    |flag| > 0 && flag[0] == '-'
  }

  /** The option strings already taken on a sub-parser: its help option, its own arguments and the mirrored globals. */
  predicate Taken(x: SubParser, flag: string) {
    OptionString(flag) && (flag in HelpFlags
    || (exists i :: 0 <= i < |x.placed| && flag in x.placed[i].arg.flags)
    || (exists i :: 0 <= i < |x.globals| && flag in x.globals[i].flags))
  }

  predicate Conflicts(x: SubParser, flags: seq<string>) {
    exists f :: f in flags && Taken(x, f)
  }

  /** Whether an option string is already taken on the top-level parser: its help option or an earlier global. */
  predicate TopConflicts(top: seq<GlobalOption>, flags: seq<string>) {
    (exists f :: f in flags && OptionString(f) && f in HelpFlags)
    || (exists i, f :: 0 <= i < |top| && f in flags && OptionString(f) && f in top[i].flags)
  }

  /** Mirroring onto one sub-parser: the global group is created if missing; a conflicting option is silently skipped. */
  function Mirror(x: SubParser, flags: seq<string>): (y: SubParser)
    ensures y.hasGlobalGroup
    ensures y.(hasGlobalGroup := x.hasGlobalGroup, globals := x.globals) == x
    ensures y.globals == if Conflicts(x, flags) then x.globals else x.globals + [GlobalOption(flags, Suppress)]
  {
    var x1 := x.(hasGlobalGroup := true);
    if Conflicts(x, flags) then x1 else x1.(globals := x.globals + [GlobalOption(flags, Suppress)])
  }

  /**
   * `add_argument`: unless `parent_only`, mirrored onto every sub-parser
   * registered so far with its default replaced by SUPPRESS, then added to
   * the top-level parser with its own default, where a conflict raises.
   */
  function AddArgument(reg: Registry, flags: seq<string>, default: Json, parentOnly: bool): (r: Result<Registry, Exc>)
    ensures r.Ok? <==> !TopConflicts(reg.top, flags)
    ensures r.Err? ==> r.error.ArgumentError?
    ensures r.Ok? ==> r.value.top == reg.top + [GlobalOption(flags, Given(default))]
    ensures r.Ok? ==> |r.value.subs| == |reg.subs|
    ensures r.Ok? && parentOnly ==> r.value.subs == reg.subs
    ensures r.Ok? && !parentOnly ==> forall i :: 0 <= i < |reg.subs| ==> r.value.subs[i] == Mirror(reg.subs[i], flags)
    ensures r.Ok? ==> r.value.(top := reg.top, subs := reg.subs) == reg
  {
    var subs := if parentOnly then reg.subs else seq(|reg.subs|, i requires 0 <= i < |reg.subs| => Mirror(reg.subs[i], flags));
    if TopConflicts(reg.top, flags) then Err(ArgumentError("conflicting option string"))
    else Ok(reg.(subs := subs, top := reg.top + [GlobalOption(flags, Given(default))]))
  }

  /**
   * After a global option is added, every sub-parser offers it: either it
   * already had one of its flags, or it gained it with a suppressed default
   * so that a value given before the command name is not overwritten.
   */
  lemma GlobalOptionEverywhere(reg: Registry, flags: seq<string>, default: Json, i: nat)
    requires AddArgument(reg, flags, default, false).Ok? && i < |reg.subs|
    ensures var x := AddArgument(reg, flags, default, false).value.subs[i];
            x.hasGlobalGroup && (Conflicts(reg.subs[i], flags) || GlobalOption(flags, Suppress) in x.globals)
  {
    var x := AddArgument(reg, flags, default, false).value.subs[i];
    assert x == Mirror(reg.subs[i], flags);
    if !Conflicts(reg.subs[i], flags) {
      assert x.globals[|x.globals| - 1] == GlobalOption(flags, Suppress);
    }
  }

  /** Sub-parsers never hold a global option's real default. */
  predicate OnlySuppressed(reg: Registry) {
    forall i, j :: 0 <= i < |reg.subs| && 0 <= j < |reg.subs[i].globals| ==> reg.subs[i].globals[j].default == Suppress
  }

  /** Adding global options keeps the real defaults on the top-level parser only. */
  lemma AddArgumentOnlySuppressed(reg: Registry, flags: seq<string>, default: Json, parentOnly: bool)
    requires OnlySuppressed(reg) && AddArgument(reg, flags, default, parentOnly).Ok?
    ensures OnlySuppressed(AddArgument(reg, flags, default, parentOnly).value)
  {
    var r := AddArgument(reg, flags, default, parentOnly).value;
    if !parentOnly {
      forall i, j | 0 <= i < |r.subs| && 0 <= j < |r.subs[i].globals| ensures r.subs[i].globals[j].default == Suppress {
        assert r.subs[i] == Mirror(reg.subs[i], flags);
        if j < |reg.subs[i].globals| {
          assert r.subs[i].globals[j] == reg.subs[i].globals[j];
        }
      }
    }
  }

  /** Registering a command keeps the real defaults on the top-level parser only: a new sub-parser starts with no global options. */
  lemma RegisterOnlySuppressed(reg: Registry, handler: string, args: seq<Argument>, aliases: seq<string>, help: Option<string>)
    requires HasFlags(args) && OnlySuppressed(reg)
    ensures OnlySuppressed(Register(reg, handler, args, aliases, help))
  {
    var r := Register(reg, handler, args, aliases, help);
    forall i, j | 0 <= i < |r.subs| && 0 <= j < |r.subs[i].globals| ensures r.subs[i].globals[j].default == Suppress {
      if i < |reg.subs| {
        assert r.subs[i] == r.subs[..|reg.subs|][i] == reg.subs[i];
      }
    }
  }

  // ----- dispatch and token merging -----

  /** `fail_with_help` (the top-level default action and the `help` command): print help and `raise SystemExit` with no code. */
  function FailWithHelp(): (r: Result<(), Exc>)
    ensures r.Err? && r.error == SystemExit(NoCode)
  {
    Err(SystemExit(NoCode))
  }

  /** One step of `parse_args`' merge: a token following an output token that is exactly a verb is glued onto it with a space. */
  function MergeStep(verbs: set<string>, acc: seq<string>, x: string): seq<string> {
    if |acc| > 0 && acc[|acc| - 1] in verbs then acc[..|acc| - 1] + [acc[|acc| - 1] + " " + x]
    else acc + [x]
  }

  /** The token list `parse_args` hands to argparse. */
  function MergeTokens(verbs: set<string>, argv: seq<string>): (out: seq<string>)
    ensures |out| <= |argv|
    ensures |argv| > 0 <==> |out| > 0
    ensures forall i :: 0 <= i < |out| - 1 ==> out[i] !in verbs
    decreases |argv|
  {
    if |argv| == 0 then []
    else MergeStep(verbs, MergeTokens(verbs, argv[..|argv| - 1]), argv[|argv| - 1])
  }

  /** Merging only glues tokens with a space, so space-joining is unchanged. */
  lemma {:induction false} MergeTokensJoin(verbs: set<string>, argv: seq<string>)
    ensures Join(MergeTokens(verbs, argv), " ") == Join(argv, " ")
    decreases |argv|
  {
    if |argv| > 0 {
      var init := argv[..|argv| - 1];
      var x := argv[|argv| - 1];
      var acc := MergeTokens(verbs, init);
      MergeTokensJoin(verbs, init);
      assert argv == init + [x];
      if |init| > 0 {
        JoinSnoc(init, " ", x);
        if acc[|acc| - 1] in verbs {
          var front := acc[..|acc| - 1];
          var last := acc[|acc| - 1];
          assert acc == front + [last];
          if |front| > 0 {
            JoinSnoc(front, " ", last);
            JoinSnoc(front, " ", last + " " + x);
          }
        } else {
          JoinSnoc(acc, " ", x);
        }
      }
    }
  }

  /** An output token of the merge: an input token, or a verb glued to the token right after it. */
  predicate FromInput(verbs: set<string>, argv: seq<string>, t: string) {
    t in argv || exists j :: 0 <= j < |argv| - 1 && argv[j] in verbs && t == argv[j] + " " + argv[j + 1]
  }

  lemma FromInputGrow(verbs: set<string>, init: seq<string>, x: string, t: string)
    requires FromInput(verbs, init, t)
    ensures FromInput(verbs, init + [x], t)
  {
    var argv := init + [x];
    if t !in init {
      var j :| 0 <= j < |init| - 1 && init[j] in verbs && t == init[j] + " " + init[j + 1];
      assert argv[j] == init[j] && argv[j + 1] == init[j + 1];
    }
  }

  /** With space-free verbs, the last output token is a verb only when it is the last input token, unmerged. */
  lemma MergeTokensLast(verbs: set<string>, argv: seq<string>)
    requires forall v :: v in verbs ==> ' ' !in v
    requires |argv| > 0
    ensures var out := MergeTokens(verbs, argv); out[|out| - 1] in verbs ==> out[|out| - 1] == argv[|argv| - 1]
  {
    var x := argv[|argv| - 1];
    var acc := MergeTokens(verbs, argv[..|argv| - 1]);
    var out := MergeTokens(verbs, argv);
    assert out == MergeStep(verbs, acc, x);
    if |acc| > 0 && acc[|acc| - 1] in verbs {
      var v := acc[|acc| - 1];
      var merged := v + " " + x;
      assert out[|out| - 1] == merged;
      assert ' ' in merged by { assert merged[|v|] == ' '; }
      assert merged !in verbs;
    } else {
      assert out[|out| - 1] == x;
    }
  }

  /**
   * With space-free verbs, a merged token is never merged again: every
   * output token is an input token, or a verb glued to the token right
   * after it.
   */
  lemma {:induction false} MergeTokensShape(verbs: set<string>, argv: seq<string>)
    requires forall v :: v in verbs ==> ' ' !in v
    ensures forall t :: t in MergeTokens(verbs, argv) ==> FromInput(verbs, argv, t)
    decreases |argv|
  {
    if |argv| > 0 {
      var init := argv[..|argv| - 1];
      var x := argv[|argv| - 1];
      assert argv == init + [x];
      MergeTokensShape(verbs, init);
      var acc := MergeTokens(verbs, init);
      var out := MergeTokens(verbs, argv);
      forall t | t in acc ensures FromInput(verbs, argv, t) {
        FromInputGrow(verbs, init, x, t);
      }
      if |acc| > 0 && acc[|acc| - 1] in verbs {
        var last := acc[|acc| - 1];
        MergeTokensLast(verbs, init);
        assert argv[|argv| - 2] == last;
        assert out == acc[..|acc| - 1] + [last + " " + x];
        assert forall t :: t in acc[..|acc| - 1] ==> t in acc;
      } else {
        assert out == acc + [x];
      }
    }
  }
}

=== FILE: schedule.dfy ===
/**
 * `normalize_schedule_fields`: the readable labels a scheduled job's day,
 * hour and minute are shown with.
 */
module Schedule {
  import opened Wrappers
  import opened PyStr
  import opened PyDict
  import opened PyExc
  import opened Json

  const Days: seq<string> := ["Sunday", "Monday", "Tuesday", "Wednesday", "Thursday", "Friday", "Saturday"]

  /** Python indexing `xs[i]`: a negative index counts from the end; anything else out of range is an IndexError. */
  function PyIndex<T>(xs: seq<T>, i: int): (r: Result<T, Exc>)
    ensures 0 <= i < |xs| ==> r == Ok(xs[i])
    ensures -|xs| <= i < 0 ==> r == Ok(xs[|xs| + i])
    ensures r.Err? <==> i < -|xs| || i >= |xs|
  {
    if 0 <= i < |xs| then Ok(xs[i])
    else if -|xs| <= i < 0 then Ok(xs[|xs| + i])
    else Err(IndexError("list index out of range"))
  }

  /** `job.get(key) is None`: the key is missing or holds `None`. */
  predicate Unset(v: Option<Json>) {
    v.None? || v.value.JNull?
  }

  /** The weekday of a day index, 0 being Sunday; no day means every day. */
  function DayLabel(v: Option<Json>): (r: Result<string, Exc>)
    ensures Unset(v) ==> r == Ok("Everyday")
    ensures !Unset(v) && PyInt(v.value).Err? ==> r == Err(PyInt(v.value).error)
  {
    if Unset(v) then Ok("Everyday")
    else
      match PyInt(v.value)
      case Err(e) => Err(e)
      case Ok(d) => PyIndex(Days, d)
  }

  /** The 12-hour clock number of an hour: 0 and 12 show as 12. */
  function Hour12(hour: int): (h: int)
    ensures 1 <= h <= 12
    ensures (h - hour) % 12 == 0
  {
    var h := hour % 12;
    if h == 0 then 12 else h
  }

  /** `f"{hour_12}_{suffix}"` */
  function HourText(hour: int): string {
    ShowInt(Hour12(hour)) + "_" + (if hour < 12 then "AM" else "PM")
  }

  /** The hour label; no hour means every hour. */
  function HourLabel(v: Option<Json>): (r: Result<string, Exc>)
    ensures Unset(v) ==> r == Ok("Every hour")
    ensures !Unset(v) ==> r.Ok? == PyInt(v.value).Ok?
    ensures !Unset(v) && PyInt(v.value).Ok? ==> r == Ok(HourText(PyInt(v.value).value))
  {
    if Unset(v) then Ok("Every hour")
    else
      match PyInt(v.value)
      case Err(e) => Err(e)
      case Ok(h) => Ok(HourText(h))
  }

  /** `f"{m:02d}"`: at least two characters, zero-padded after any sign. */
  function MinuteText(m: int): (s: string)
    ensures |s| >= 2
  {
    ZFill(ShowInt(m), 2)
  }

  /** The minute label; no minute means every minute. */
  function MinuteLabel(v: Option<Json>): (r: Result<string, Exc>)
    ensures Unset(v) ==> r == Ok("Every minute")
    ensures !Unset(v) ==> r.Ok? == PyInt(v.value).Ok?
    ensures !Unset(v) && PyInt(v.value).Ok? ==> r == Ok(MinuteText(PyInt(v.value).value))
  {
    if Unset(v) then Ok("Every minute")
    else
      match PyInt(v.value)
      case Err(e) => Err(e)
      case Ok(m) => Ok(MinuteText(m))
  }

  /**
   * `normalize_schedule_fields`: the three fields are replaced by their
   * labels, in the order day, hour, minute; the first failure propagates.
   */
  function NormalizeSchedule(job: Dict<string, Json>): (r: Result<Dict<string, Json>, Exc>)
    ensures r.Ok? <==>
              DayLabel(Get(job, "day_of_the_week")).Ok? && HourLabel(Get(job, "hour_of_the_day")).Ok?
              && MinuteLabel(Get(job, "min_of_the_hour")).Ok?
    ensures r.Ok? ==> Get(r.value, "day_of_the_week") == Some(JStr(DayLabel(Get(job, "day_of_the_week")).value))
    ensures r.Ok? ==> Get(r.value, "hour_of_the_day") == Some(JStr(HourLabel(Get(job, "hour_of_the_day")).value))
    ensures r.Ok? ==> Get(r.value, "min_of_the_hour") == Some(JStr(MinuteLabel(Get(job, "min_of_the_hour")).value))
    ensures r.Ok? ==> forall k :: k !in {"day_of_the_week", "hour_of_the_day", "min_of_the_hour"} ==> Get(r.value, k) == Get(job, k)
  {
    match DayLabel(Get(job, "day_of_the_week"))
    case Err(e) => Err(e)
    case Ok(day) =>
      var j1 := Set(job, "day_of_the_week", JStr(day));
      assert Get(j1, "hour_of_the_day") == Get(job, "hour_of_the_day");
      match HourLabel(Get(j1, "hour_of_the_day"))
      case Err(e) => Err(e)
      case Ok(hour) =>
        var j2 := Set(j1, "hour_of_the_day", JStr(hour));
        assert Get(j2, "min_of_the_hour") == Get(job, "min_of_the_hour");
        match MinuteLabel(Get(j2, "min_of_the_hour"))
        case Err(e) => Err(e)
        case Ok(minute) => Ok(Set(j2, "min_of_the_hour", JStr(minute)))
  }

  // ----- reading the labels back -----

  /** The hour of the day a clock number and suffix stand for. */
  function HourOf(h12: int, suffix: string): Option<int> {
    if !(1 <= h12 <= 12) then None
    else if suffix == "AM" then Some(if h12 == 12 then 0 else h12)
    else if suffix == "PM" then Some(if h12 == 12 then 12 else h12 + 12)
    else None
  }

  /** The hour a label `<h12>_AM|PM` stands for, if it is one. */
  function ParseHourText(s: string): Option<int> {
    var parts := Split(s, '_');
    if |parts| != 2 then None
    else
      match ParseInt(parts[0])
      case None => None
      case Some(h) => HourOf(h, parts[1])
  }

  lemma HourOfHour12(hour: int)
    requires 0 <= hour <= 23
    ensures HourOf(Hour12(hour), if hour < 12 then "AM" else "PM") == Some(hour)
  {
  }

  /** An hour label splits at its one underscore into the clock number and the suffix. */
  lemma HourTextSplit(hour: int)
    ensures Split(HourText(hour), '_') == [ShowNat(Hour12(hour)), if hour < 12 then "AM" else "PM"]
  {
    var digits := ShowNat(Hour12(hour));
    var suffix := if hour < 12 then "AM" else "PM";
    assert ShowInt(Hour12(hour)) == digits;
    assert '_' !in digits by {
      assert forall i :: 0 <= i < |digits| ==> IsDigit(digits[i]);
    }
    assert HourText(hour) == Join([digits, suffix], "_") by {
      JoinCons(digits, [suffix], "_");
      assert Join([suffix], "_") == suffix;
    }
    SplitJoin([digits, suffix], '_');
  }

  /** Every hour of the day is read back from its label, so distinct hours get distinct labels. */
  lemma HourTextRoundTrip(hour: int)
    requires 0 <= hour <= 23
    ensures ParseHourText(HourText(hour)) == Some(hour)
  {
    var h := Hour12(hour);
    var parts := Split(HourText(hour), '_');
    HourTextSplit(hour);
    assert ParseInt(parts[0]) == Some(h) by {
      ParseShowInt(h);
      assert ShowInt(h) == ShowNat(h);
    }
    HourOfHour12(hour);
  }

  /** Every minute of the hour shows as exactly two digits that read back as that minute. */
  lemma MinuteTextRoundTrip(m: int)
    requires 0 <= m <= 59
    ensures |MinuteText(m)| == 2 && AllDigits(MinuteText(m))
    ensures ParseInt(MinuteText(m)) == Some(m)
  {
    var d := ShowNat(m);
    assert ShowInt(m) == d;
    assert |d| <= 2 by {
      if m >= 10 { assert ShowNat(m / 10) == [DigitChar(m / 10)]; }
    }
    ZFillDigits(d, 2);
    ShowNatValue(m);
    ParseDigits(ZFill(d, 2));
  }

  /** A day index 0..6 is that weekday, -7..-1 counts back from Saturday as Python does, and any other index is an IndexError. */
  lemma DayLabelIndex(d: int)
    ensures -7 <= d <= 6 ==> DayLabel(Some(JInt(d))) == Ok(if d >= 0 then Days[d] else Days[7 + d])
    ensures DayLabel(Some(JInt(d))).Err? <==> d < -7 || d > 6
  {
  }

  /**
   * A job whose hour and minute are in range is normalized to labels from
   * which the original hour and minute are read back.
   */
  lemma NormalizedReadsBack(job: Dict<string, Json>, out: Dict<string, Json>, hour: int, minute: int)
    requires NormalizeSchedule(job) == Ok(out)
    requires Get(job, "hour_of_the_day") == Some(JInt(hour)) && 0 <= hour <= 23
    requires Get(job, "min_of_the_hour") == Some(JInt(minute)) && 0 <= minute <= 59
    ensures Get(out, "hour_of_the_day").Some? && Get(out, "hour_of_the_day").value.JStr?
    ensures ParseHourText(Get(out, "hour_of_the_day").value.s) == Some(hour)
    ensures Get(out, "min_of_the_hour").Some? && Get(out, "min_of_the_hour").value.JStr?
    ensures ParseInt(Get(out, "min_of_the_hour").value.s) == Some(minute)
  {
    assert HourLabel(Get(job, "hour_of_the_day")) == Ok(HourText(hour)) by {
      assert PyInt(JInt(hour)) == Ok(hour);
    }
    assert MinuteLabel(Get(job, "min_of_the_hour")) == Ok(MinuteText(minute)) by {
      assert PyInt(JInt(minute)) == Ok(minute);
    }
    HourTextRoundTrip(hour);
    MinuteTextRoundTrip(minute);
  }
}

=== FILE: search.dfy ===
/**
 * The pure parts of `search offers` (vast_cli/commands/search.py): the
 * request body built from the command-line options, and the `rented`
 * filter applied to the offers the server returns.
 */
module Search {
  import opened Wrappers
  import opened PyStr
  import opened PyDict
  import opened PyExc
  import opened Json
  import opened QueryCompiler

  /** The options of `search offers` this part reads. */
  datatype SearchArgs = SearchArgs(
    noDefault: bool,
    query: QueryArg,
    order: string,
    kind: string,
    limit: Option<int>,
    storage: real,
    disableBundling: bool)

  /** Offers a user can actually rent: verified, not external, rentable, not rented. */
  const DefaultFilter: Filter := [
    ("verified", [("eq", JBool(true))]),
    ("external", [("eq", JBool(false))]),
    ("rentable", [("eq", JBool(true))]),
    ("rented", [("eq", JBool(false))])
  ]

  /** The filter before the user's query is compiled into it. */
  function BaseFilter(noDefault: bool): (f: Filter)
    ensures noDefault ==> f == []
    ensures !noDefault ==> Lookup(f, "verified", "eq") == Some(JBool(true)) && Lookup(f, "external", "eq") == Some(JBool(false))
    ensures !noDefault ==> Lookup(f, "rentable", "eq") == Some(JBool(true)) && Lookup(f, "rented", "eq") == Some(JBool(false))
  {
    if noDefault then [] else DefaultLookups(); DefaultFilter
  }

  /** Each default field holds its one `eq` condition. */
  lemma DefaultLookups()
    ensures Lookup(DefaultFilter, "verified", "eq") == Some(JBool(true)) && Lookup(DefaultFilter, "external", "eq") == Some(JBool(false))
    ensures Lookup(DefaultFilter, "rentable", "eq") == Some(JBool(true)) && Lookup(DefaultFilter, "rented", "eq") == Some(JBool(false))
  {
    var d := DefaultFilter;
    assert Get(d, "verified") == Some(d[0].1);
    assert Get(d, "external") == Some(d[1].1) by { assert d[1..][0] == d[1]; }
    assert Get(d, "rentable") == Some(d[2].1) by { assert d[1..][1..][0] == d[2]; }
    DefaultRented();
  }

  datatype Direction = Asc | Desc {
    function Name(): string {
      match this
      case Asc => "asc"
      case Desc => "desc"
    }
  }

  /** Whether `c` sits at either end of `s`. */
  predicate AtAnEnd(s: string, c: char) {
    |s| > 0 && (s[0] == c || s[|s| - 1] == c)
  }

  /** Stripping a single character changes a string exactly when that character sits at an end. */
  lemma StripOneChanges(s: string, c: char)
    ensures Strip(s, Chars({c})) != s <==> AtAnEnd(s, c)
  {
    StripChangesIff(s, Chars({c}));
    if |s| > 0 {
      assert InClass(s[0], Chars({c})) <==> s[0] == c;
      assert InClass(s[|s| - 1], Chars({c})) <==> s[|s| - 1] == c;
    }
  }

  /**
   * One sort entry: a `-` at either end asks for descending order, a `+`
   * at either end for ascending; the `+` test comes second and wins.
   */
  function OrderEntry(name: string, alias: map<string, string>): (e: (string, Direction))
    ensures AtAnEnd(name, '+') ==> e == (Canonical(Strip(name, Chars({'+'})), alias), Asc)
    ensures !AtAnEnd(name, '+') && AtAnEnd(name, '-') ==> e == (Canonical(Strip(name, Chars({'-'})), alias), Desc)
    ensures !AtAnEnd(name, '+') && !AtAnEnd(name, '-') ==> e == (Canonical(name, alias), Asc)
  {
    StripOneChanges(name, '-');
    StripOneChanges(name, '+');
    var minus := Strip(name, Chars({'-'}));
    var plus := Strip(name, Chars({'+'}));
    var (field, dir) :=
      if plus != name then (plus, Asc)
      else if minus != name then (minus, Desc)
      else (name, Asc);
    (Canonical(field, alias), dir)
  }

  /** `--order`: comma-separated entries, trimmed, blank ones skipped, in the order given. */
  function ParseOrder(spec: string, alias: map<string, string>): (r: seq<(string, Direction)>)
    ensures |r| <= |Split(spec, ',')|
  {
    var names := ListItems(Split(spec, ','));
    seq(|names|, i requires 0 <= i < |names| => OrderEntry(names[i], alias))
  }

  /** Entries written out one by one come back one by one, in order. */
  lemma ParseOrderJoin(names: seq<string>, alias: map<string, string>)
    requires |names| >= 1 && forall i :: 0 <= i < |names| ==> TrimmedItem(names[i])
    ensures |ParseOrder(Join(names, ","), alias)| == |names|
    ensures forall i :: 0 <= i < |names| ==> ParseOrder(Join(names, ","), alias)[i] == OrderEntry(names[i], alias)
  {
    ItemsOfJoin(names);
  }

  /** `--type interruptible` is the old spelling of `bid`. */
  function OfferType(kind: string): (t: string)
    ensures kind != "interruptible" ==> t == kind
    ensures t != "interruptible"
  {
    if kind == "interruptible" then "bid" else kind
  }

  /** The filter as JSON: each field's operator map becomes an object. */
  function FilterJson(f: Filter): (body: Dict<string, Json>)
    ensures Keys(body) == Keys(f)
    ensures forall i :: 0 <= i < |f| ==> body[i] == (f[i].0, JObj(f[i].1))
  {
    seq(|f|, i requires 0 <= i < |f| => (f[i].0, JObj(f[i].1)))
  }

  function OrderJson(order: seq<(string, Direction)>): Json {
    JList(seq(|order|, i requires 0 <= i < |order| => JList([JStr(order[i].0), JStr(order[i].1.Name())])))
  }

  /** The keys `search offers` writes next to the filter's fields. */
  predicate Reserved(k: string) {
    k == "order" || k == "type" || k == "limit" || k == "allocated_storage" || k == "disable_bundling"
  }

  /** The request body: the filter's fields, then order, type, limit, storage and bundling. */
  function Body(f: Filter, args: SearchArgs, alias: map<string, string>): (body: Dict<string, Json>)
    ensures Get(body, "type") == Some(JStr(OfferType(args.kind)))
    ensures Get(body, "order") == Some(OrderJson(ParseOrder(args.order, alias)))
    ensures Get(body, "allocated_storage") == Some(JReal(args.storage))
    ensures forall k :: !Reserved(k) ==> Get(body, k) == Get(FilterJson(f), k)
  {
    WithBundling(Unbundled(f, args, alias), args.disableBundling)
  }

  /** `if args.limit: query["limit"] = int(args.limit)`. */
  function WithLimit(b: Dict<string, Json>, limit: Option<int>): (r: Dict<string, Json>)
    ensures limit.Some? && limit.value != 0 ==> Get(r, "limit") == Some(JInt(limit.value))
    ensures forall k :: k != "limit" ==> Get(r, k) == Get(b, k)
    ensures (limit.None? || limit.value == 0) ==> r == b
  {
    if limit.Some? && limit.value != 0 then Set(b, "limit", JInt(limit.value)) else b
  }

  /** `if args.disable_bundling: query["disable_bundling"] = True`. */
  function WithBundling(b: Dict<string, Json>, disable: bool): (r: Dict<string, Json>)
    ensures disable ==> Get(r, "disable_bundling") == Some(JBool(true))
    ensures forall k :: k != "disable_bundling" ==> Get(r, k) == Get(b, k)
    ensures !disable ==> r == b
  {
    if disable then Set(b, "disable_bundling", JBool(true)) else b
  }

  /** The body before `--disable-bundling` is applied. */
  function Unbundled(f: Filter, args: SearchArgs, alias: map<string, string>): Dict<string, Json> {
    var b2 := WithLimit(Set(Set(FilterJson(f), "order", OrderJson(ParseOrder(args.order, alias))), "type", JStr(args.kind)), args.limit);
    var b3 := Set(b2, "allocated_storage", JReal(args.storage));
    if args.kind == "interruptible" then Set(b3, "type", JStr("bid")) else b3
  }

  /** A truthy `--limit` is sent as an integer. */
  lemma BodyLimit(f: Filter, args: SearchArgs, alias: map<string, string>)
    requires args.limit.Some? && args.limit.value != 0
    ensures Get(Body(f, args, alias), "limit") == Some(JInt(args.limit.value))
  {
    var b1 := Set(Set(FilterJson(f), "order", OrderJson(ParseOrder(args.order, alias))), "type", JStr(args.kind));
    var b2 := WithLimit(b1, args.limit);
    var b3 := Set(b2, "allocated_storage", JReal(args.storage));
    assert Get(b3, "limit") == Some(JInt(args.limit.value));
    assert Get(Unbundled(f, args, alias), "limit") == Some(JInt(args.limit.value));
  }

  /** `--disable-bundling` is sent when given, and only then unless the filter itself names it. */
  lemma BodyBundling(f: Filter, args: SearchArgs, alias: map<string, string>)
    ensures args.disableBundling ==> Get(Body(f, args, alias), "disable_bundling") == Some(JBool(true))
    ensures !args.disableBundling && !HasKey(f, "disable_bundling") ==> !HasKey(Body(f, args, alias), "disable_bundling")
  {
    if !args.disableBundling {
      assert Get(Body(f, args, alias), "disable_bundling") == Get(FilterJson(f), "disable_bundling") by {
        var b1 := Set(Set(FilterJson(f), "order", OrderJson(ParseOrder(args.order, alias))), "type", JStr(args.kind));
        var b2 := WithLimit(b1, args.limit);
        var b3 := Set(b2, "allocated_storage", JReal(args.storage));
        assert Get(b3, "disable_bundling") == Get(b1, "disable_bundling");
        assert Get(b1, "disable_bundling") == Get(FilterJson(f), "disable_bundling");
        assert Get(Unbundled(f, args, alias), "disable_bundling") == Get(b3, "disable_bundling");
      }
      FilterJsonGet(f, "disable_bundling");
    }
  }

  /** What the handler does before any request: send a body, or return 1 after a ValueError. */
  datatype Outcome = Send(body: Dict<string, Json>) | Returned(code: int) | Raised(e: Exc)

  /**
   * The body `search offers` sends. A ValueError while compiling the query
   * is reported and ends the command with 1; other errors propagate.
   */
  function SearchRequest(args: SearchArgs, alias: map<string, string>, mult: map<string, real>): (o: Outcome)
    ensures var q := ParseQuery(args.query, BaseFilter(args.noDefault), alias, mult);
            && (o.Returned? <==> q.Err? && q.error.ValueError?)
            && (o.Returned? ==> o.code == 1)
            && (o.Raised? <==> q.Err? && !q.error.ValueError?)
            && (o.Send? ==> o.body == Body(q.value, args, alias))
  {
    match ParseQuery(args.query, BaseFilter(args.noDefault), alias, mult)
    case Err(ValueError(_)) => Returned(1)
    case Err(e) => Raised(e)
    case Ok(f) => Send(Body(f, args, alias))
  }

  /** Without a query and without `--no-default`, the default filter is sent as is. */
  lemma DefaultSearch(args: SearchArgs, alias: map<string, string>, mult: map<string, real>)
    requires args.query.NoQuery? && !args.noDefault
    ensures SearchRequest(args, alias, mult).Send?
    ensures Get(SearchRequest(args, alias, mult).body, "rented") == Some(JObj([("eq", JBool(false))]))
  {
    assert ParseQuery(args.query, BaseFilter(false), alias, mult) == Ok(DefaultFilter);
    SentBody(args, alias, mult, DefaultFilter);
    DefaultBodyRented(args, alias);
  }

  lemma SentBody(args: SearchArgs, alias: map<string, string>, mult: map<string, real>, f: Filter)
    requires ParseQuery(args.query, BaseFilter(args.noDefault), alias, mult) == Ok(f)
    ensures SearchRequest(args, alias, mult) == Send(Body(f, args, alias))
  {
  }

  lemma DefaultBodyRented(args: SearchArgs, alias: map<string, string>)
    ensures Get(Body(DefaultFilter, args, alias), "rented") == Some(JObj([("eq", JBool(false))]))
  {
    assert !Reserved("rented");
    DefaultRented();
    FilterJsonGet(DefaultFilter, "rented");
  }

  lemma DefaultRented()
    ensures Get(DefaultFilter, "rented") == Some([("eq", JBool(false))])
  {
    var d := DefaultFilter;
    assert d[0].0 != "rented" && d[1].0 != "rented" && d[2].0 != "rented";
    assert d[1..][1..][1..] == [d[3]];
  }

  /** The value of an offer's `rented` column; missing or null means not rented. */
  function RentedOf(row: Dict<string, Json>): (v: Json)
    ensures v != JNull
    ensures !HasKey(row, "rented") ==> v == JBool(false)
  {
    match Get(row, "rented")
    case None => JBool(false)
    case Some(x) => if x.JNull? then JBool(false) else x
  }

  /** Whether an offer survives `rented <op> target`; operators other than eq, neq, in and notin keep nothing. */
  function Keeps(row: Dict<string, Json>, op: string, target: Json): Result<bool, Exc> {
    var rented := RentedOf(row);
    if op == "eq" then Ok(PyEq(rented, target))
    else if op == "neq" then Ok(!PyEq(rented, target))
    else if op == "in" || op == "notin" then
      match PyIn(rented, target)
      case Err(msg) => Err(TypeError(msg))
      case Ok(b) => Ok(if op == "in" then b else !b)
    else Ok(false)
  }

  /** The elements a decision keeps, in their original order; the first failing decision is the result. */
  function FilterOk<T>(xs: seq<T>, keep: T -> Result<bool, Exc>): (r: Result<seq<T>, Exc>)
    ensures r.Ok? ==> |r.value| <= |xs|
    ensures r.Ok? <==> forall i :: 0 <= i < |xs| ==> keep(xs[i]).Ok?
  {
    if |xs| == 0 then Ok([])
    else
      match keep(xs[0])
      case Err(e) => Err(e)
      case Ok(k) =>
        match FilterOk(xs[1..], keep)
        case Err(e) => Err(e)
        case Ok(rest) =>
          assert forall i :: 1 <= i < |xs| ==> xs[i] == xs[1..][i - 1];
          Ok(if k then [xs[0]] + rest else rest)
  }

  /** An element is kept exactly when it is one of the elements and passes. */
  lemma {:induction false} FilterOkMembers<T>(xs: seq<T>, keep: T -> Result<bool, Exc>, x: T)
    requires FilterOk(xs, keep).Ok?
    ensures x in FilterOk(xs, keep).value <==> x in xs && keep(x) == Ok(true)
    decreases |xs|
  {
    if |xs| > 0 {
      FilterOkMembers(xs[1..], keep, x);
      assert x in xs <==> x == xs[0] || x in xs[1..];
    }
  }

  /** Filtering a concatenation filters each part: nothing is reordered. */
  lemma {:induction false} FilterOkConcat<T>(a: seq<T>, b: seq<T>, keep: T -> Result<bool, Exc>)
    requires FilterOk(a, keep).Ok? && FilterOk(b, keep).Ok?
    ensures FilterOk(a + b, keep) == Ok(FilterOk(a, keep).value + FilterOk(b, keep).value)
    decreases |a|
  {
    var rb := FilterOk(b, keep).value;
    if |a| == 0 {
      assert a + b == b;
      assert [] + rb == rb;
    } else {
      var head := if keep(a[0]).value then [a[0]] else [];
      var ra := FilterOk(a[1..], keep).value;
      assert (a + b)[0] == a[0] && (a + b)[1..] == a[1..] + b;
      FilterOkConcat(a[1..], b, keep);
      assert head + (ra + rb) == (head + ra) + rb;
    }
  }

  /** The offers that pass `rented <op> target`, in their original order. */
  function KeepRows(rows: seq<Dict<string, Json>>, op: string, target: Json): Result<seq<Dict<string, Json>>, Exc> {
    FilterOk(rows, row => Keeps(row, op, target))
  }

  /** A decision that keeps nothing leaves nothing. */
  lemma {:induction false} FilterOkNone<T>(xs: seq<T>, keep: T -> Result<bool, Exc>)
    requires forall x :: keep(x) == Ok(false)
    ensures FilterOk(xs, keep) == Ok([])
    decreases |xs|
  {
    if |xs| > 0 {
      FilterOkNone(xs[1..], keep);
    }
  }

  /** A `rented` operator other than eq, neq, in and notin keeps no offer at all. */
  lemma OtherOperatorKeepsNothing(rows: seq<Dict<string, Json>>, op: string, target: Json)
    requires op != "eq" && op != "neq" && op != "in" && op != "notin"
    ensures KeepRows(rows, op, target) == Ok([])
  {
    FilterOkNone(rows, row => Keeps(row, op, target));
  }

  /** The `rented` post-filter: by the first operator of the query's `rented` entry, if there is one. */
  function RentedFilter(body: Dict<string, Json>, rows: seq<Dict<string, Json>>): (r: Result<seq<Dict<string, Json>>, Exc>)
    ensures !HasKey(body, "rented") ==> r == Ok(rows)
  {
    match Get(body, "rented")
    case None => Ok(rows)
    case Some(fq) =>
      if !fq.JObj? then Err(AttributeError("object has no attribute 'keys'"))
      else if |fq.fields| == 0 then Err(IndexError("list index out of range"))
      else KeepRows(rows, fq.fields[0].0, fq.fields[0].1)
  }

  /** With the default filter, only offers that are not rented come back, in order. */
  lemma DefaultKeepsUnrented(rows: seq<Dict<string, Json>>)
    ensures var r := RentedFilter(FilterJson(DefaultFilter), rows);
            r.Ok? && forall x :: x in r.value <==> x in rows && PyEq(RentedOf(x), JBool(false))
  {
    var body := FilterJson(DefaultFilter);
    assert body[3] == ("rented", JObj([("eq", JBool(false))]));
    assert Get(body, "rented") == Some(JObj([("eq", JBool(false))]));
    var keep := row => Keeps(row, "eq", JBool(false));
    forall x ensures x in FilterOk(rows, keep).value <==> x in rows && keep(x) == Ok(true) {
      FilterOkMembers(rows, keep, x);
    }
  }

  /** A filter compiled from a good base always has a usable `rented` entry: the post-filter cannot fail on its shape. */
  lemma RentedEntryUsable(f: Filter, args: SearchArgs, alias: map<string, string>)
    requires GoodFilter(f)
    ensures var fq := Get(Body(f, args, alias), "rented");
            fq.Some? ==> fq.value.JObj? && |fq.value.fields| > 0 && IsOpName(fq.value.fields[0].0)
  {
    var body := Body(f, args, alias);
    assert !Reserved("rented");
    match Get(f, "rented")
    case None =>
    case Some(ops) =>
      assert ("rented", ops) in f;
      assert GoodOps(ops);
      assert ops[0] in ops;
      FilterJsonGet(f, "rented");
  }

  lemma {:induction false} FilterJsonGet(f: Filter, k: string)
    ensures Get(FilterJson(f), k) == match Get(f, k) case None => None case Some(ops) => Some(JObj(ops))
    decreases |f|
  {
    if |f| > 0 {
      FilterJsonGet(f[1..], k);
      assert FilterJson(f)[1..] == FilterJson(f[1..]);
    }
  }
}

=== FILE: ssh_keys.dfy ===
/**
 * `get_ssh_key`: the public key given on the command line, either as the
 * key text or as the path of a file holding it, checked for being a public
 * key before it is sent.
 */
module SshKeys {
  import opened Wrappers
  import opened PyStr
  import opened PyExc

  /** The first sentence of the message shown for a private key. */
  const PrivateKeyMessage := "Woah, hold on there, partner! That's a *private* SSH key.  You need to give the *public* one."

  /** The message shown for text that does not look like a public key; it quotes the text. */
  function NotPublicKeyMessage(key: string): string {
    "Are you sure that's an SSH public key? What you passed me was: " + key
  }

  /**
   * The key text: the contents of the file when the argument names one,
   * otherwise the argument itself. `readFile` stands for `os.path.exists`
   * followed by reading the file, `None` meaning there is no such path.
   */
  function KeyText(arg: string, readFile: string -> Option<string>): (key: string)
    ensures readFile(arg).None? ==> key == arg
    ensures readFile(arg).Some? ==> key == readFile(arg).value
  {
    match readFile(arg)
    case Some(contents) => contents
    case None => arg
  }

  /** `ssh_key.lower().startswith('ssh')` */
  predicate LooksPublic(key: string) {
    StartsWith(Lower(key), "ssh")
  }

  /**
   * `get_ssh_key`: the key text is rejected with ValueError when it holds
   * `PRIVATE KEY` anywhere, which is checked first, or when it does not
   * start with `ssh` in any letter case; otherwise it is returned unchanged.
   */
  function GetSshKey(arg: string, readFile: string -> Option<string>): (r: Result<string, Exc>)
    ensures var key := KeyText(arg, readFile);
            r.Ok? <==> !Contains(key, "PRIVATE KEY") && LooksPublic(key)
    ensures r.Ok? ==> r.value == KeyText(arg, readFile)
    ensures Contains(KeyText(arg, readFile), "PRIVATE KEY") ==> r == Err(ValueError(PrivateKeyMessage))
    ensures r.Err? ==> r.error.ValueError?
  {
    var key := KeyText(arg, readFile);
    if Contains(key, "PRIVATE KEY") then Err(ValueError(PrivateKeyMessage))
    else if !LooksPublic(key) then Err(ValueError(NotPublicKeyMessage(key)))
    else Ok(key)
  }

  /** The prefix test ignores letter case: `ssh`, `SSH`, `Ssh` and the rest all pass, and nothing else does. */
  lemma LooksPublicIff(key: string)
    ensures LooksPublic(key) <==>
              |key| >= 3 && key[0] in {'s', 'S'} && key[1] in {'s', 'S'} && key[2] in {'h', 'H'}
  {
    if |key| >= 3 {
      var low := Lower(key);
      assert low[..3] == [LowerChar(key[0]), LowerChar(key[1]), LowerChar(key[2])];
    }
  }

  /** Text holding a private-key marker anywhere is refused as a private key, whatever it starts with. */
  lemma PrivateKeyRefused(before: string, after: string)
    ensures GetSshKey(before + "PRIVATE KEY" + after, _ => None) == Err(ValueError(PrivateKeyMessage))
  {
    var key := before + "PRIVATE KEY" + after;
    assert key[|before|..|before| + 11] == "PRIVATE KEY";
    ContainsAt(key, "PRIVATE KEY", |before|);
  }

  /** An `ssh-` key with no private-key marker is accepted as it was given. */
  lemma PublicKeyAccepted(body: string)
    requires !Contains("ssh-" + body, "PRIVATE KEY")
    ensures GetSshKey("ssh-" + body, _ => None) == Ok("ssh-" + body)
  {
    LooksPublicIff("ssh-" + body);
  }

  /** Only the file's contents matter when the argument names a file: the path itself is never checked. */
  lemma FileContentsChecked(arg: string, readFile: string -> Option<string>)
    requires readFile(arg).Some?
    ensures GetSshKey(arg, readFile) == GetSshKey(readFile(arg).value, _ => None)
  {
  }

  /** A key that was accepted is accepted again, unchanged, when passed as text. */
  lemma AcceptedKeyStable(arg: string, readFile: string -> Option<string>)
    requires GetSshKey(arg, readFile).Ok?
    ensures var key := GetSshKey(arg, readFile).value;
            GetSshKey(key, _ => None) == Ok(key)
  {
  }
}

=== FILE: validators.dfy ===
/**
 * Argument validators: string stripping of parsed JSON, cron-style day and
 * hour values, schedule frequency consistency, the quote-aware splitter and
 * the docker-option parser for `--env`, and the volume and portal-config
 * checks.
 */
module Validators {
  import opened Wrappers
  import opened PyStr
  import opened PyDict
  import opened PyExc
  import opened Json
  import PathRegex

  // ----- strip_strings -----

  /** `strip_strings`: strip every string inside nested dicts and lists; everything else is returned as is. */
  function StripStrings(j: Json): (r: Json)
    ensures j.JStr? <==> r.JStr?
    ensures j.JList? <==> r.JList?
    ensures j.JObj? <==> r.JObj?
    ensures !j.JStr? && !j.JList? && !j.JObj? ==> r == j
    ensures j.JList? ==> |r.items| == |j.items|
    ensures j.JObj? ==> Keys(r.fields) == Keys(j.fields)
    decreases j
  {
    match j
    case JStr(s) => JStr(Strip(s, Whitespace))
    case JList(xs) => JList(seq(|xs|, i requires 0 <= i < |xs| => StripStrings(xs[i])))
    case JObj(fs) =>
      JObj(seq(|fs|, i requires 0 <= i < |fs| =>
        assert fs[i] in fs;
        (fs[i].0, StripStrings(fs[i].1))))
    case _ => j
  }

  /** No string anywhere inside `j` has surrounding whitespace. */
  predicate Stripped(j: Json)
    decreases j
  {
    match j
    case JStr(s) => Strip(s, Whitespace) == s
    case JList(xs) => forall i :: 0 <= i < |xs| ==> Stripped(xs[i])
    case JObj(fs) => forall i :: 0 <= i < |fs| ==> (assert fs[i] in fs; Stripped(fs[i].1))
    case _ => true
  }

  /** The result of `strip_strings` has nothing left to strip. */
  lemma {:induction false} StripStringsStripped(j: Json)
    ensures Stripped(StripStrings(j))
    decreases j
  {
    match j
    case JStr(s) => StripIdempotent(s, Whitespace);
    case JList(xs) =>
      forall i | 0 <= i < |xs| ensures Stripped(StripStrings(j).items[i]) {
        StripStringsStripped(xs[i]);
      }
    case JObj(fs) =>
      forall i | 0 <= i < |fs| ensures Stripped(StripStrings(j).fields[i].1) {
        assert fs[i] in fs;
        StripStringsStripped(fs[i].1);
      }
    case _ =>
  }

  /** A value with nothing to strip is left exactly as it is. */
  lemma {:induction false} StrippedFixed(j: Json)
    requires Stripped(j)
    ensures StripStrings(j) == j
    decreases j
  {
    match j
    case JStr(s) =>
    case JList(xs) =>
      forall i | 0 <= i < |xs| ensures StripStrings(j).items[i] == xs[i] {
        StrippedFixed(xs[i]);
      }
    case JObj(fs) =>
      forall i | 0 <= i < |fs| ensures StripStrings(j).fields[i] == fs[i] {
        assert fs[i] in fs;
        StrippedFixed(fs[i].1);
      }
    case _ =>
  }

  /** `strip_strings` is idempotent. */
  lemma StripStringsIdempotent(j: Json)
    ensures StripStrings(StripStrings(j)) == StripStrings(j)
  {
    StripStringsStripped(j);
    StrippedFixed(StripStrings(j));
  }

  // ----- cron-style day and hour -----

  const DayMsg: string := "Day must be 0-6 (0=Sunday) or '*' for every day."
  const HourMsg: string := "Hour must be 0-23 or '*' for every hour."

  /**
   * The shared shape of `parse_day_cron_style` and `parse_hour_cron_style`:
   * after stripping, `*` means every one, an integer in `0..max` is itself,
   * and anything else is an ArgumentTypeError.
   */
  function ParseCron(value: string, max: nat, msg: string): (r: Result<Option<int>, Exc>)
    ensures r == Ok(None) <==> Strip(value, Whitespace) == "*"
    ensures r.Ok? && r.value.Some? <==>
              Strip(value, Whitespace) != "*" && ParseInt(Strip(value, Whitespace)).Some?
              && 0 <= ParseInt(Strip(value, Whitespace)).value <= max
    ensures r.Ok? && r.value.Some? ==> r.value.value == ParseInt(Strip(value, Whitespace)).value
    ensures r.Err? ==> r.error == ArgumentTypeError(msg)
  {
    var v := Strip(value, Whitespace);
    if v == "*" then Ok(None)
    else
      match ParseInt(v)
      case Some(n) => if 0 <= n <= max then Ok(Some(n)) else Err(ArgumentTypeError(msg))
      case None => Err(ArgumentTypeError(msg))
  }

  /** `parse_day_cron_style`: 0..6 with 0 = Sunday, or `*`. */
  function ParseDayCron(value: string): (r: Result<Option<int>, Exc>)
    ensures r.Ok? && r.value.Some? ==> 0 <= r.value.value <= 6
    ensures r.Err? ==> r.error == ArgumentTypeError(DayMsg)
  {
    ParseCron(value, 6, DayMsg)
  }

  /** `parse_hour_cron_style`: 0..23, or `*`. */
  function ParseHourCron(value: string): (r: Result<Option<int>, Exc>)
    ensures r.Ok? && r.value.Some? ==> 0 <= r.value.value <= 23
    ensures r.Err? ==> r.error == ArgumentTypeError(HourMsg)
  {
    ParseCron(value, 23, HourMsg)
  }

  /** Every value in range, written as `str(n)`, parses back to itself. */
  lemma CronRoundTrip(n: int, max: nat, msg: string)
    requires 0 <= n <= max
    ensures ParseCron(ShowInt(n), max, msg) == Ok(Some(n))
  {
    var s := ShowInt(n);
    assert s == ShowNat(n);
    assert !IsSpace(s[0]) && !IsSpace(s[|s| - 1]);
    StripUnchanged(s, Whitespace);
    ParseShowInt(n);
    assert s != "*" by { assert s[0] != '*'; }
  }

  /** Integers outside the range are refused. */
  lemma CronOutOfRange(n: int, max: nat, msg: string)
    requires n < 0 || n > max
    ensures ParseCron(ShowInt(n), max, msg) == Err(ArgumentTypeError(msg))
  {
    var s := ShowInt(n);
    assert s[0] != '*' && |s| > 0 by {
      if n < 0 { assert s[0] == '-'; } else { assert s == ShowNat(n); }
    }
    assert !IsSpace(s[0]) && !IsSpace(s[|s| - 1]) by {
      if n < 0 { assert s[|s| - 1] == ShowNat(-n)[|ShowNat(-n)| - 1]; } else { assert s == ShowNat(n); }
    }
    StripUnchanged(s, Whitespace);
    ParseShowInt(n);
  }

  // ----- validate_frequency_values -----

  /** What each schedule frequency requires of the day and hour; other frequencies accept anything. */
  predicate FrequencyConsistent(day: Option<int>, hour: Option<int>, frequency: string) {
    && (frequency == "HOURLY" ==> day.None? && hour.None?)
    && (frequency == "DAILY" ==> day.None? && hour.Some?)
    && (frequency == "WEEKLY" ==> day.Some? && hour.Some?)
  }

  /** The message `raise_frequency_error` exits with. */
  function FrequencyMsg(frequency: string): string {
    if frequency == "HOURLY" then "For HOURLY jobs, day and hour must both be \"*\"."
    else if frequency == "DAILY" then "For DAILY jobs, day must be \"*\" and hour must have a value between 0-23."
    else if frequency == "WEEKLY" then "For WEEKLY jobs, day must have a value between 0-6 and hour must have a value between 0-23."
    else ""
  }

  /** `validate_frequency_values`: passes, or exits with the frequency's message. */
  function ValidateFrequency(day: Option<int>, hour: Option<int>, frequency: string): (r: Result<(), Exc>)
    ensures r.Ok? <==> FrequencyConsistent(day, hour, frequency)
    ensures r.Err? ==> r.error == SystemExit(Message(FrequencyMsg(frequency))) && |FrequencyMsg(frequency)| > 0
  {
    var fail := Err(SystemExit(Message(FrequencyMsg(frequency))));
    if frequency == "HOURLY" && !(day.None? && hour.None?) then fail
    else if frequency == "DAILY" && !(day.None? && hour.Some?) then fail
    else if frequency == "WEEKLY" && !(day.Some? && hour.Some?) then fail
    else Ok(())
  }

  /** A successful cron parse is `None` exactly for `*`. */
  lemma CronNoneIffStar(value: string, max: nat, msg: string, v: Option<int>)
    requires ParseCron(value, max, msg) == Ok(v)
    ensures v.None? <==> Strip(value, Whitespace) == "*"
  {
  }

  /** The values the cron parsers produce for `*` and for a number are what each frequency expects. */
  lemma CronFrequencies(d: string, h: string, day: Option<int>, hour: Option<int>)
    requires ParseDayCron(d) == Ok(day) && ParseHourCron(h) == Ok(hour)
    ensures ValidateFrequency(day, hour, "HOURLY").Ok? <==> Strip(d, Whitespace) == "*" && Strip(h, Whitespace) == "*"
    ensures ValidateFrequency(day, hour, "DAILY").Ok? <==> Strip(d, Whitespace) == "*" && Strip(h, Whitespace) != "*"
    ensures ValidateFrequency(day, hour, "WEEKLY").Ok? <==> Strip(d, Whitespace) != "*" && Strip(h, Whitespace) != "*"
  {
    assert day.None? <==> Strip(d, Whitespace) == "*" by {
      CronNoneIffStar(d, 6, DayMsg, day);
    }
    assert hour.None? <==> Strip(h, Whitespace) == "*" by {
      CronNoneIffStar(h, 23, HourMsg, hour);
    }
    FrequencyCases(day, hour);
  }

  lemma FrequencyCases(day: Option<int>, hour: Option<int>)
    ensures ValidateFrequency(day, hour, "HOURLY").Ok? <==> day.None? && hour.None?
    ensures ValidateFrequency(day, hour, "DAILY").Ok? <==> day.None? && hour.Some?
    ensures ValidateFrequency(day, hour, "WEEKLY").Ok? <==> day.Some? && hour.Some?
  {
  }

  // ----- smart_split -----

  /** Whether the scan is inside double quotes and inside single quotes. */
  datatype Quotes = Quotes(double: bool, single: bool) {
    predicate Inside() { double || single }
  }

  /** Whether `c` splits the text when read in quote state `q`. */
  predicate Cuts(c: char, sep: char, q: Quotes) {
    c == sep && !q.Inside()
  }

  /** The quote state after reading one more character: a quote that does not split toggles its own state. */
  function NextQuotes(c: char, sep: char, q: Quotes): Quotes {
    if Cuts(c, sep, q) then q
    else if c == '\'' then q.(single := !q.single)
    else if c == '"' then q.(double := !q.double)
    else q
  }

  /** The quote state after reading all of `s`, starting outside quotes. */
  function QuotesAfter(s: string, sep: char): Quotes
    decreases |s|
  {
    if |s| == 0 then Quotes(false, false)
    else NextQuotes(s[|s| - 1], sep, QuotesAfter(s[..|s| - 1], sep))
  }

  /** Number of characters of `s` that split it. */
  function CutCount(s: string, sep: char): nat
    decreases |s|
  {
    if |s| == 0 then 0
    else
      var p := s[..|s| - 1];
      CutCount(p, sep) + if Cuts(s[|s| - 1], sep, QuotesAfter(p, sep)) then 1 else 0
  }

  /**
   * `smart_split(s, sep)`: the character loop, read one character at a time;
   * the last part is the one being built.
   */
  function SmartSplit(s: string, sep: char): (parts: seq<string>)
    ensures |parts| == CutCount(s, sep) + 1
    decreases |s|
  {
    if |s| == 0 then [""]
    else
      var pre := s[..|s| - 1];
      var c := s[|s| - 1];
      var ps := SmartSplit(pre, sep);
      if Cuts(c, sep, QuotesAfter(pre, sep)) then ps + [""]
      else ps[..|ps| - 1] + [ps[|ps| - 1] + [c]]
  }

  /** Growing the last part grows the join by the same characters. */
  lemma JoinGrowLast(ps: seq<string>, sep: string, c: char)
    requires |ps| >= 1
    ensures Join(ps[..|ps| - 1] + [ps[|ps| - 1] + [c]], sep) == Join(ps, sep) + [c]
  {
    var init := ps[..|ps| - 1];
    var last := ps[|ps| - 1];
    if |init| == 0 {
      assert ps == [last];
    } else {
      assert ps == init + [last];
      JoinSnoc(init, sep, last);
      JoinSnoc(init, sep, last + [c]);
    }
  }

  /** Joining the parts with the separator gives the text back. */
  lemma {:induction false} SmartSplitJoin(s: string, sep: char)
    ensures Join(SmartSplit(s, sep), [sep]) == s
    decreases |s|
  {
    if |s| > 0 {
      var pre := s[..|s| - 1];
      var c := s[|s| - 1];
      var ps := SmartSplit(pre, sep);
      SmartSplitJoin(pre, sep);
      if Cuts(c, sep, QuotesAfter(pre, sep)) {
        JoinSnoc(ps, [sep], "");
      } else {
        JoinGrowLast(ps, [sep], c);
      }
      assert s == pre + [c];
    }
  }

  /** Without quote characters nothing is ever quoted. */
  lemma {:induction false} UnquotedOutside(s: string, sep: char)
    requires '\'' !in s && '"' !in s
    ensures QuotesAfter(s, sep) == Quotes(false, false)
    decreases |s|
  {
    if |s| > 0 {
      var pre := s[..|s| - 1];
      assert forall c :: c in pre ==> c in s;
      UnquotedOutside(pre, sep);
    }
  }

  /** Without quote characters no part holds the separator. */
  lemma {:induction false} UnquotedPartsPlain(s: string, sep: char)
    requires '\'' !in s && '"' !in s
    ensures forall i :: 0 <= i < |SmartSplit(s, sep)| ==> sep !in SmartSplit(s, sep)[i]
    decreases |s|
  {
    if |s| > 0 {
      var pre := s[..|s| - 1];
      var c := s[|s| - 1];
      assert forall x :: x in pre ==> x in s;
      UnquotedPartsPlain(pre, sep);
      UnquotedOutside(pre, sep);
      var ps := SmartSplit(pre, sep);
      if !Cuts(c, sep, QuotesAfter(pre, sep)) {
        assert c != sep;
        var parts := SmartSplit(s, sep);
        forall i | 0 <= i < |parts| ensures sep !in parts[i] {
          if i < |ps| - 1 {
            assert parts[i] == ps[i];
          } else {
            assert parts[i] == ps[|ps| - 1] + [c];
          }
        }
      }
    }
  }

  /** Without quote characters `smart_split` is `str.split`. */
  lemma SmartSplitUnquoted(s: string, sep: char)
    requires '\'' !in s && '"' !in s
    ensures SmartSplit(s, sep) == Split(s, sep)
  {
    UnquotedPartsPlain(s, sep);
    SmartSplitJoin(s, sep);
    SplitJoin(SmartSplit(s, sep), sep);
  }

  /** Inside an opening single quote no character splits, separators included. */
  lemma {:induction false} InsideSingleQuotes(y: string, sep: char)
    requires '\'' !in y && '"' !in y && sep != '\'' && sep != '"'
    ensures QuotesAfter(['\''] + y, sep) == Quotes(false, true)
    ensures SmartSplit(['\''] + y, sep) == [['\''] + y]
    decreases |y|
  {
    var s := ['\''] + y;
    if |y| == 0 {
      assert s == ['\''] && s[..0] == [] && s[0] == '\'';
      assert QuotesAfter([], sep) == Quotes(false, false);
      assert SmartSplit([], sep) == [""];
      assert !Cuts('\'', sep, Quotes(false, false));
      assert ""[..0] == [] && "" + ['\''] == ['\''];
      assert SmartSplit(s, sep) == [""][..0] + [[""][0] + ['\'']];
    } else {
      var y' := y[..|y| - 1];
      assert forall c :: c in y' ==> c in y;
      InsideSingleQuotes(y', sep);
      assert s[..|s| - 1] == ['\''] + y';
      assert s[|s| - 1] == y[|y| - 1];
      assert s == (['\''] + y') + [y[|y| - 1]];
    }
  }

  /** A single-quoted piece stays one part even when it holds separators. */
  lemma QuotedKeepsSeparator(x: string, sep: char)
    requires '\'' !in x && '"' !in x && sep != '\'' && sep != '"'
    ensures SmartSplit(['\''] + x + ['\''], sep) == [['\''] + x + ['\'']]
  {
    InsideSingleQuotes(x, sep);
    var s := ['\''] + x + ['\''];
    assert s[..|s| - 1] == ['\''] + x;
  }

  // ----- parse_env -----

  /** The options `parse_env` recognises; each consumes the next token. */
  const EnvFlags: set<string> := {"-e", "-p", "-h", "-v", "-n"}

  predicate PortChar(c: char) {
    IsDigit(c) || c in {':', 't', 'c', 'p', '/', 'u', 'd'}
  }

  predicate VolumeChar(c: char) {
    'a' <= c <= 'z' || 'A' <= c <= 'Z' || IsDigit(c) || c in {':', '.', '/', '_'}
  }

  predicate NameChar(c: char) {
    'a' <= c <= 'z' || IsDigit(c) || c == '-'
  }

  /** `set(e).issubset(...)`: every character passes; true of the empty token. */
  predicate AllPort(s: string) { forall i :: 0 <= i < |s| ==> PortChar(s[i]) }
  predicate AllVolume(s: string) { forall i :: 0 <= i < |s| ==> VolumeChar(s[i]) }
  predicate AllName(s: string) { forall i :: 0 <= i < |s| ==> NameChar(s[i]) }

  /** The characters `-e` values lose at both ends. */
  const QuoteChars: CharClass := Chars({'\'', '"'})

  /**
   * What one option and the token after it add to the result. A rejected
   * value adds nothing. `-e K=V` maps K to everything after the first `=`,
   * quotes stripped.
   */
  function EnvOption(flag: string, e: string, result: Dict<string, string>): (r: Dict<string, string>)
    requires flag in EnvFlags
    ensures flag == "-p" ==> r == if AllPort(e) then Set(result, "-p " + e, "1") else result
    ensures flag == "-v" ==> r == if AllVolume(e) then Set(result, "-v " + e, "1") else result
    ensures flag == "-n" ==> r == if AllName(e) then Set(result, "-n " + e, "1") else result
    ensures flag == "-h" ==> r == Set(result, "-h", e)
    ensures flag == "-e" && '=' !in e ==> r == result
    ensures flag == "-e" && '=' in e ==>
              var i := IndexOf(e, '=');
              r == Set(result, e[..i], Strip(e[i + 1..], QuoteChars))
  {
    if flag == "-p" then
      if AllPort(e) then Set(result, "-p " + e, "1") else result
    else if flag == "-e" then
      var kv := Split(e, '=');
      if |kv| >= 2 then
        var v := if |kv| > 2 then Join(kv[1..], "=") else kv[1];
        EnvAfterFirstEquals(e);
        Set(result, kv[0], Strip(v, QuoteChars))
      else
        SplitCount(e, '=');
        CountAbsentIff(e, '=');
        result
    else if flag == "-v" then
      if AllVolume(e) then Set(result, "-v " + e, "1") else result
    else if flag == "-n" then
      if AllName(e) then Set(result, "-n " + e, "1") else result
    else
      Set(result, flag, e)
  }

  /** A character occurs exactly when it is counted. */
  lemma CountAbsentIff(s: string, c: char)
    ensures c !in s <==> Count(s, c) == 0
  {
    if c in s {
      var i := IndexOf(s, c);
      CountPrefix(s, c, i);
      assert s[i..][0] == c;
    } else {
      CountAbsent(s, c);
    }
  }

  /** `e.split('=')`: its first piece is the text before the first `=`, and the others join back to the text after it. */
  lemma EnvAfterFirstEquals(e: string)
    requires |Split(e, '=')| >= 2
    ensures '=' in e
    ensures var kv, i := Split(e, '='), IndexOf(e, '=');
            && kv[0] == e[..i]
            && (if |kv| > 2 then Join(kv[1..], "=") else kv[1]) == e[i + 1..]
  {
    var kv := Split(e, '=');
    assert '=' in e;
    var i := IndexOf(e, '=');
    var rest := e[i + 1..];
    assert kv == [e[..i]] + Split(rest, '=');
    assert kv[1..] == Split(rest, '=');
    JoinSplit(rest, '=');
  }

  /** The loop of `parse_env` over the tokens, with the pending option. */
  function EnvTokens(tokens: seq<string>, prev: Option<string>, result: Dict<string, string>): Dict<string, string>
    requires prev.Some? ==> prev.value in EnvFlags
    decreases |tokens|
  {
    if |tokens| == 0 then result
    else
      var e := tokens[0];
      if prev.None? then
        EnvTokens(tokens[1..], if e in EnvFlags then Some(e) else None, result)
      else
        EnvTokens(tokens[1..], None, EnvOption(prev.value, e, result))
  }

  /** `parse_env`: `None` gives `{}`; otherwise the space-separated tokens, quote-aware, are read in order. */
  function ParseEnv(envs: Option<string>): (r: Dict<string, string>)
    ensures envs.None? ==> r == []
  {
    match envs
    case None => []
    case Some(s) => EnvTokens(SmartSplit(s, ' '), None, [])
  }

  /** A token that is not an option, read while no option is pending, is skipped. */
  lemma EnvStray(e: string, rest: seq<string>, result: Dict<string, string>)
    requires e !in EnvFlags
    ensures EnvTokens([e] + rest, None, result) == EnvTokens(rest, None, result)
  {
    assert ([e] + rest)[1..] == rest;
  }

  /** An option consumes exactly the next token, whether or not it accepts it. */
  lemma EnvPair(flag: string, e: string, rest: seq<string>, result: Dict<string, string>)
    requires flag in EnvFlags
    ensures EnvTokens([flag, e] + rest, None, result) == EnvTokens(rest, None, EnvOption(flag, e, result))
  {
    var ts := [flag, e] + rest;
    assert ts[0] == flag && ts[1..] == [e] + rest;
    assert ([e] + rest)[0] == e && ([e] + rest)[1..] == rest;
  }

  /** `--env "-e K=V"` for a plain name and value gives exactly that variable. */
  lemma EnvSingleAssignment(k: string, v: string)
    requires '=' !in k
    requires forall c :: c in k + v ==> c != ' ' && c != '\'' && c != '"'
    ensures ParseEnv(Some("-e " + k + "=" + v)) == [(k, v)]
  {
    var kv := k + "=" + v;
    AssignmentTokens(k, v);
    assert ["-e", kv] == ["-e", kv] + [];
    EnvPair("-e", kv, [], []);
    assert forall c :: c in v ==> c in k + v;
    AssignmentOption(k, v);
  }

  /** The option text `-e K=V` is read as the two tokens `-e` and `K=V`. */
  lemma AssignmentTokens(k: string, v: string)
    requires forall c :: c in k + v ==> c != ' ' && c != '\'' && c != '"'
    ensures SmartSplit("-e " + k + "=" + v, ' ') == ["-e", k + "=" + v]
  {
    var kv := k + "=" + v;
    var s := "-e " + k + "=" + v;
    assert s == Join(["-e", kv], " ") && '\'' !in s && '"' !in s && ' ' !in kv by {
      AssignmentText(k, v);
    }
    SmartSplitUnquoted(s, ' ');
    SplitJoin(["-e", kv], ' ');
  }

  lemma AssignmentText(k: string, v: string)
    requires forall c :: c in k + v ==> c != ' ' && c != '\'' && c != '"'
    ensures var kv := k + "=" + v;
            var s := "-e " + k + "=" + v;
            s == Join(["-e", kv], " ") && '\'' !in s && '"' !in s && ' ' !in kv
  {
    var kv := k + "=" + v;
    var s := "-e " + kv;
    assert s == "-e " + k + "=" + v;
    JoinCons("-e", [kv], " ");
    assert forall i :: 0 <= i < |kv| ==> kv[i] in k + v || kv[i] == '=';
    assert forall i :: 3 <= i < |s| ==> s[i] == kv[i - 3];
  }

  /** `-e K=V` maps K to V when V has no quotes to strip. */
  lemma AssignmentOption(k: string, v: string)
    requires '=' !in k
    requires forall c :: c in v ==> c != '\'' && c != '"'
    ensures EnvOption("-e", k + "=" + v, []) == [(k, v)]
  {
    var kv := k + "=" + v;
    IndexOfConcat(k, '=', v);
    assert kv[..|k|] == k && kv[|k| + 1..] == v;
    assert |v| == 0 || (v[0] in v && v[|v| - 1] in v);
    StripUnchanged(v, QuoteChars);
  }

  // ----- validate_volume_params -----

  /** The volume options of `create instance`; each is `None` when not given. */
  datatype VolumeArgs = VolumeArgs(
    createVolume: Option<int>,
    linkVolume: Option<int>,
    volumeSize: Option<int>,
    mountPath: Option<string>,
    volumeLabel: Option<string>)

  /** Python truthiness of an optional int and an optional string. */
  predicate Given(o: Option<int>) { o.Some? && o.value != 0 }
  predicate GivenText(o: Option<string>) { o.Some? && |o.value| > 0 }

  const SizeWithoutCreateMsg: string :=
    "Error: --volume-size can only be used with --create-volume. Please specify a volume ask ID to create a new volume of that size."
  const MountRequiredMsg: string := "Error: --mount-path is required when creating or linking a volume."

  /** The size a created volume gets when `--volume-size` is not given. */
  const DefaultVolumeSize: int := 15

  /** When `validate_volume_params` accepts its arguments. */
  predicate VolumeArgsValid(a: VolumeArgs) {
    && (Given(a.volumeSize) ==> Given(a.createVolume))
    && (Given(a.createVolume) || Given(a.linkVolume) ==> GivenText(a.mountPath))
    && a.mountPath.Some? && PathRegex.PlainUnixPath(a.mountPath.value)
  }

  /**
   * `validate_volume_params`: the checks in order, then the `volume_info`
   * dict. A missing mount path that no option requires reaches the regex
   * and fails there with a TypeError.
   */
  function ValidateVolumeParams(a: VolumeArgs): (r: Result<Dict<string, Json>, Exc>)
    ensures r.Ok? <==> VolumeArgsValid(a)
    ensures Given(a.volumeSize) && !Given(a.createVolume) ==> r == Err(ArgumentTypeError(SizeWithoutCreateMsg))
    ensures r.Ok? ==> Get(r.value, "mount_path") == Some(JStr(a.mountPath.value))
    ensures r.Ok? ==> Get(r.value, "create_new") == Some(JBool(Given(a.createVolume)))
    ensures r.Ok? && Given(a.createVolume) ==> Get(r.value, "volume_id") == Some(JInt(a.createVolume.value))
    ensures r.Ok? && !Given(a.createVolume) ==> Get(r.value, "volume_id") == Some(if a.linkVolume.Some? then JInt(a.linkVolume.value) else JNull)
    ensures r.Ok? && Given(a.createVolume) ==>
              Get(r.value, "size") == Some(JInt(if Given(a.volumeSize) then a.volumeSize.value else DefaultVolumeSize))
    ensures r.Ok? && !Given(a.createVolume) ==> Get(r.value, "size").None?
    ensures r.Ok? ==> (Get(r.value, "name").Some? <==> GivenText(a.volumeLabel))
  {
    if Given(a.volumeSize) && !Given(a.createVolume) then Err(ArgumentTypeError(SizeWithoutCreateMsg))
    else if (Given(a.createVolume) || Given(a.linkVolume)) && !GivenText(a.mountPath) then Err(ArgumentTypeError(MountRequiredMsg))
    else if a.mountPath.None? then Err(TypeError("expected string or bytes-like object"))
    else
      var path := a.mountPath.value;
      PathRegex.MatchesUnixPathIff(path);
      if !PathRegex.MatchesUnixPath(path) then
        Err(ArgumentTypeError("Error: --mount-path '" + path + "' is not a valid Linux file path."))
      else
        Ok(VolumeInfo(a))
  }

  /** The `volume_info` dict of accepted arguments. */
  function VolumeInfo(a: VolumeArgs): (info: Dict<string, Json>)
    requires a.mountPath.Some?
    ensures Get(info, "mount_path") == Some(JStr(a.mountPath.value))
    ensures Get(info, "create_new") == Some(JBool(Given(a.createVolume)))
    ensures Given(a.createVolume) ==> Get(info, "volume_id") == Some(JInt(a.createVolume.value))
    ensures !Given(a.createVolume) ==> Get(info, "volume_id") == Some(if a.linkVolume.Some? then JInt(a.linkVolume.value) else JNull)
    ensures Given(a.volumeSize) ==> Get(info, "size") == Some(JInt(a.volumeSize.value))
    ensures !Given(a.volumeSize) && Given(a.createVolume) ==> Get(info, "size") == Some(JInt(DefaultVolumeSize))
    ensures !Given(a.volumeSize) && !Given(a.createVolume) ==> Get(info, "size").None?
    ensures Get(info, "name").Some? <==> GivenText(a.volumeLabel)
  {
    var base := VolumeBase(a);
    var named := WithLabel(base, a.volumeLabel);
    assert Get(named, "size").None? by {
      assert Get(named, "size") == Get(base, "size");
    }
    WithSize(named, a.volumeSize, Given(a.createVolume))
  }

  /** The three keys every `volume_info` has; a created volume's id wins over a linked one. */
  function VolumeBase(a: VolumeArgs): (b: Dict<string, Json>)
    requires a.mountPath.Some?
    ensures Get(b, "mount_path") == Some(JStr(a.mountPath.value))
    ensures Get(b, "create_new") == Some(JBool(Given(a.createVolume)))
    ensures Given(a.createVolume) ==> Get(b, "volume_id") == Some(JInt(a.createVolume.value))
    ensures !Given(a.createVolume) ==> Get(b, "volume_id") == Some(if a.linkVolume.Some? then JInt(a.linkVolume.value) else JNull)
    ensures Get(b, "size").None? && Get(b, "name").None?
  {
    var id := if Given(a.createVolume) then JInt(a.createVolume.value)
              else if a.linkVolume.Some? then JInt(a.linkVolume.value) else JNull;
    [("mount_path", JStr(a.mountPath.value)), ("create_new", JBool(Given(a.createVolume))), ("volume_id", id)]
  }

  /** `if args.volume_label: volume_info["name"] = args.volume_label` */
  function WithLabel(b: Dict<string, Json>, name: Option<string>): (r: Dict<string, Json>)
    ensures Get(r, "name").Some? <==> Get(b, "name").Some? || GivenText(name)
    ensures forall k :: k != "name" ==> Get(r, k) == Get(b, k)
  {
    if GivenText(name) then Set(b, "name", JStr(name.value)) else b
  }

  /** The size: the one given, else the default when creating, else none. */
  function WithSize(b: Dict<string, Json>, size: Option<int>, creating: bool): (r: Dict<string, Json>)
    ensures Given(size) ==> Get(r, "size") == Some(JInt(size.value))
    ensures !Given(size) && creating ==> Get(r, "size") == Some(JInt(DefaultVolumeSize))
    ensures !Given(size) && !creating ==> r == b
    ensures forall k :: k != "size" ==> Get(r, k) == Get(b, k)
  {
    if Given(size) then Set(b, "size", JInt(size.value))
    else if creating then Set(b, "size", JInt(DefaultVolumeSize))
    else b
  }

  // ----- validate_portal_config -----

  const NoPortalConfigMsg: string :=
    "Error: env variable PORTAL_CONFIG must contain at least one non-jupyter related config string if runtype is not jupyter"

  /** A `PORTAL_CONFIG` entry that mentions jupyter in any letter case. */
  predicate MentionsJupyter(entry: string) {
    Contains(Lower(entry), "jupyter")
  }

  /** The entries that do not mention jupyter, in their order. */
  function WithoutJupyter(entries: seq<string>): (r: seq<string>)
    ensures |r| <= |entries|
    ensures forall i :: 0 <= i < |r| ==> r[i] in entries && !MentionsJupyter(r[i])
    ensures forall e :: e in entries && !MentionsJupyter(e) ==> e in r
  {
    if |entries| == 0 then []
    else (if MentionsJupyter(entries[0]) then [] else [entries[0]]) + WithoutJupyter(entries[1..])
  }

  /** Entries that survive the filter survive it again unchanged. */
  lemma {:induction false} WithoutJupyterIdempotent(entries: seq<string>)
    ensures WithoutJupyter(WithoutJupyter(entries)) == WithoutJupyter(entries)
  {
    if |entries| > 0 {
      var e := entries[0];
      var rest := WithoutJupyter(entries[1..]);
      WithoutJupyterIdempotent(entries[1..]);
      if MentionsJupyter(e) {
        assert WithoutJupyter(entries) == rest;
      } else {
        assert WithoutJupyter(entries) == [e] + rest;
        assert ([e] + rest)[0] == e && ([e] + rest)[1..] == rest;
        assert WithoutJupyter([e] + rest) == [e] + WithoutJupyter(rest);
      }
    }
  }

  /** The filter drops everything exactly when every entry mentions jupyter. */
  lemma WithoutJupyterEmpty(entries: seq<string>)
    ensures |WithoutJupyter(entries)| == 0 <==> AllMentionJupyter(entries)
  {
    if |WithoutJupyter(entries)| == 0 {
      forall i | 0 <= i < |entries| ensures MentionsJupyter(entries[i]) {
        assert entries[i] in entries;
      }
    } else {
      var x := WithoutJupyter(entries)[0];
      assert x in entries && !MentionsJupyter(x);
    }
  }

  /** The new `PORTAL_CONFIG`: the entries without jupyter joined again, or a ValueError when none is left. */
  function FilterPortalConfig(config: string): (r: Result<string, Exc>)
    ensures r.Err? ==> r.error == ValueError(NoPortalConfigMsg)
  {
    var kept := WithoutJupyter(Split(config, '|'));
    if |kept| == 0 then Err(ValueError(NoPortalConfigMsg)) else Ok(Join(kept, "|"))
  }

  predicate AllMentionJupyter(entries: seq<string>) {
    forall i :: 0 <= i < |entries| ==> MentionsJupyter(entries[i])
  }

  /** The filter fails exactly when every entry mentions jupyter. */
  lemma FilterPortalConfigFails(config: string)
    ensures FilterPortalConfig(config).Err? <==> AllMentionJupyter(Split(config, '|'))
  {
    WithoutJupyterEmpty(Split(config, '|'));
  }

  /** The entries of the new config are the old entries without jupyter, in their order. */
  lemma FilterPortalConfigEntries(config: string)
    requires FilterPortalConfig(config).Ok?
    ensures Split(FilterPortalConfig(config).value, '|') == WithoutJupyter(Split(config, '|'))
  {
    var entries := Split(config, '|');
    var kept := WithoutJupyter(entries);
    assert forall i :: 0 <= i < |kept| ==> '|' !in kept[i] by {
      forall i | 0 <= i < |kept| ensures '|' !in kept[i] {
        var j :| 0 <= j < |entries| && entries[j] == kept[i];
      }
    }
    SplitJoin(kept, '|');
  }

  /** Filtering a filtered config changes nothing. */
  lemma FilterPortalConfigIdempotent(config: string)
    requires FilterPortalConfig(config).Ok?
    ensures FilterPortalConfig(FilterPortalConfig(config).value) == FilterPortalConfig(config)
  {
    FilterPortalConfigEntries(config);
    WithoutJupyterIdempotent(Split(config, '|'));
  }

  /**
   * `validate_portal_config` on the request's `runtype` and `env`: a
   * jupyter runtype leaves `env` alone; otherwise the `|`-separated
   * `PORTAL_CONFIG` loses its jupyter entries, and must keep at least one.
   */
  function ValidatePortalConfig(runtype: Option<string>, env: Dict<string, string>): (r: Result<Dict<string, string>, Exc>)
    ensures runtype.None? ==> r == Err(KeyError("runtype"))
    ensures runtype.Some? && Contains(runtype.value, "jupyter") ==> r == Ok(env)
    ensures runtype.Some? && !Contains(runtype.value, "jupyter") ==>
              match Get(env, "PORTAL_CONFIG")
              case None => r == Err(KeyError("PORTAL_CONFIG"))
              case Some(config) =>
                && (r.Err? <==> FilterPortalConfig(config).Err?)
                && (r.Ok? ==> Get(r.value, "PORTAL_CONFIG") == Some(FilterPortalConfig(config).value))
    ensures r.Ok? ==> forall k :: k != "PORTAL_CONFIG" ==> Get(r.value, k) == Get(env, k)
  {
    if runtype.None? then Err(KeyError("runtype"))
    else if Contains(runtype.value, "jupyter") then Ok(env)
    else
      match Get(env, "PORTAL_CONFIG")
      case None => Err(KeyError("PORTAL_CONFIG"))
      case Some(config) =>
        match FilterPortalConfig(config)
        case Err(e) => Err(e)
        case Ok(filtered) => Ok(Set(env, "PORTAL_CONFIG", filtered))
  }

  /** Checking the portal config a second time changes nothing. */
  lemma PortalConfigIdempotent(runtype: Option<string>, env: Dict<string, string>)
    requires ValidatePortalConfig(runtype, env).Ok?
    ensures ValidatePortalConfig(runtype, ValidatePortalConfig(runtype, env).value) == ValidatePortalConfig(runtype, env)
  {
    if !Contains(runtype.value, "jupyter") {
      var config := Get(env, "PORTAL_CONFIG").value;
      var filtered := FilterPortalConfig(config).value;
      var env' := Set(env, "PORTAL_CONFIG", filtered);
      assert ValidatePortalConfig(runtype, env) == Ok(env');
      FilterPortalConfigIdempotent(config);
      SetTwice(env, "PORTAL_CONFIG", filtered);
    }
  }
}

=== FILE: vast_url.dfy ===
/** `parse_vast_url` (vast_cli/query/parser.py): a Vast resource locator `instance_id:path`. */
module VastUrl {
  import opened Wrappers
  import opened PyStr
  import opened PyExc
  import opened PathRegex

  /** The instance part: absent, the text before the `:`, or a bare integer. */
  datatype InstanceRef = NoInstance | IdText(text: string) | IdNum(n: int)

  /**
   * A text with exactly one `:` splits there; more than one is an error.
   * Without a `:`, a text `int()` accepts names an instance and the path
   * becomes `/`; anything else is the path itself. Any path other than
   * `/` must match the Unix-path pattern.
   */
  function ParseVastUrl(url: string): (r: Result<(InstanceRef, string), Exc>)
    ensures Count(url, ':') > 1 ==> r.Err?
    ensures r.Err? ==> r.error.VRLException?
    ensures r.Ok? <==> SplitVrl(url).Ok? && (SplitVrl(url).value.1 == "/" || PlainUnixPath(SplitVrl(url).value.1))
    ensures r.Ok? ==> r.value.1 == "/" || PlainUnixPath(r.value.1)
    ensures r.Ok? && r.value.0.IdText? ==> url == r.value.0.text + ":" + r.value.1
    ensures r.Ok? && r.value.0.IdNum? ==> r.value.1 == "/" && ParseInt(url) == Some(r.value.0.n)
    ensures r.Ok? && r.value.0.NoInstance? ==> r.value.1 == url
  {
    match SplitVrl(url)
    case Err(e) => Err(e)
    case Ok(v) =>
      var (id, path) := v;
      MatchesUnixPathIff(path);
      if path != "/" && !MatchesUnixPath(path) then
        Err(VRLException("Path component: " + path + " of VRL is not a valid Unix style path."))
      else
        Ok((id, path))
  }

  /** The instance/path split, before the path check. */
  function SplitVrl(url: string): (r: Result<(InstanceRef, string), Exc>)
    ensures r.Err? <==> Count(url, ':') > 1
    ensures r.Err? ==> r.error.VRLException?
    ensures r.Ok? && r.value.0.IdText? ==> url == r.value.0.text + ":" + r.value.1
    ensures r.Ok? && r.value.0.IdNum? ==> r.value.1 == "/" && ParseInt(url) == Some(r.value.0.n)
    ensures r.Ok? && r.value.0.NoInstance? ==> r.value.1 == url
  {
    SplitCount(url, ':');
    if ':' in url then
      // `url.split(":", 2)` has exactly two parts when there is exactly one `:`
      var parts := Split(url, ':');
      JoinSplit(url, ':');
      if |parts| == 2 then
        assert Join(parts, ":") == parts[0] + ":" + parts[1] by {
          assert parts[1..] == [parts[1]];
        }
        Ok((IdText(parts[0]), parts[1]))
      else Err(VRLException("Invalid VRL (Vast resource locator)."))
    else
      CountAbsent(url, ':');
      match ParseInt(url)
      case Some(n) => Ok((IdNum(n), "/"))
      case None => Ok((NoInstance, url))
  }

  /** `id:path` with a colon-free id and a valid colon-free path parses back into its two parts. */
  lemma ParseVastUrlSplit(id: string, path: string)
    requires ':' !in id && ':' !in path
    requires path == "/" || PlainUnixPath(path)
    ensures ParseVastUrl(id + ":" + path) == Ok((IdText(id), path))
  {
    var url := id + ":" + path;
    assert [id, path][1..] == [path];
    assert Join([id, path], ":") == url;
    SplitJoin([id, path], ':');
    assert ':' in url by { assert url[|id|] == ':'; }
    MatchesUnixPathIff(path);
  }

  /** A bare integer names an instance at the root path. */
  lemma ParseVastUrlInstance(n: int)
    ensures ParseVastUrl(ShowInt(n)) == Ok((IdNum(n), "/"))
  {
    ParseShowInt(n);
    var s := ShowInt(n);
    var d := ShowNat(if n < 0 then -n else n);
    assert ':' !in s by {
      assert forall i :: 0 <= i < |d| ==> IsDigit(d[i]);
      if n < 0 { assert s == "-" + d; }
    }
  }
}

=== FILE: version_checker.dfy ===
/**
 * The update check: version strings read as integer tuples, the local
 * version taken from a git tag or the installed package, and the update
 * offered when the local tuple is smaller than the one published.
 */
module VersionCheck {
  import opened Wrappers
  import opened PyStr
  import opened PyDict
  import opened PyExc
  import opened Json

  // ----- parse_version -----

  /** Every piece is an integer as `int()` reads it. */
  predicate AllInts(parts: seq<string>) {
    forall i :: 0 <= i < |parts| ==> ParseInt(parts[i]).Some?
  }

  /** `ns` holds one number per piece, the one `int()` reads from it. */
  predicate ReadAs(parts: seq<string>, ns: seq<int>) {
    |ns| == |parts| && forall i :: 0 <= i < |parts| ==> ParseInt(parts[i]).Some? && ParseInt(parts[i]).value == ns[i]
  }

  /** `int(part)` for each dot-separated piece, in order; the first piece that is not an integer raises. */
  function ParseParts(parts: seq<string>): (r: Result<seq<int>, Exc>)
    ensures r.Ok? <==> AllInts(parts)
    ensures r.Ok? ==> ReadAs(parts, r.value)
    ensures r.Err? ==> r.error.ValueError?
    decreases |parts|
  {
    if |parts| == 0 then Ok([])
    else
      match ParseInt(parts[0])
      case None => Err(ValueError("invalid literal for int() with base 10: " + parts[0]))
      case Some(n) =>
        AllIntsCons(parts);
        match ParseParts(parts[1..])
        case Err(e) => Err(e)
        case Ok(ns) =>
          ReadAsCons(parts, n, ns);
          Ok([n] + ns)
  }

  lemma AllIntsCons(parts: seq<string>)
    requires |parts| > 0
    ensures AllInts(parts) <==> ParseInt(parts[0]).Some? && AllInts(parts[1..])
  {
    if ParseInt(parts[0]).Some? && AllInts(parts[1..]) {
      forall i | 0 <= i < |parts| ensures ParseInt(parts[i]).Some? {
        if i > 0 { assert parts[i] == parts[1..][i - 1]; }
      }
    }
  }

  lemma ReadAsCons(parts: seq<string>, n: int, ns: seq<int>)
    requires |parts| > 0 && ParseInt(parts[0]) == Some(n) && ReadAs(parts[1..], ns)
    ensures ReadAs(parts, [n] + ns)
  {
    var m := [n] + ns;
    forall i | 0 <= i < |parts| ensures ParseInt(parts[i]).Some? && ParseInt(parts[i]).value == m[i] {
      if i > 0 {
        assert parts[i] == parts[1..][i - 1];
      }
    }
  }

  /**
   * `parse_version`: the tuple of the dot-separated integers of the version
   * string. It is refused exactly when some piece is not an integer.
   */
  function ParseVersion(version: string): (r: Result<seq<int>, Exc>)
    ensures r.Ok? <==> AllInts(Split(version, '.'))
    ensures r.Ok? ==> ReadAs(Split(version, '.'), r.value)
  {
    ParseParts(Split(version, '.'))
  }

  /**
   * The warning `parse_version` prints: present exactly when the version has
   * fewer than two dots. The warning does not stop the parse.
   */
  function VersionWarning(version: string): (w: Option<string>)
    ensures w.Some? <==> Count(version, '.') < 2
    ensures w.Some? ==> w.value == "Invalid version format: " + version
  {
    SplitCount(version, '.');
    if |Split(version, '.')| < 3 then Some("Invalid version format: " + version) else None
  }

  /** The empty string is not a version: `int('')` raises. */
  lemma EmptyVersionRaises()
    ensures ParseVersion("").Err? && ParseVersion("").error.ValueError?
  {
    assert Split("", '.') == [""];
    assert ParseInt("") == None;
  }

  /** The text of a tuple of natural numbers joined with dots, as a version is published. */
  function ShowVersion(ns: seq<nat>): (s: string)
    requires |ns| >= 1
  {
    Join(ShowParts(ns), ".")
  }

  function ShowParts(ns: seq<nat>): (ps: seq<string>)
    ensures |ps| == |ns|
    ensures forall i :: 0 <= i < |ns| ==> ps[i] == ShowNat(ns[i])
  {
    seq(|ns|, i requires 0 <= i < |ns| => ShowNat(ns[i]))
  }

  /** Reading back a version written from numbers gives the numbers. */
  lemma ParseShowVersion(ns: seq<nat>)
    requires |ns| >= 1
    ensures ParseVersion(ShowVersion(ns)) == Ok(ns)
  {
    var ps := ShowParts(ns);
    forall i | 0 <= i < |ps| ensures '.' !in ps[i] {
      assert AllDigits(ps[i]);
    }
    SplitJoin(ps, '.');
    forall i | 0 <= i < |ps| ensures ParseInt(ps[i]) == Some(ns[i] as int) {
      ShowNatParses(ns[i]);
    }
    var r := ParseParts(ps);
    assert r.Ok?;
    assert r.value == ns;
  }

  lemma ShowNatParses(n: nat)
    ensures ParseInt(ShowNat(n)) == Some(n as int)
  {
    ParseShowInt(n);
    assert ShowInt(n) == ShowNat(n);
  }

  // ----- the local version -----

  /**
   * `get_git_version`: the tag printed by `git describe`, stripped, without a
   * leading `v`. `None` stands for the command failing, which gives `0.0.0`.
   */
  function GitVersion(stdout: Option<string>): (v: string)
    ensures stdout.None? ==> v == "0.0.0"
  {
    match stdout
    case None => "0.0.0"
    case Some(out) =>
      var tag := Strip(out, Whitespace);
      if StartsWith(tag, "v") then tag[1..] else tag
  }

  /** A tag `v<version>` followed by a newline gives the version, when the version does not end in whitespace. */
  lemma GitTagVersion(version: string)
    requires |version| > 0 && !IsSpace(version[|version| - 1])
    ensures GitVersion(Some("v" + version + "\n")) == version
  {
    var out := "v" + version + "\n";
    var t := "v" + version;
    assert LStrip(out, Whitespace) == out;
    assert out[..|out| - 1] == t;
    assert RStrip(t, Whitespace) == t;
    assert Strip(out, Whitespace) == t;
    assert t[1..] == version;
  }

  /** A tag without the `v` prefix is taken as it is, once stripped. */
  lemma GitTagUnprefixed(tag: string)
    requires |tag| > 0 && tag[0] != 'v' && !IsSpace(tag[0]) && !IsSpace(tag[|tag| - 1])
    ensures GitVersion(Some(tag + "\n")) == tag
  {
    var out := tag + "\n";
    assert LStrip(out, Whitespace) == out;
    assert out[..|out| - 1] == tag;
    assert RStrip(tag, Whitespace) == tag;
  }

  /** A tag written from numbers, as `git describe` prints it, reads back as those numbers. */
  lemma GitTagRoundTrip(ns: seq<nat>)
    requires |ns| >= 1
    ensures ParseVersion(GitVersion(Some("v" + ShowVersion(ns) + "\n"))) == Ok(ns)
  {
    var s := ShowVersion(ns);
    LastCharNotSpace(ns);
    GitTagVersion(s);
    ParseShowVersion(ns);
  }

  /** A version written from numbers ends in a digit. */
  lemma LastCharNotSpace(ns: seq<nat>)
    requires |ns| >= 1
    ensures |ShowVersion(ns)| > 0 && !IsSpace(ShowVersion(ns)[|ShowVersion(ns)| - 1])
  {
    var ps := ShowParts(ns);
    if |ps| == 1 {
      assert ShowVersion(ns) == ps[0];
    } else {
      JoinSnoc(ps[..|ps| - 1], ".", ps[|ps| - 1]);
      assert ps[..|ps| - 1] + [ps[|ps| - 1]] == ps;
      var last := ps[|ps| - 1];
      assert AllDigits(last);
    }
  }

  /** `get_pip_version`: the installed package's version, or `0.0.0` when the lookup fails. */
  function PipVersion(installed: Option<string>): (v: string)
    ensures installed.Some? ==> v == installed.value
    ensures installed.None? ==> v == "0.0.0"
  {
    installed.GetOr("0.0.0")
  }

  /** `get_local_version`: the package version when installed with pip, the git tag otherwise. */
  function LocalVersion(isPip: bool, installed: Option<string>, gitStdout: Option<string>): (v: string)
    ensures isPip ==> v == PipVersion(installed)
    ensures !isPip ==> v == GitVersion(gitStdout)
  {
    if isPip then PipVersion(installed) else GitVersion(gitStdout)
  }

  /** Either way the local version is found, a failed lookup reads as version 0.0.0. */
  lemma UnknownLocalIsZero(isPip: bool)
    ensures ParseVersion(LocalVersion(isPip, None, None)) == Ok([0, 0, 0])
  {
    ZeroVersionText();
    ParseShowVersion([0, 0, 0]);
  }

  /** `0.0.0` is the version written from three zeros. */
  lemma ZeroVersionText()
    ensures ShowVersion([0, 0, 0]) == "0.0.0"
  {
    var z := ShowNat(0);
    assert z == "0" by { assert z == [DigitChar(0)]; }
    var ps := ShowParts([0, 0, 0]);
    assert ps == [z, z, z];
    assert Join([z], ".") == z;
    JoinCons(z, [z], ".");
    JoinCons(z, [z, z], ".");
  }

  /**
   * `get_pypi_version`: the `version` of the project's `info` record, as
   * text. A missing or empty `info` raises; a missing version reads as
   * `None`. `str` stands for Python's `str()` on values that are not text.
   */
  function PypiVersion(project: Dict<string, Json>, str: Json -> string): (r: Result<string, Exc>)
    ensures r.Err? <==> Get(project, "info").None? || !Truthy(Get(project, "info").value)
                        || !Get(project, "info").value.JObj?
    ensures r.Ok? ==> var info := Get(project, "info").value.fields;
                      (Get(info, "version").None? ==> r.value == "None")
                      && (Get(info, "version").Some? && Get(info, "version").value.JStr? ==> r.value == Get(info, "version").value.s)
  {
    match Get(project, "info")
    case None => Err(PlainException("Could not get PyPi Project"))
    case Some(info) =>
      if !Truthy(info) then Err(PlainException("Could not get PyPi Project"))
      else if !info.JObj? then Err(AttributeError("object has no attribute 'get'"))
      else
        match Get(info.fields, "version")
        case None => Ok("None")
        case Some(v) => Ok(if v.JStr? then v.s else str(v))
  }

  // ----- comparing versions -----

  /** Python's `<` on tuples of integers: at the first difference the smaller element decides, and a proper prefix is smaller. */
  predicate TupleLt(a: seq<int>, b: seq<int>)
    decreases |a|
  {
    if |a| == 0 then |b| > 0
    else if |b| == 0 then false
    else a[0] < b[0] || (a[0] == b[0] && TupleLt(a[1..], b[1..]))
  }

  /** Lexicographic order stated directly: a first differing position where `a` is smaller, or `a` a proper prefix of `b`. */
  ghost predicate LexLess(a: seq<int>, b: seq<int>) {
    || (exists i :: 0 <= i < |a| && i < |b| && a[..i] == b[..i] && a[i] < b[i])
    || (|a| < |b| && a == b[..|a|])
  }

  lemma {:induction false} TupleLtIsLexLess(a: seq<int>, b: seq<int>)
    ensures TupleLt(a, b) <==> LexLess(a, b)
    decreases |a|
  {
    if |a| == 0 {
      assert a == b[..0];
    } else if |b| == 0 {
    } else {
      TupleLtIsLexLess(a[1..], b[1..]);
      if TupleLt(a, b) {
        if a[0] < b[0] {
          assert a[..0] == b[..0];
        } else {
          LexLessCons(a, b);
        }
      } else if LexLess(a, b) {
        LexLessUncons(a, b);
      }
    }
  }

  /** With equal first elements, lexicographic order of the tails carries over to the whole. */
  lemma LexLessCons(a: seq<int>, b: seq<int>)
    requires |a| > 0 && |b| > 0 && a[0] == b[0] && LexLess(a[1..], b[1..])
    ensures LexLess(a, b)
  {
    if exists i :: 0 <= i < |a[1..]| && i < |b[1..]| && a[1..][..i] == b[1..][..i] && a[1..][i] < b[1..][i] {
      var i :| 0 <= i < |a[1..]| && i < |b[1..]| && a[1..][..i] == b[1..][..i] && a[1..][i] < b[1..][i];
      assert a[..i + 1] == [a[0]] + a[1..][..i];
      assert b[..i + 1] == [b[0]] + b[1..][..i];
      assert a[i + 1] < b[i + 1];
    } else {
      assert a == [a[0]] + a[1..];
      assert b[..|a|] == [b[0]] + b[1..][..|a| - 1];
    }
  }

  /** Lexicographic order decided past the first element agrees on the first element and orders the tails. */
  lemma LexLessUncons(a: seq<int>, b: seq<int>)
    requires |a| > 0 && |b| > 0 && LexLess(a, b)
    ensures a[0] < b[0] || (a[0] == b[0] && LexLess(a[1..], b[1..]))
  {
    if exists i :: 0 <= i < |a| && i < |b| && a[..i] == b[..i] && a[i] < b[i] {
      var i :| 0 <= i < |a| && i < |b| && a[..i] == b[..i] && a[i] < b[i];
      if i > 0 {
        assert a[0] == a[..i][0] == b[..i][0] == b[0];
        assert a[1..][..i - 1] == a[..i][1..];
        assert b[1..][..i - 1] == b[..i][1..];
        assert a[1..][i - 1] < b[1..][i - 1];
      }
    } else {
      assert a[0] == b[..|a|][0] == b[0];
      assert a[1..] == b[..|a|][1..] == b[1..][..|a| - 1];
    }
  }

  lemma {:induction false} TupleLtIrreflexive(a: seq<int>)
    ensures !TupleLt(a, a)
    decreases |a|
  {
    if |a| > 0 {
      TupleLtIrreflexive(a[1..]);
    }
  }

  lemma {:induction false} TupleLtTransitive(a: seq<int>, b: seq<int>, c: seq<int>)
    requires TupleLt(a, b) && TupleLt(b, c)
    ensures TupleLt(a, c)
    decreases |a|
  {
    if |a| > 0 && a[0] == b[0] && b[0] == c[0] {
      TupleLtTransitive(a[1..], b[1..], c[1..]);
    }
  }

  /** Any two tuples are equal or ordered one way or the other. */
  lemma {:induction false} TupleLtTotal(a: seq<int>, b: seq<int>)
    ensures a == b || TupleLt(a, b) || TupleLt(b, a)
    decreases |a|
  {
    if |a| > 0 && |b| > 0 && a[0] == b[0] {
      TupleLtTotal(a[1..], b[1..]);
      if a[1..] == b[1..] {
        assert a == [a[0]] + a[1..] && b == [b[0]] + b[1..];
      }
    }
  }

  /** Versions compare by number, not by text: 1.10.0 is newer than 1.9.0, and 1.2 is older than 1.2.0. */
  lemma NumericOrder()
    ensures TupleLt([1, 9, 0], [1, 10, 0])
    ensures TupleLt([1, 2], [1, 2, 0])
  {
    assert [1, 9, 0][1..] == [9, 0] && [1, 10, 0][1..] == [10, 0];
    assert [1, 2][1..] == [2] && [1, 2, 0][1..] == [2, 0];
    assert [2][1..] == [] && [2, 0][1..] == [0];
  }

  /** Python's `a >= b` on tuples: `b < a` or equal. */
  predicate TupleGe(a: seq<int>, b: seq<int>) {
    TupleLt(b, a) || a == b
  }

  /** The answer to the update prompt: lower-cased, `y` or an empty answer means yes. */
  predicate WantsUpdate(answer: string) {
    Lower(answer) in ["y", ""]
  }

  /** Exactly `y`, `Y` and the empty answer accept the update. */
  lemma WantsUpdateIff(answer: string)
    ensures WantsUpdate(answer) <==> answer == "" || answer == "y" || answer == "Y"
  {
    if |answer| == 1 {
      assert Lower(answer) == [LowerChar(answer[0])];
    }
  }

  /** What the update check ends in. */
  datatype Decision = UpToDate | Declined | Update(version: string)

  /**
   * `check_for_update` up to running the update command: both versions are
   * parsed (the local one first), nothing happens when the local tuple is
   * at least the published one, and otherwise the answer decides.
   */
  function CheckForUpdate(local: string, published: string, answer: string): (r: Result<Decision, Exc>)
    ensures r.Ok? <==> ParseVersion(local).Ok? && ParseVersion(published).Ok?
    ensures r.Ok? && r.value.Update? ==> r.value.version == published
    ensures r.Ok? && r.value != UpToDate ==> (r.value.Update? <==> WantsUpdate(answer))
  {
    var l :- ParseVersion(local);
    var p :- ParseVersion(published);
    if TupleGe(l, p) then Ok(UpToDate)
    else if !WantsUpdate(answer) then Ok(Declined)
    else Ok(Update(published))
  }

  /** An update is offered exactly when the local version is lexicographically older than the published one. */
  lemma UpdateOfferedIff(local: string, published: string, answer: string)
    requires ParseVersion(local).Ok? && ParseVersion(published).Ok?
    ensures CheckForUpdate(local, published, answer).value != UpToDate
            <==> LexLess(ParseVersion(local).value, ParseVersion(published).value)
  {
    var l := ParseVersion(local).value;
    var p := ParseVersion(published).value;
    TupleLtIsLexLess(l, p);
    TupleLtTotal(l, p);
    if TupleLt(l, p) {
      if TupleLt(p, l) {
        TupleLtTransitive(l, p, l);
        TupleLtIrreflexive(l);
      }
      if l == p {
        TupleLtIrreflexive(l);
      }
    }
  }

  /** An unknown local version, read as 0.0.0, is offered any release numbered above it. */
  lemma UnknownLocalOffered(isPip: bool, ns: seq<nat>, answer: string)
    requires |ns| >= 1 && TupleLt([0, 0, 0], ns)
    ensures var r := CheckForUpdate(LocalVersion(isPip, None, None), ShowVersion(ns), answer);
            r.Ok? && r.value != UpToDate
  {
    var l := LocalVersion(isPip, None, None);
    var p := ShowVersion(ns);
    var zero: seq<int> := [0, 0, 0];
    var pn: seq<int> := ns;
    UnknownLocalIsZero(isPip);
    ParseShowVersion(ns);
    assert ParseVersion(l).value == zero;
    assert ParseVersion(p).value == pn;
    TupleLtIsLexLess(zero, pn);
    UpdateOfferedIff(l, p, answer);
  }
}

=== FILE: wrappers.dfy ===
/** Failure-carrying result types shared by every module of the model. */
module Wrappers {

  datatype Option<+T> = None | Some(value: T) {
    predicate IsFailure() { None? }

    function PropagateFailure<U>(): Option<U>
      requires None?
    {
      None
    }

    function Extract(): T
      requires Some?
    {
      value
    }

    function GetOr(default: T): T {
      match this
      case Some(v) => v
      case None => default
    }
  }

  /** The outcome of an operation that Python would end with an exception. */
  datatype Result<+R, +E> = Ok(value: R) | Err(error: E) {
    predicate IsFailure() { Err? }

    function PropagateFailure<U>(): Result<U, E>
      requires Err?
    {
      Err(error)
    }

    function Extract(): R
      requires Ok?
    {
      value
    }
  }
}
